=== FILE: README.md ===
# Crypto signal bots and Crypto Shield Pro, modelled in Dafny

This project models two browser programs.

- **The signal bot.** There are four successive versions: `bot-sinais`, `bot-sinais2`, `bot-sinais3` and `bot-sinais4`. Each one watches 1-minute Binance klines for a set of symbols. It keeps a capped close series per symbol and computes indicators on it: RSI, stochastic RSI, ATR, EMA, support/resistance levels and trend lines. Between seconds 1 and 25 of each minute it announces CALL/PUT signals and enters them as trades. At second 0 it scores each open trade as WIN or LOSS against the live price. It keeps daily counters, a result log and (from bot-sinais3 on) a bankroll. bot-sinais2 and later switch each symbol between REVERSAO and ROMPIMENTO. bot-sinais4 also classifies the market regime and tunes its own thresholds.
- **`crypto-shield-pro`.** A one-asset analyser. It computes Wilder RSI and SMA crossings, runs a small backtest, keeps a 72-hour memory of trend-line outcomes, builds a "smart adaptive" score from volume and order-book imbalance, and holds a reconnecting kline stream.

Every version of the bot is one model, parameterised by `Version` (`V1`..`V4`) where the versions differ. Each symbol's state is a `Sym`; the days, log and bankroll are a `Session`.

Prices and indicator values are `real`. A JavaScript value that is null, undefined or NaN is `Num.Option.None`. Where a division by a possibly-zero EMA decides a branch, the result is `Num.Ext` (`Fin`/`PosInf`/`NaN`) with the IEEE comparison rules. Clocks, sockets, storage and the DOM are left out. What they feed in (second of the minute, minute stamp, day key, current time, kline messages) is passed as parameters.

Modules:

| module | file | what it holds |
|---|---|---|
| `Num` | num.dfy | options, clamping, `Math.round`, sums, means, extrema |
| `Feed` | feed.dfy | the bots' kline handler: live price, capped series, reconnect backoff |
| `Indicators` | indicators.dfy | the bots' RSI (unclamped v1/v2, clamped v3/v4), `simpleSMA`, `stochRsi`, `atr`, `ema` |
| `SupportResistance` | support_resistance.dfy | bot-sinais2's `computeSRLevels` with its bin grid |
| `TrendLines` | trendlines.dfy | the pivot scan and LTB/LTA lines of `computeTrendLines` |
| `Regime` | regime.dfy | bot-sinais4's `detectMarketRegime`, the EMA trend tests and `scoreSignal` |
| `Trade` | trade.dfy | the WIN rule, counters, result log, `recalcSaldoFromResults` |
| `Learning` | learning.dfy | bot-sinais4's `learn` and `adaptiveThreshold` |
| `ModeSwitch` | modes.dfy | `autoAdjustModePerSymbol` of bot-sinais2 and of bot-sinais3/4 |
| `Signals` | signals.dfy | each version's `announceSignals` decision for one symbol |
| `Lifecycle` | lifecycle.dfy | announce, enter, exit-and-score, the day session and the scheduler tick |
| `ShieldIndicators` | shield_indicators.dfy | crypto-shield's `smaSeries`, Wilder `rsi`, `rsiSeries` |
| `ShieldSignal` | shield_signal.dfy | `determineSignal`, `miniBacktest`, `runAnalysis`, the smart-adaptive and depth rules |
| `ShieldMemory` | shield_memory.dfy | the trend-line memory: accuracy, `adjustProbWithATL`, purge, outcome recording |
| `ShieldStream` | shield_stream.dfy | the kline store and the reconnect logic of `startKlineStream` |

## Model

| member | source | states |
|---|---|---|
| Num.Clamp | crypto-shield-pro/script.js:12 | with lo ≤ hi the result is in [lo, hi]; it is x when x is already inside, lo below and hi above |
| Feed.PushCapped | bot-sinais/app.js:259-260 | push then splice keeps the newest min(n+1, 500) elements of the extended series, ending with the new one |
| Feed.PushCappedFull | bot-sinais/app.js:259-260 | on a full series of 500 the oldest element makes room: the result is the tail plus the new value |
| Feed.NextPrice | bot-sinais/app.js:250-254 | a finite close becomes the live price; a non-finite one leaves the old price, and a known price is never lost |
| Feed.PriceNeverLost | bot-sinais/app.js:250-254 | once a symbol has a live price, every run of messages leaves it one |
| Feed.PriceAfterIsLastFinite | bot-sinais/app.js:250-254 | after a run of messages the live price is the last finite close among them |
| Feed.PushCloseAsWritten | bot-sinais/app.js:256-261 | the handler as written: an open kline changes nothing; a closed one appends its close, finite or not, capped |
| Feed.NonFiniteCloseIsPushed | bot-sinais/app.js:250-261 | a closed kline with a non-numeric close leaves a non-number at the end of the close series |
| Feed.PushCandle | bot-sinais4/app.js:880-892 | the corrected push (see Findings): a closed candle with finite close, high and low extends the three series, each capped at 500, keeping them equally long; a candle that is not closed or has a non-finite close, high or low leaves them |
| Feed.PushCandleAgreesWhenFinite | bot-sinais4/app.js:880-892 | on finite candles the guarded push equals the handlers' push, so the guard only removes the non-finite case |
| Feed.ScheduleReconnect | bot-sinais3/app.js:635-639 | the attempt counter rises by one up to 5, and the delay is the backoff table's entry for it, between 1 s and 12 s |
| Feed.FallbackUnreachable | bot-sinais3/app.js:636-637 | the table is never read past its end, so the 15 s fallback never happens |
| Feed.BackoffNonDecreasing | bot-sinais3/app.js:636-637 | each further failure waits at least as long as the previous one |
| Feed.AttemptsAfterReset | bot-sinais3/app.js:585-587 | after n failures since the last open (which resets the counter) the counter is min(n, 5) |
| Indicators.Diffs | bot-sinais/app.js:141-144 | one delta per consecutive pair of closes, later minus earlier |
| Indicators.AbsDiffs | bot-sinais/app.js:195-196 | the absolute consecutive deltas, all non-negative |
| Indicators.Gains | bot-sinais/app.js:147-151 | the sum of a window's rising deltas is non-negative |
| Indicators.Losses | bot-sinais/app.js:147-151 | the sum of the magnitudes of a window's non-rising deltas is non-negative |
| Indicators.NoLossWhenNoFall | bot-sinais/app.js:147-151 | a window without a falling delta has zero losses |
| Indicators.WindowRsiUnclamped | bot-sinais2/app.js:369-377 | 100 when the window has no losses, otherwise in [0, 100) |
| Indicators.WindowRsi | bot-sinais3/app.js:407-414 | the clamped value lies in [0, 100] and is 100 for a window with no losses |
| Indicators.WindowsRsiUnclamped | bot-sinais/app.js:146-157 | one value per window of `length` deltas, each the window's RSI and each within [0, 100] |
| Indicators.WindowsRsi | bot-sinais4/app.js:680-691 | one clamped value per window of `length` deltas, each within [0, 100] |
| Indicators.RsiAt | bot-sinais4/app.js:680-691 | entry i of the RSI series is the RSI of the i-th window of deltas |
| Indicators.RsiUnclamped | bot-sinais2/app.js:361-381 | null exactly when there are fewer than length+1 closes; otherwise closes−length values, all in [0, 100] |
| Indicators.Rsi | bot-sinais4/app.js:673-693 | null exactly below length+1 closes; otherwise closes−length values in [0, 100], entry i being the RSI of delta window i |
| Indicators.RsiClampIsNoOp | bot-sinais4/app.js:673-693 | the clamp added in bot-sinais3/4 never fires: both RSI versions agree on every input |
| Indicators.WindowClampIsNoOp | bot-sinais4/app.js:686-689 | on a single window the clamped and unclamped RSI agree |
| Indicators.RsiOfZeroLossWindow | bot-sinais4/app.js:686-689 | a delta window with no losses gives an RSI of 100 |
| Indicators.RsiOfNonFallingSeries | bot-sinais4/app.js:673-693 | on a series that never falls every RSI value is 100 |
| Indicators.SimpleSma | bot-sinais/app.js:161-166 | null exactly when there are fewer than `len` values |
| Indicators.SmaWithin | bot-sinais/app.js:161-166 | the average lies within any range holding its window, so a constant window gives its constant |
| Indicators.SmaTimesPeriod | crypto-shield-pro/script.js:60-64 | the average times the period gives back the sum of the last `period` values |
| Indicators.WindowStoch | bot-sinais/app.js:182-184 | the stochastic position of a window's last value lies in [0, 100] |
| Indicators.StochSeries | bot-sinais/app.js:180-186 | one value per window of stochLen RSI values, each in [0, 100] |
| Indicators.MeanLastInRange | bot-sinais/app.js:187-189 | the mean of the last n values of a [0, 100] series is in [0, 100] |
| Indicators.SmoothKD | bot-sinais/app.js:187-190 | K is the mean of the last min(k, n) stochastic values and D the mean of the last min(d, n), so slicing to the last max(d, 1) first changes nothing; both lie in [0, 100] and coincide when k = d |
| Indicators.StochRsi | bot-sinais/app.js:168-191 | null exactly when the RSI series is missing or shorter than stochLen; all zeros when the last stochLen RSI values are equal; otherwise the stochastic value of that window, with K and D the means of the last min(k, n) and min(d, n) rolling stochastic values; all three in [0, 100] (K = D when k = d) |
| Indicators.StochRsiFlat | bot-sinais/app.js:172-175 | when the last stochLen RSI values are equal, stoch, K and D are all 0 |
| Indicators.Atr | bot-sinais/app.js:193-200 | null exactly below period+1 points; otherwise non-negative |
| Indicators.AtrZeroMeansFlat | bot-sinais/app.js:193-200 | a zero ATR means the last period+1 closes are all equal |
| Indicators.AtrOfFlat | bot-sinais/app.js:193-200 | equal closes over the last period+1 points give a zero ATR |
| Indicators.AtrZeroIffFlat | bot-sinais/app.js:193-200 | ATR is zero if and only if the last period+1 closes are all equal |
| Indicators.EmaFoldBounds | bot-sinais3/app.js:461-469 | the exponential fold never leaves the range of its inputs |
| Indicators.Ema | bot-sinais3/app.js:461-469 | null exactly below `length` closes; otherwise between the series' minimum and maximum, and equal to a constant series' value |
| ShieldIndicators.SmaSeries | crypto-shield-pro/script.js:106-115 | the running-sum loop gives, at every index, the `sma` of the prefix ending there; null exactly before index period−1 |
| ShieldIndicators.SmaStep | crypto-shield-pro/script.js:109-113 | one loop pass moves the running sum to the next window and produces the prefix's `sma` |
| ShieldIndicators.PrefixSmaNulls | crypto-shield-pro/script.js:106-113 | the prefix averages are null exactly while the prefix is shorter than the period |
| ShieldIndicators.RunningSumStep | crypto-shield-pro/script.js:110-111 | adding the new value and dropping the one that leaves the window gives the next window's sum |
| ShieldIndicators.SmaOfPrefix | crypto-shield-pro/script.js:110-113 | the running sum divided by the period is the `sma` of the prefix |
| ShieldIndicators.SeedSums | crypto-shield-pro/script.js:86-89 | the seed gain and loss sums are non-negative |
| ShieldIndicators.SeedLossOfRising | crypto-shield-pro/script.js:86-89 | a series that never falls has no seed loss |
| ShieldIndicators.SeedGainOfFalling | crypto-shield-pro/script.js:86-89 | a series that never rises has no seed gain |
| ShieldIndicators.Smooth | crypto-shield-pro/script.js:97-98 | a Wilder smoothing step of non-negative inputs is non-negative |
| ShieldIndicators.WilderAvgs | crypto-shield-pro/script.js:92-99 | the smoothed gain and loss averages stay non-negative at every step |
| ShieldIndicators.LossOfRising | crypto-shield-pro/script.js:92-99 | a series that never falls keeps a zero smoothed loss |
| ShieldIndicators.GainOfFalling | crypto-shield-pro/script.js:92-99 | a series that never rises keeps a zero smoothed gain |
| ShieldIndicators.WilderRsi | crypto-shield-pro/script.js:82-103 | null exactly below period+1 values; otherwise in [0, 100], and 100 exactly when the smoothed loss is zero |
| ShieldIndicators.WilderRsiLoop | crypto-shield-pro/script.js:82-103 | the two loops as written compute the recursive Wilder RSI |
| ShieldIndicators.RisingRsiIsHundred | crypto-shield-pro/script.js:82-103 | a series that never falls has an RSI of 100 |
| ShieldIndicators.FallingRsiIsZero | crypto-shield-pro/script.js:82-103 | a series that never rises but does fall has an RSI of 0 |
| ShieldIndicators.RsiSeries | crypto-shield-pro/script.js:118-126 | entry i is the Wilder RSI of the closes up to i |
| ShieldIndicators.RsiSeriesShape | crypto-shield-pro/script.js:118-126 | the series is null exactly on its first `period` entries and ends with the RSI of the whole input |
| ShieldMemory.MakeDirection | crypto-shield-pro/script.js:570-574 | NEUTRO has no direction; COMPRA and only COMPRA maps to LTA |
| ShieldMemory.Wins | crypto-shield-pro/script.js:541-547 | a direction never has more WIN entries than entries |
| ShieldMemory.CountsAppend | crypto-shield-pro/script.js:541-547 | appending an entry moves only its own direction's count and win count |
| ShieldMemory.DirectionAccuracy | crypto-shield-pro/script.js:541-547 | the share of WINs among the direction's entries, 0.5 without entries, always in [0, 1] |
| ShieldMemory.HitRate | crypto-shield-pro/script.js:545 | a share in [0, 1] that times the total gives the wins; 0 with no wins, 1 with all wins |
| ShieldMemory.RatioStep | crypto-shield-pro/script.js:545 | one more win never lowers a hit rate; one more loss never raises it |
| ShieldMemory.WinRaisesAccuracy | crypto-shield-pro/script.js:541-547 | recording a WIN never lowers its direction's accuracy |
| ShieldMemory.LossLowersAccuracy | crypto-shield-pro/script.js:541-547 | recording a LOSS never raises its direction's accuracy |
| ShieldMemory.OtherDirectionUnchanged | crypto-shield-pro/script.js:541-547 | an entry for one direction leaves the other direction's record alone |
| ShieldMemory.AdjustProb | crypto-shield-pro/script.js:548-552 | the scaled probability always lies in [40, 95] |
| ShieldMemory.AdjustProbWithAtl | crypto-shield-pro/script.js:548-552 | the memory-adjusted probability lies in [40, 95] and depends on the memory only through the direction's accuracy |
| ShieldMemory.NoHistoryKeepsProb | crypto-shield-pro/script.js:545-551 | with no history for the direction, a probability already in [40, 95] passes through unchanged |
| ShieldMemory.AdjustMonotone | crypto-shield-pro/script.js:550-551 | a better accuracy never lowers a non-negative probability |
| ShieldMemory.Purge | crypto-shield-pro/script.js:535-540 | keeps exactly the entries younger than 72 hours, and nothing that was not there |
| ShieldMemory.PurgeIdempotent | crypto-shield-pro/script.js:535-540 | purging twice at the same moment removes nothing more |
| ShieldMemory.Persisted | crypto-shield-pro/script.js:532-534 | the saved memory is the newest 200 entries, oldest first |
| ShieldMemory.Judge | crypto-shield-pro/script.js:554-558 | WIN exactly when a buy's close rose above its price or a sell's fell below; everything else, a missing close included, is a LOSS |
| ShieldMemory.RecordOutcome | crypto-shield-pro/script.js:553-569 | without a context or its price nothing happens; otherwise the verdict becomes the last outcome, ends the memory as a fresh entry, and every kept entry is recent; the context is kept |
| ShieldMemory.PurgeKeepsRecentLast | crypto-shield-pro/script.js:561-568 | a fresh entry survives the purge as the last element |
| ShieldMemory.SlopeNormalized | crypto-shield-pro/script.js:575-582 | 0 with fewer than two closes; with a positive previous close it is positive exactly when the last close rose |
| ShieldMemory.UpdateContext | crypto-shield-pro/script.js:692-700 | only a decisive signal replaces the context, with its direction, three touches and a price exactly when there are closes |
| ShieldMemory.SignalThenMoveIsWin | crypto-shield-pro/script.js:553-569 | a decisive signal followed by a close that moves its way is recorded as a WIN |
| ShieldSignal.CrossesExclusive | crypto-shield-pro/script.js:130-131 | the upward and downward crossings never happen together |
| ShieldSignal.SignalOf | crypto-shield-pro/script.js:132-140 | for each strategy, exactly when COMPRA and when VENDA are given (RSI extreme, crossing, or both; buy tested first) |
| ShieldSignal.StrengthOf | crypto-shield-pro/script.js:145-147 | FORTE exactly for a wide gap and a far RSI; FRACO exactly for a narrow gap and a near RSI |
| ShieldSignal.ProbOf | crypto-shield-pro/script.js:148-153 | the heuristic probability is in [50, 80], 50 for NEUTRO and 80 at the top of both scales, so the [40, 90] clamp never binds |
| ShieldSignal.DetermineSignal | crypto-shield-pro/script.js:129-155 | the signal is the strategy's rule on the two crossings; the strength and probability are the rules on the relative gap |fast − slow| / slow and the RSI distance for that signal; the probability is in [50, 80], so the [40, 90] clamp never binds, and is 50 for a NEUTRO that is never FORTE |
| ShieldSignal.CrossedUp | crypto-shield-pro/script.js:130 | an upward crossing needs both previous averages and a fast average now above the slow one; it is exactly the downward crossing with the two averages swapped |
| ShieldSignal.CrossedDown | crypto-shield-pro/script.js:131 | a downward crossing needs both previous averages and a fast average now below the slow one; never without a previous value |
| ShieldSignal.Verdict | crypto-shield-pro/script.js:246-255 | a signal fires exactly on the combined buy or sell rule; a hit needs a non-zero later change |
| ShieldSignal.TradeAtSeries | crypto-shield-pro/script.js:241-247 | from candle 22 on the averages and the RSI all exist, and the verdict read from the series is the verdict on the prefixes |
| ShieldSignal.TallyUpTo | crypto-shield-pro/script.js:238-259 | never more hits than signals, and at most one signal per scanned candle |
| ShieldSignal.ScoreCandle | crypto-shield-pro/script.js:240-258 | one loop pass moves the counters from the tally up to candle i to the tally up to i+1 |
| ShieldSignal.BacktestProb | crypto-shield-pro/script.js:231-264 | in [45, 90], and 50 with fewer than 60 closes or with no signal |
| ShieldSignal.MiniBacktest | crypto-shield-pro/script.js:231-264 | the backtest loop as written returns the backtest probability |
| ShieldSignal.BacktestExtremes | crypto-shield-pro/script.js:260-263 | all hits give 90, no hits give 45 |
| ShieldSignal.BlendProb | crypto-shield-pro/script.js:210 | the blended probability is in [47, 87] and equals both inputs when they agree |
| ShieldSignal.RunAnalysis | crypto-shield-pro/script.js:181-228 | fewer than 30 closes show NEUTRO, FRACO, 50; otherwise `determineSignal`'s signal and strength, with the probability the rounded 65/35 blend of the backtest's and the heuristic's, which lies in [47, 87] |
| ShieldSignal.BookDiff | crypto-shield-pro/script.js:622 | with non-negative volumes the imbalance is in [−1, 1], positive exactly when bids exceed asks |
| ShieldSignal.VolDiff | crypto-shield-pro/script.js:623 | positive exactly when the current volume exceeds the average |
| ShieldSignal.AvgVolume | crypto-shield-pro/script.js:408-414 | 0 for no volumes; otherwise between the smallest and the largest volume |
| ShieldSignal.AvgVolumeWindow | crypto-shield-pro/script.js:410-413 | the average is the simple moving average of the last min(n, period) volumes |
| ShieldSignal.AvgVolumeIgnoresOlder | crypto-shield-pro/script.js:410-413 | volumes older than the last `period` never change the average |
| ShieldSignal.BuySell | crypto-shield-pro/script.js:644-645 | buy share in [0, 100] with the sell share its complement; at least 50 for a non-negative book, at most 50 for a non-positive one |
| ShieldSignal.ProbFromRaw | crypto-shield-pro/script.js:637 | the base probability lies in [40, 95], within half a point of a raw estimate already in that range |
| ShieldSignal.ProbFromRawMonotone | crypto-shield-pro/script.js:637 | a higher raw estimate never gives a lower base probability |
| ShieldSignal.SmartScore | crypto-shield-pro/script.js:632-636 | the score lies in [−0.81, 0.81]; all components bullish give more than 0.25, all bearish less than −0.25 |
| ShieldSignal.SmartAdaptive | crypto-shield-pro/script.js:631-646 | COMPRA exactly above 0.25 and VENDA exactly below −0.25; a base probability in [40, 91] (≥ 62 for COMPRA, ≤ 40 for VENDA); FORTE above 0.6 and FRACO up to 0.3 in magnitude; the base probability is the clamped, rounded 50 + 50 × score; the buy/sell split is `BuySell` of the book imbalance clamped to [−1, 1], so the buy share is at least 50 for a non-negative imbalance and at most 50 for a non-positive one |
| ShieldSignal.SmartBaseProbMonotone | crypto-shield-pro/script.js:635-637 | a higher score never lowers the base probability |
| ShieldSignal.WinChance | crypto-shield-pro/script.js:640-642 | stays in [40, 95]; the base probability for NEUTRO or a direction without history; otherwise exactly the base probability scaled by that direction's trend-line accuracy (`AdjustProbWithAtl`) |
| ShieldSignal.DepthRule | crypto-shield-pro/script.js:664-674 | COMPRA exactly on an oversold upward crossing with more bids; VENDA exactly on the mirror; base probability in [40, 95]; the base probability is the clamped, rounded 50 + 30 × book + 20 × volume; the buy/sell split is `BuySell` of the book imbalance |
| ShieldSignal.DepthRuleMonotone | crypto-shield-pro/script.js:667-671 | a larger book or volume imbalance never lowers the base probability, and a larger book imbalance never lowers the buy share |
| ShieldStream.Append | crypto-shield-pro/script.js:491-496 | a closed candle keeps the newest 100 entries of every series, which stay aligned; the close time is untouched |
| ShieldStream.Rewrite | crypto-shield-pro/script.js:497-502 | the candle in progress overwrites the last entry of every series except the open times; lengths are kept |
| ShieldStream.OnKline | crypto-shield-pro/script.js:483-502 | no kline, no change; a closed one is appended and an open one rewrites the last candle; the series stay aligned and within 100 |
| ShieldStream.ClosedReplayKeepsNewest | crypto-shield-pro/script.js:491-496 | a run of closed klines leaves the newest 100 of the old closes followed by the klines' closes |
| ShieldStream.ReplayKeepsShape | crypto-shield-pro/script.js:490-502 | any run of messages keeps the series aligned and within the cap |
| ShieldStream.ClosingMessageAppends | crypto-shield-pro/script.js:491-493 | the closing message of the candle already stored is appended again, so its open time appears twice |
| ShieldStream.Port | crypto-shield-pro/script.js:480 | 443 exactly when the switch flag is set, 9443 otherwise |
| ShieldStream.ScheduleReconnect | crypto-shield-pro/script.js:465-467 | one more attempt, a delay of 2 s per attempt capped at 30 s, and port 443 from the second attempt on, never undone |
| ShieldStream.OnOpen | crypto-shield-pro/script.js:482 | an open connection clears the counter and keeps the port |
| ShieldStream.StartStreamAsWritten | crypto-shield-pro/script.js:475-478 | as written, starting the stream clears the counter |
| ShieldStream.StartStream | crypto-shield-pro/script.js:475-481 | corrected, starting the stream keeps the counter and the port |
| ShieldStream.FailuresAsWritten | crypto-shield-pro/script.js:465-481 | n failed connections in a row as written give n delays |
| ShieldStream.Failures | crypto-shield-pro/script.js:465-481 | n failed connections in a row, corrected, give n delays |
| ShieldStream.FailuresAsWrittenStall | crypto-shield-pro/script.js:465-481 | as written, every delay is 2 s, the counter is back at 0 and port 9443 is kept |
| ShieldStream.SecondRetryAsWritten | crypto-shield-pro/script.js:465-481 | as written, two failures give delays [2000, 2000] on port 9443 |
| ShieldStream.FailuresGrow | crypto-shield-pro/script.js:466-467 | corrected, the i-th retry waits min(30 s, 2 s × i), the counter counts the failures and port 443 is used from the second on |
| ShieldStream.SecondRetry | crypto-shield-pro/script.js:466-467 | corrected, two failures give delays [2000, 4000] and port 443 |
| ShieldStream.OpenRestartsBackoff | crypto-shield-pro/script.js:465-482 | after an open the next retry waits 2 s again, on the same port |
| TrendLines.AllHighsSound | bot-sinais3/app.js:479-483 | the reference list holds only high pivots of [2, i], each with its bar's value, in strictly descending index order |
| TrendLines.AllLowsSound | bot-sinais3/app.js:479-483 | the same for the low pivots |
| TrendLines.Scan | bot-sinais3/app.js:477-485 | the loop's lists are prefixes of the reference lists, and are the whole reference lists unless both already hold three |
| TrendLines.LineThroughPivots | bot-sinais3/app.js:489-496 | the line passes through both of its pivots |
| TrendLines.FlatLine | bot-sinais3/app.js:491-496 | two pivots at the same level give a flat line at that level |
| TrendLines.ComputeTrendLines | bot-sinais3/app.js:472-500 | lines exist exactly with 20 bars and two pivots of each kind; each runs through the two most recent pivots of its kind, evaluated at the last bar |
| TrendLines.NoHighPivotsOnFlat | bot-sinais3/app.js:482 | a constant high series has no high pivot |
| TrendLines.NoLinesOnFlatSeries | bot-sinais3/app.js:472-500 | a constant high series gives no trend lines |
| Trade.Score | bot-sinais3/app.js:777-779 | a WIN exactly when the move in the trade's direction exceeds the floor; with a non-negative floor a WIN never has an unchanged price |
| Trade.StrictRule | bot-sinais2/app.js:724-726 | without a floor, a CALL wins exactly on a rise and a PUT exactly on a fall; an unchanged price loses |
| Trade.ExactlyOneSideWins | bot-sinais2/app.js:724-726 | for any price change exactly one side wins; with no change both lose |
| Trade.FloorMonotone | bot-sinais3/app.js:774-780 | raising the WIN floor can only turn wins into losses |
| Trade.Tally | bot-sinais/app.js:340-341 | the total rises by one and the wins by one exactly on a WIN, keeping wins ≤ total |
| Trade.Delta | bot-sinais4/app.js:1198-1206 | the bankroll rises exactly on a WIN (for a positive stake and payout), by at most stake × payout, and falls by at most the stake |
| Trade.OfSymbol | bot-sinais4/app.js:1246 | the filtered log holds only the symbol's records and is no longer than the log |
| Trade.Take | bot-sinais4/app.js:1247-1248 | the first min(n, length) records |
| Trade.WinRate | bot-sinais4/app.js:1251-1252 | the default for an empty list; otherwise in [0, 1], 1 exactly when all are wins and 0 exactly when none is |
| Trade.AddResult | bot-sinais4/app.js:391-405 | the record goes first; the log is cut to the cap when there is one; the counters advance regardless of the cut |
| Trade.DayLosses | bot-sinais4/app.js:401 | losses plus wins give the total |
| Trade.AddResultKeepsCounters | bot-sinais3/app.js:297-306 | without a cap, the counters stay equal to the log's length and win count |
| Trade.CappedCountersRunAhead | bot-sinais4/app.js:395-400 | under the 500 cap the total never falls behind the log's length, and runs ahead once the log is full |
| Trade.Recalc | bot-sinais4/app.js:407-417 | the recalculated bankroll is wins × stake × payout minus losses × stake |
| Trade.StatsFromLog | bot-sinais4/app.js:468-475 | rebuilt counters have wins ≤ total ≤ log length |
| Trade.TallyMatchesLog | bot-sinais3/app.js:354-361 | tallying a symbol's own new result equals rebuilding from the extended log; other symbols' counters are unaffected |
| Regime.TrendsExclusive | bot-sinais3/app.js:660-661 | the rising and falling EMA trends never hold together, and neither holds without both EMAs |
| Regime.EmaDiff | bot-sinais4/app.js:931 | below 200 closes the missing EMA200 makes the relative gap infinite or NaN, never finite |
| Regime.SpreadBounds | bot-sinais4/app.js:932 | the spread of percentages is itself in [0, 100] |
| Regime.RsiRange | bot-sinais4/app.js:927-932 | the RSI spread over the last ten values is in [0, 100] |
| Regime.TrendUp | bot-sinais3/app.js:660 | a rising trend needs both EMAs with EMA50 above EMA200; for positive EMAs it is exactly that |
| Regime.TrendDown | bot-sinais3/app.js:661 | a falling trend needs both EMAs with EMA50 below EMA200; for positive EMAs it is exactly that |
| Regime.Classify | bot-sinais4/app.js:934-937 | never UNKNOWN; FLAT exactly on a small ATR; otherwise TREND exactly on a wide gap and spread, SIDE exactly on a narrow gap and spread that is not TREND, VOLATILE exactly when neither holds |
| Regime.DetectRegime | bot-sinais4/app.js:920-938 | UNKNOWN exactly below 100 closes; FLAT exactly when the ATR is below 0.0002; above that, TREND, SIDE and VOLATILE exactly by the same priority on the series' EMA gap and RSI spread; SIDE only with at least 200 closes |
| Regime.StillMarketIsFlat | bot-sinais4/app.js:926-934 | a price that has not moved over the last 15 closes is FLAT whatever the EMAs and RSI say |
| Regime.ShortHistoryNeverSide | bot-sinais4/app.js:925-937 | between 100 and 199 closes a moving market is TREND or VOLATILE, never SIDE |
| Regime.ScoreSignal | bot-sinais4/app.js:992-1014 | in [0, 1], and 0 without a stochastic result or an RSI |
| Regime.ScoreRaw | bot-sinais4/app.js:995-1012 | the weighted blend before the clamp is between 0.05 and 1 for any stochastic values, RSI, trend, nearness and ATR |
| Regime.ScoreClampIsNoOp | bot-sinais4/app.js:995-1013 | the blend is already in [0.05, 1], so the final clamp never changes it |
| Regime.NearnessAddsFixedBonus | bot-sinais4/app.js:1008-1009 | being near a trend line adds exactly 0.2 to the score |
| Learning.InitialModelInRange | bot-sinais4/app.js:49-59 | the initial model lies inside every range `learn` clamps into |
| Learning.DeltaMin | bot-sinais4/app.js:1261-1264 | the multiplier change lies in [−0.03, 0.07] |
| Learning.Learn | bot-sinais4/app.js:1243-1288 | no day, no change; the multiplier stays in [0.12, 0.50]; the ranges are kept; thresholds stay put when the 20-result win rate is in [0.5, 0.7]; the mode toggles exactly when the 10-result win rate is below 0.5 |
| Learning.PoorRunTightens | bot-sinais4/app.js:1261-1270 | a 20-result win rate below 0.5 never loosens the multiplier or any threshold |
| Learning.GoodRunLoosens | bot-sinais4/app.js:1261-1276 | win rates above 0.7 over 20 and 100 results never tighten them |
| Learning.LearnWithoutHistory | bot-sinais4/app.js:1251-1283 | with no results for the symbol the mode stays and the thresholds tighten one step |
| Learning.Adj | bot-sinais4/app.js:986 | the band adjustment is +5 exactly below a 0.6 win rate, −5 exactly above 0.8, and 0 otherwise |
| Learning.RecentWinRate | bot-sinais4/app.js:984-985 | the win rate of the symbol's 30 most recent results is in [0, 1], and 0 with no results |
| Learning.AdjMonotone | bot-sinais4/app.js:986 | a better win rate never raises the adjustment |
| Learning.AdaptiveThreshold | bot-sinais4/app.js:981-988 | the pair is symmetric around 50 with the buy side 30, 35 or 40; {35, 65} without a day, {40, 60} with no results for the symbol; with a day, {40, 60} exactly when the recent win rate is below 0.6 and {30, 70} exactly when it is above 0.8 |
| Learning.ThresholdsMonotoneInWinRate | bot-sinais4/app.js:984-987 | a better recent win rate never moves the buy threshold up or the sell threshold down |
| ModeSwitch.AvgRsi | bot-sinais2/app.js:668-670 | the average RSI of the last ten values lies in [0, 100] |
| ModeSwitch.AutoAdjustV2 | bot-sinais2/app.js:660-691 | with too few closes, no live price or no levels the mode is left alone; the missing-price case never arises with 24 closes (see Lifecycle.KlinesKeepPriced) |
| ModeSwitch.BreakAndChannelExclusiveV2 | bot-sinais2/app.js:680-684 | a break needs the price outside the channel, so the two switches never compete |
| ModeSwitch.AutoAdjustV2Idempotent | bot-sinais2/app.js:677-690 | running the switch twice on the same market changes nothing more |
| ModeSwitch.AutoAdjustV2IgnoresStart | bot-sinais2/app.js:677-690 | whenever it fires, where the switch lands does not depend on the starting mode |
| ModeSwitch.AutoAdjustV34 | bot-sinais3/app.js:708-740 | a two-close break always gives ROMPIMENTO, and only a break leaves REVERSAO; only the price inside the lines with the average RSI in (35, 65) returns to REVERSAO, and that case without a break always does |
| ModeSwitch.NoPriceOnlyBreaksV34 | bot-sinais3/app.js:726-732 | without a live price only a two-close break can change the mode |
| ModeSwitch.AutoAdjustV34Idempotent | bot-sinais3/app.js:723-739 | running the switch twice on the same market changes nothing more |
| ModeSwitch.AutoAdjustV34IgnoresStart | bot-sinais3/app.js:723-739 | whenever it fires, where the switch lands does not depend on the starting mode |
| SupportResistance.Bins | bot-sinais2/app.js:425-429 | the grid holds zero-weight bins at minP + i × step, every price within [minP, maxP + step/2] |
| SupportResistance.BuildBins | bot-sinais2/app.js:425-429 | the `for` loop builds exactly the reference grid |
| SupportResistance.NearestIdx | bot-sinais2/app.js:432-436 | the chosen bin is at least as near as every other and strictly nearer than every earlier one |
| SupportResistance.Weight | bot-sinais2/app.js:437 | a touch weighs between 0.2 and 1 |
| SupportResistance.Bump | bot-sinais2/app.js:430-439 | only the nearest bin gains weight, between 0.2 and 1, and its price is kept |
| SupportResistance.BumpWeight | bot-sinais2/app.js:437-438 | one bump adds between 0.2 and 1 to the total weight |
| SupportResistance.BumpAll | bot-sinais2/app.js:455-456 | grid prices stay put, weights stay non-negative, and the total grows by between 0.2 and 1 per price |
| SupportResistance.HeaviestIdx | bot-sinais2/app.js:458-459 | the chosen bin is at least as heavy as every other and strictly heavier than every earlier one |
| SupportResistance.HeaviestReaches | bot-sinais2/app.js:458-460 | the heaviest bin reaches a weight exactly when some bin does, so testing the first heaviest bin decides the touch count |
| SupportResistance.SliceLast | bot-sinais2/app.js:448 | the last min(n, length) values |
| SupportResistance.SrAtrPeriodIsFourteen | bot-sinais2/app.js:449 | with at least 50 bars the ATR period is 14 |
| SupportResistance.ComputeSRLevels | bot-sinais2/app.js:440-462 | null exactly with fewer than 50 closes, no highs or lows, or a zero ATR; otherwise exactly the outcome of the level search on the highs and lows of the last (up to) 300 bars with that ATR, so levels are both or neither |
| SupportResistance.NoLevelsIffFlatCloses | bot-sinais2/app.js:444-450 | with enough bars, no levels exactly when the last 15 closes are all equal |
| SupportResistance.LevelsOnWindow | bot-sinais2/app.js:451-461 | an exception only when every low lies above every high; otherwise exactly the levels picked on the non-empty grid from the lowest low to the highest high, inside the grid's range, both or neither, with at least four bars behind them |
| SupportResistance.NeverRaisedOnWellFormedCandle | bot-sinais2/app.js:451-457 | a window whose last low is not above its last high never throws |
| SupportResistance.TouchesBound | bot-sinais2/app.js:455-460 | from an empty grid no bin collects more weight than there are prices |
| SupportResistance.LevelsFrom | bot-sinais2/app.js:455-461 | levels exactly when some top bin and some bottom bin gather weight 4 after the bumps; then they are the prices of the heaviest (first on ties) top and bottom bins; both or neither |
| Signals.FeaturesOf | bot-sinais3/app.js:654-661 | stochastic K, D and value and the RSI are in [0, 100], K = D, and the EMAs are those of the working series |
| Signals.MacroFilter | bot-sinais3/app.js:687-689 | keeps or drops the side; no CALL against a falling trend, no PUT against a rising one; everything passes without a trend |
| Signals.MacroFilterFollowsTrend | bot-sinais3/app.js:658-689 | under a rising trend only CALLs survive, under a falling one only PUTs |
| Signals.Baseline | bot-sinais/app.js:299-303 | the baseline mean delta is non-negative |
| Signals.FlatBaselineIsZero | bot-sinais/app.js:299-303 | on a constant series the baseline is 0 |
| Signals.RuleV1 | bot-sinais/app.js:308-311 | PUT exactly at K ≥ 98, CALL exactly at K ≤ 2, nothing in between |
| Signals.SignalV1 | bot-sinais/app.js:288-311 | nothing below 28 closes or without a live price; a signal has passed the ATR filter and is the stochastic-extreme rule on the working series |
| Signals.FlatRsi | bot-sinais/app.js:146-157 | a constant series has every RSI value at 100 |
| Signals.FlatPassesAtrFilter | bot-sinais/app.js:298-304 | a constant market passes the ATR filter (0 is not below 20% of 0) |
| Signals.FlatStochIsZero | bot-sinais/app.js:172-175 | a constant market has a stochastic K of 0 |
| Signals.FlatDecision | bot-sinais/app.js:298-311 | a constant market is not filtered out and the rule gives CALL |
| Signals.FlatMarketSignalsCall | bot-sinais/app.js:285-317 | bot-sinais announces a CALL on a market that has not moved at all |
| Signals.RuleV2 | bot-sinais2/app.js:606-614 | a PUT needs the price near the resistance with K, D ≥ 98 and RSI ≥ 70; a CALL the mirror at the support; no levels, no signal |
| Signals.ModeFilterV2 | bot-sinais2/app.js:615-651 | REVERSAO only drops, and keeps a PUT only with both closes at or below the resistance (mirror for CALL); ROMPIMENTO always gives a side and flips only on a close beyond the level |
| Signals.WickFilterRedundant | bot-sinais2/app.js:621-641 | the wick test never changes the filter's result |
| Signals.LastOf | bot-sinais2/app.js:617-618 | the last element when there is one, missing otherwise |
| Signals.DecideV2 | bot-sinais2/app.js:606-651 | no levels, no signal; in REVERSAO a PUT meets the proximity rule (K, D ≥ 98, RSI ≥ 70 near the resistance) and has its last two closes at or below the resistance, a CALL the mirror at the support |
| Signals.SignalV2 | bot-sinais2/app.js:590-657 | nothing below 28 closes, without a live price or without levels (or with both levels missing); in REVERSAO an announced PUT has the live price within the proximity band of the resistance, K and D ≥ 98, RSI ≥ 70 and the last two closes at or below the resistance, over the closes with the live price appended; a CALL mirrors this at the support |
| Signals.RompimentoKeepsSignalV2 | bot-sinais2/app.js:642-652 | in ROMPIMENTO every proximity signal becomes an announcement |
| Signals.DecideV2Rompimento | bot-sinais2/app.js:642-651 | the mode filter in ROMPIMENTO passes every proximity signal on |
| Signals.RuleV3 | bot-sinais3/app.js:664-682 | ROMPIMENTO: CALL exactly when price and last close are above the LTB, PUT only when both are below the LTA; REVERSAO: PUT only near the LTB with K, D ≥ 95 and RSI ≥ 70, CALL the mirror |
| Signals.SignalV3 | bot-sinais3/app.js:642-705 | nothing without 28 closes, a live price and trend lines; no signal against the EMA trend; ROMPIMENTO signals are confirmed breaks |
| Signals.BreakoutGivesCallV3 | bot-sinais3/app.js:666-689 | a confirmed break above the LTB that the EMAs do not contradict always gives a CALL |
| Signals.RuleV4 | bot-sinais4/app.js:1064-1089 | nothing in FLAT or UNKNOWN; TREND: CALL exactly above the LTB, PUT exactly below the LTA otherwise; SIDE and VOLATILE signals meet their stochastic, RSI and line conditions |
| Signals.WorkV4 | bot-sinais4/app.js:1024-1028 | the working series is the last 250 closes followed by the live price |
| Signals.RelNear | bot-sinais4/app.js:1043-1044 | near a positive line exactly within the open band of half-width tol × line around it; never near a zero line; always near a negative one |
| Signals.DecideV4 | bot-sinais4/app.js:1061-1102 | a signal needs a tradable regime and an ATR of at least 0.00015, and never goes against the EMA trend |
| Signals.TrendBreakoutDecideV4 | bot-sinais4/app.js:1074-1102 | in TREND with enough movement a price above the LTB gives a CALL unless the EMAs point down |
| Signals.SignalV4 | bot-sinais4/app.js:1016-1121 | nothing without 28 closes, a live price and trend lines; no signal against the EMA trend of the working series |
| Signals.DecideV4Tradable | bot-sinais4/app.js:1061-1089 | a decision implies the market gate |
| Signals.SignalV4NeedsTradable | bot-sinais4/app.js:1040-1089 | every bot-sinais4 signal has passed the market gate |
| Signals.StillMarketNoSignalV4 | bot-sinais4/app.js:1042-1062 | a price that has not moved over the last 15 closes never signals in bot-sinais4 |
| Lifecycle.Fresh | bot-sinais4/app.js:35-59 | a freshly started symbol satisfies the lifecycle invariant |
| Lifecycle.OnKline | bot-sinais3/app.js:589-619 | the live price and series follow the feed rules and the bar counter counts pushed candles; after a pushed candle the trend lines (bot-sinais3/4) are exactly those of the new series, null included, while bot-sinais2 replaces its levels only with levels actually found; nothing else changes |
| Lifecycle.FeedKeepsInv | bot-sinais3/app.js:589-619 | the kline handler and the once-a-second loop keep the lifecycle invariant |
| Lifecycle.KlinesKeepPriced | bot-sinais2/app.js:545-560 | over any run of klines, a symbol that has closes has a live price, since each pushed close first sets the price (with the guarded push, see Findings) |
| Lifecycle.Refresh | bot-sinais3/app.js:842-849 | the once-a-second loop changes only the mode, the levels and the trend lines (nothing in bot-sinais); with highs and lows present it overwrites the trend lines (bot-sinais3/4) or levels (bot-sinais2) with the recomputed ones, null included, and runs the mode switch on them; an exception while computing the levels leaves the symbol untouched |
| Lifecycle.RefreshAfterCandleKeepsTrends | bot-sinais3/app.js:525-533 | right after a closed candle, the next second's trend refresh finds the lines the handler stored |
| Lifecycle.FlatMarketClearsLevels | bot-sinais2/app.js:477-485 | on a flat market (last 15 closes equal) the kline handler keeps the earlier levels, and the next second's refresh clears them |
| Lifecycle.Signal | bot-sinais3/app.js:642-705 | a signal needs a live price and at least 28 closes |
| Lifecycle.CoolingDown | bot-sinais3/app.js:646-647 | corrected (see Findings): only bot-sinais2/3 cool down, exactly while fewer closed candles have been seen than the cooldown mark |
| Lifecycle.AnnounceGated | bot-sinais4/app.js:1016-1019 | nothing while a signal is pending, a trade is open or the gate is shut; otherwise a rule signal becomes pending at the live price and nothing else changes |
| Lifecycle.Announce | bot-sinais2/app.js:590-657 | the same with the cooldown as the gate, measured on the candle counter (corrected, see Findings) |
| Lifecycle.AnnounceIdempotent | bot-sinais/app.js:288-313 | announcing twice in a row is announcing once |
| Lifecycle.Enter | bot-sinais/app.js:319-328 | a pending signal becomes a trade on the same side at the live price and stops being pending |
| Lifecycle.AnnouncedIsEnteredAtSignalPrice | bot-sinais/app.js:358-362 | announce then enter in one tick: a new signal is entered at the very price it was announced at and never stays pending |
| Lifecycle.AnnounceEnterKeepInv | bot-sinais/app.js:285-328 | announce and enter keep the lifecycle invariant |
| Lifecycle.MinMove | bot-sinais4/app.js:1190-1191 | the WIN floor is 0 in bot-sinais and bot-sinais2, the ATR (0 when missing) × 0.2 in bot-sinais3 and × the learned multiplier in bot-sinais4; never negative for bot-sinais3 or a model in range |
| Lifecycle.AtrMultiple | bot-sinais4/app.js:1191 | a non-negative ATR times a non-negative multiplier is non-negative, and 0 if either is |
| Lifecycle.AtrOrZero | bot-sinais3/app.js:774 | non-negative, and 0 while there are not enough closes for an ATR |
| Lifecycle.Scored | bot-sinais3/app.js:773-780 | the record carries the trade's side and both prices; it is a WIN exactly when the move in the trade's direction exceeds the version's floor |
| Lifecycle.OutcomeV1 | bot-sinais/app.js:334-338 | a missing price makes the trade a LOSS |
| Lifecycle.V1GuardNotNeeded | bot-sinais/app.js:330-339 | under the invariant bot-sinais's unguarded outcome is the strict rule |
| Lifecycle.Cap | bot-sinais4/app.js:396-397 | a log cap, when there is one, is positive |
| Lifecycle.Settle | bot-sinais3/app.js:791-807 | the trade closes and is tallied; the cooldown (corrected, see Findings) ends one closed candle later in bot-sinais2/3; a loss returns bot-sinais3/4 to REVERSAO; only bot-sinais4 learns, inside its ranges |
| Lifecycle.ExitSym | bot-sinais3/app.js:759-809 | no trade, no change; the trade always closes; bot-sinais only counts; later bots drop a trade with a missing price, otherwise log the record and move the bankroll by +stake × payout or −stake (not in bot-sinais2) |
| Lifecycle.ExitKeepsInv | bot-sinais3/app.js:759-809 | the exit step keeps the invariant and leaves a traded symbol idle |
| Lifecycle.ExitKeepsBankroll | bot-sinais4/app.js:1198-1206 | in bot-sinais3, and in bot-sinais4 below the cap, the bankroll stays equal to the one recalculated from the log |
| Lifecycle.ExitKeepsStats | bot-sinais2/app.js:728-736 | in bot-sinais2/3 the counters stay equal to those rebuilt from the log, for the scored symbol and every other |
| Lifecycle.ExitAll | bot-sinais3/app.js:759-809 | the exit pass keeps the symbol set, closes every listed trade and leaves unlisted symbols alone |
| Lifecycle.ExitAllKeepsBankroll | bot-sinais3/app.js:782-788 | in bot-sinais3 the bankroll equals the recalculated one after the whole pass |
| Lifecycle.ExitAllSparesIdle | bot-sinais3/app.js:760-762 | a symbol without an open trade is left exactly as it was |
| Lifecycle.AnnounceEnterAll | bot-sinais3/app.js:827-831 | keeps the symbol set and leaves no new signal pending |
| Lifecycle.Schedule | bot-sinais3/app.js:827-838 | announce exactly in seconds 1..25; exit exactly at second 0 of a minute not yet exited, never both |
| Lifecycle.ExitOncePerMinute | bot-sinais3/app.js:833-838 | the many ticks of the same second exit at most once |
| Lifecycle.EnsureDay | bot-sinais4/app.js:248-252 | adds an empty day for a missing key and keeps every existing day |
| Lifecycle.RebuildStats | bot-sinais4/app.js:466-475 | each symbol's counters are replaced by those rebuilt from the log, and nothing else changes |
| Lifecycle.NewDaySession | bot-sinais4/app.js:489-503 | the day exists and the counters are rebuilt; the bankroll is kept (bot-sinais2), zeroed (bot-sinais3) or restored/recalculated and saved (bot-sinais4) |
| Lifecycle.FreshDayIsConsistent | bot-sinais4/app.js:489-503 | a new day starts with the bankroll and counters agreeing with its empty log |
| Lifecycle.Tick | bot-sinais4/app.js:1308-1335 | keeps the symbol set, rolls the day over (not in bot-sinais), and moves the bankroll only at a rollover or an exit |
| Lifecycle.TickExitsOncePerMinute | bot-sinais4/app.js:1329-1334 | a second tick in the same exit second and minute changes nothing |
| Lifecycle.ExitTickKeepsBankrollV3 | bot-sinais3/app.js:812-839 | in bot-sinais3 an exit tick keeps the bankroll equal to the recalculated one |
| Lifecycle.CooldownAsWritten | bot-sinais3/app.js:802-803 | as written, the cooldown ends past the current length of the close series |
| Lifecycle.AnnounceAsWritten | bot-sinais3/app.js:645-647 | as written, a cooling-down symbol in bot-sinais2/3 announces nothing |
| Lifecycle.LockoutAsWritten | bot-sinais3/app.js:645-647 | as written, once the series is full the cooldown never ends, whatever candles arrive |
| Lifecycle.CooldownLiftsAfterOneBar | bot-sinais3/app.js:802-803 | measured on the candle counter, one closed candle after an exit lifts the cooldown, even with a full series |

## Left out

- The DOM, the display side of the UI updates (`updateTicker`, `updateMetrics`, `drawChart`, the RSI panel, the text written by `updateSRUI` and `updateTrendUI`), audio and speech. They only display state; the state that `updateSRUI` and `updateTrendUI` write is modelled in Lifecycle.OnKline and Lifecycle.Refresh.
- Feed.PushCandle: the handlers push `Number(k.c)`, `Number(k.h)` and `Number(k.l)` on every closed kline, unguarded; the model pushes only candles whose three values are finite. It therefore also drops a candle with a finite close and a non-finite high or low, which the program pushes (bot-sinais pushes only the close and never reads a high or low). A non-number in a series is not representable over `real`.
- Lifecycle.Refresh: models the once-a-second loop for one symbol. In bot-sinais2 an exception while computing one symbol's levels also ends that second's pass for the symbols after it; the model does not carry that across symbols.
- Lifecycle.Announce: the cooldown gate compares the cooldown mark with the candle counter `bars` (the corrected form, see Findings). bot-sinais2 and bot-sinais3 compare it with `closes.length`, which stops growing at 500 (bot-sinais3/app.js:646-647); that behaviour is modelled separately by Lifecycle.AnnounceAsWritten and Lifecycle.LockoutAsWritten.
- Lifecycle.Settle: the cooldown mark is set to `bars + 1` (the corrected form, see Findings), where the program sets `closes.length + 1` (bot-sinais3/app.js:802-803); Lifecycle.CooldownAsWritten models the program's form.
- Persistence in `localStorage`. This includes `loadTrendMemory`, entries with no timestamp, the signals log (`addSignalToStore`) and the bot-sinais3 bankroll reloaded from the store. The store is a value passed in and out.
- Network plumbing. This covers the REST preload, polling (`startPolling`), `fetchDepth`, the orchestration of `analyzeNow`, and the reload at crypto-shield-pro/script.js:593-604. The socket's messages are parameters.
- Timers and clocks, including `calcCandleCountdown`. The second, the minute stamp, the day key and the current time are parameters.
- The stray `onclose` of the replaced socket (crypto-shield-pro/script.js:476 and 515-520). It depends on event ordering between sockets.
- IEEE rounding and `toFixed` (bot-sinais4/app.js:724, bot-sinais3/app.js:449). Arithmetic is exact over `real`.
- NaN and Infinity in general. Only bot-sinais4's `emaDiff` keeps them, through `Ext`.
- JavaScript null coercion elsewhere. In crypto-shield's depth branch, a missing previous average is read as 0; its crossing tests take the two previous averages as present. In bot-sinais2 the live price starts as `null` (bot-sinais2/app.js:38), which JavaScript would compare as 0 against a positive support in the mode switch; the model reads it as "no price" and leaves the mode alone. Lifecycle.KlinesKeepPriced shows the case never arises once the switch has its 24 closes.
- Kline fields in crypto-shield-pro are taken to be finite numbers.
- `prevPrice`. It is written but never decides anything in the modelled code.
- `adjustLearning` (bot-sinais4/app.js:1290-1305) and `rsiSimple` (crypto-shield-pro/script.js:67-79). Both are defined but never called.
- The wrappers re-assigned at crypto-shield-pro/script.js:887-900. They only add logging around the modelled functions.
- bot-sinais4's trailing win/loss display list (1227-1232). It is display only.
- bot-sinais4's `scoreSignal` result. It is computed and shown but gates nothing, so `Regime.ScoreSignal` is modelled but not wired into the decision.
- Array writes past the end. `ShieldStream.SetAt` ignores them, where JavaScript would grow a sparse array. The store is never empty when a candle is rewritten.
- SupportResistance.ComputeSRLevels: when no grid bin fits, the source throws a TypeError that the caller catches. The model returns `Raised` and does not model the handler.
- ShieldSignal.DetermineSignal requires a non-zero slow average. With a zero one, the source divides by zero and goes on with NaN/Infinity.
- ShieldSignal.RunAnalysis requires the same, through `DetermineSignal`.
- ShieldSignal.BlendProb requires inputs inside the ranges its only caller produces: backtest 45..90 and heuristic 50..80.
- ShieldSignal.WinChance requires a base probability in [40, 95]. Both callers clamp into that range first.
- Signals.ModeFilterV2 requires the level that the proximity rule has already found for the side.
- Indicators.SimpleSma, Indicators.Rsi, Indicators.RsiUnclamped, Indicators.Atr, Indicators.Ema, Indicators.StochRsi and ShieldSignal.AvgVolume require a period of at least 1. Every call site passes a positive constant.
- ShieldIndicators.SmaSeries, ShieldIndicators.WilderRsi and ShieldIndicators.RsiSeries require a period of at least 1, for the same reason.
- Lifecycle.NewDaySession requires a version other than bot-sinais, which has no day session.

## Findings

| source | as written | input that shows it | evidently intended | confidence | as-written member | corrected member |
|---|---|---|---|---|---|---|
| crypto-shield-pro/script.js:465-481 | `startKlineStream` sets the attempt counter back to 0, and every reconnect timer calls it, so the counter never passes 1 | two connections in a row that close without opening: delays 2000, 2000 ms, both on port 9443 | a backoff of 2 s per attempt (2000, 4000 ms) and a switch to port 443 from the second attempt | not executed | ShieldStream.SecondRetryAsWritten | ShieldStream.SecondRetry |
| bot-sinais/app.js:256-261 | the closed-candle branch pushes `Number(k.c)` even when it is not finite (the same in the other three bots) | a closed kline whose close is not a number | only finite closes enter the series, as the live-price branch already requires | not executed | Feed.NonFiniteCloseIsPushed | Feed.PushCandleAgreesWhenFinite |
| bot-sinais3/app.js:802-803 | the cooldown is set to `closes.length + 1` and compared with `closes.length` (as in bot-sinais2), but the length stays at 500 once the series is full | a symbol with 500 closes that finishes a trade: it never announces again | a one-candle pause after each trade | not executed | Lifecycle.LockoutAsWritten | Lifecycle.CooldownLiftsAfterOneBar |

=== FILE: feed.dfy ===
/** The market-data side of the four bots: the kline handler that keeps the
    live price and the capped candle series, and the reconnect back-off of
    the WebSocket. */
module Feed {
  import opened Num

  /** Every series keeps at most this many candles. */
  const MAX_CLOSES: nat := 500

  /** One kline message. A field that `Number(...)` does not turn into a
      finite number is `None`; `closed` is `k.x === true`. */
  datatype Kline = Kline(close: Option<real>, high: Option<real>, low: Option<real>, closed: bool)

  /** `arr.push(x); if (arr.length > MAX) arr.splice(0, arr.length - MAX)`:
      the newest `MAX_CLOSES` elements of the extended series. */
  function PushCapped<T>(s: seq<T>, x: T): (r: seq<T>)
    ensures |r| == MinInt(|s| + 1, MAX_CLOSES)
    ensures r == (s + [x])[|s| + 1 - |r|..]
    ensures r[|r| - 1] == x
  {
    var all := s + [x];
    if |all| > MAX_CLOSES then all[|all| - MAX_CLOSES..] else all
  }

  /** A full series stays full: the oldest element makes room. */
  lemma PushCappedFull<T>(s: seq<T>, x: T)
    requires |s| == MAX_CLOSES
    ensures PushCapped(s, x) == s[1..] + [x]
  {
  }

  /** The live price: a finite close replaces it, anything else leaves it. */
  function NextPrice(lastPrice: Option<real>, k: Kline): (r: Option<real>)
    ensures k.close.Some? ==> r == k.close
    ensures k.close.None? ==> r == lastPrice
    ensures lastPrice.Some? ==> r.Some?
  {
    if k.close.Some? then k.close else lastPrice
  }

  /** Once a symbol has a live price it never loses it again. */
  lemma {:induction false} PriceNeverLost(lastPrice: Option<real>, ks: seq<Kline>)
    requires lastPrice.Some?
    ensures PriceAfter(lastPrice, ks).Some?
    decreases |ks|
  {
    if |ks| > 0 {
      PriceNeverLost(lastPrice, ks[..|ks| - 1]);
    }
  }

  /** The live price after a run of messages. */
  function PriceAfter(lastPrice: Option<real>, ks: seq<Kline>): Option<real>
    decreases |ks|
  {
    if |ks| == 0 then lastPrice else NextPrice(PriceAfter(lastPrice, ks[..|ks| - 1]), ks[|ks| - 1])
  }

  /** The live price after a run of messages is the last finite close among
      them, or the starting one when there is none. */
  lemma {:induction false} PriceAfterIsLastFinite(lastPrice: Option<real>, ks: seq<Kline>, j: nat)
    requires j < |ks| && ks[j].close.Some?
    requires forall i :: j < i < |ks| ==> ks[i].close.None?
    ensures PriceAfter(lastPrice, ks) == ks[j].close
    decreases |ks|
  {
    if j < |ks| - 1 {
      PriceAfterIsLastFinite(lastPrice, ks[..|ks| - 1], j);
    }
  }

  /** The closes, highs and lows of one symbol, oldest first. */
  datatype Series = Series(closes: seq<real>, highs: seq<real>, lows: seq<real>)

  /** A closed candle with finite close, high and low is appended to the
      three series, each capped; anything else leaves them alone. */
  function PushCandle(ser: Series, k: Kline): (r: Series)
    ensures !k.closed || k.close.None? || k.high.None? || k.low.None? ==> r == ser
    ensures k.closed && k.close.Some? && k.high.Some? && k.low.Some? ==>
      |r.closes| == MinInt(|ser.closes| + 1, MAX_CLOSES) && r.closes[|r.closes| - 1] == k.close.value
      && |r.highs| == MinInt(|ser.highs| + 1, MAX_CLOSES) && r.highs[|r.highs| - 1] == k.high.value
      && |r.lows| == MinInt(|ser.lows| + 1, MAX_CLOSES) && r.lows[|r.lows| - 1] == k.low.value
    ensures |ser.closes| <= MAX_CLOSES ==> |r.closes| <= MAX_CLOSES
    ensures |ser.closes| == |ser.highs| == |ser.lows| ==> |r.closes| == |r.highs| == |r.lows|
  {
    if k.closed && k.close.Some? && k.high.Some? && k.low.Some? then
      Series(PushCapped(ser.closes, k.close.value), PushCapped(ser.highs, k.high.value), PushCapped(ser.lows, k.low.value))
    else ser
  }

  /** The closed-candle push as the handlers write it: the close is pushed
      whether or not it is finite, so a series can hold a non-number. */
  function PushCloseAsWritten(closes: seq<Option<real>>, k: Kline): (r: seq<Option<real>>)
    ensures !k.closed ==> r == closes
    ensures k.closed ==> r == PushCapped(closes, k.close)
  {
    if k.closed then PushCapped(closes, k.close) else closes
  }

  /** A series of finite closes, seen through the handlers' eyes. */
  function Lift(s: seq<real>): (r: seq<Option<real>>)
    ensures |r| == |s|
    ensures forall i :: 0 <= i < |s| ==> r[i] == Some(s[i])
  {
    seq(|s|, i requires 0 <= i < |s| => Some(s[i]))
  }

  /** A closed kline whose close is not a number lands in the series as
      written. */
  lemma NonFiniteCloseIsPushed(closes: seq<real>)
    ensures var r := PushCloseAsWritten(Lift(closes), Kline(None, Some(1.0), Some(1.0), true));
      |r| >= 1 && r[|r| - 1].None?
  {
  }

  /** Lifting commutes with the capped push. */
  lemma LiftPushCapped(s: seq<real>, x: real)
    ensures Lift(PushCapped(s, x)) == PushCapped(Lift(s), Some(x))
  {
    var all := s + [x];
    var a := Lift(PushCapped(s, x));
    var b := PushCapped(Lift(s), Some(x));
    assert |a| == |b|;
    forall i | 0 <= i < |a|
      ensures a[i] == b[i]
    {
      var off := |all| - |a|;
      assert a[i] == Some(all[off + i]);
      assert b[i] == (Lift(s) + [Some(x)])[off + i];
    }
  }

  /** On finite candles the guarded push agrees with the handlers' push, so
      the guard changes nothing but the non-finite case. */
  lemma PushCandleAgreesWhenFinite(ser: Series, k: Kline)
    requires k.closed && k.close.Some? && k.high.Some? && k.low.Some?
    ensures Lift(PushCandle(ser, k).closes) == PushCloseAsWritten(Lift(ser.closes), k)
  {
    LiftPushCapped(ser.closes, k.close.value);
  }

  // --------------------------------------------------------------- reconnect

  const MAX_ATTEMPTS: nat := 5
  /** The fallback the back-off table is read with (`|| 15000`). */
  const FALLBACK_BACKOFF: nat := 15000

  /** `[1000, 2000, 5000, 8000, 12000]`. */
  function BackoffTable(): seq<nat> { [1000, 2000, 5000, 8000, 12000] }

  /** `scheduleReconnect`: the attempt counter rises by one up to 5 and the
      delay is read from the table at `attempts - 1`, with 15000 for a
      missing entry. Returns the new counter and the delay in ms. */
  function ScheduleReconnect(attempts: nat): (r: (nat, nat))
    ensures 1 <= r.0 <= MAX_ATTEMPTS
    ensures r.0 == MinInt(attempts + 1, MAX_ATTEMPTS)
    ensures r.1 == BackoffTable()[r.0 - 1]
    ensures 1000 <= r.1 <= 12000
  {
    var a := MinInt(attempts + 1, MAX_ATTEMPTS);
    var table := BackoffTable();
    var delay := if 0 <= a - 1 < |table| then table[a - 1] else FALLBACK_BACKOFF;
    (a, delay)
  }

  /** The table is never read past its end, so the 15000 ms fallback is
      never used. */
  lemma FallbackUnreachable(attempts: nat)
    ensures ScheduleReconnect(attempts).1 != FALLBACK_BACKOFF
  {
  }

  /** The counter after `n` failed connections in a row from `attempts`. */
  function AttemptsAfter(attempts: nat, n: nat): nat
  {
    if n == 0 then attempts else ScheduleReconnect(AttemptsAfter(attempts, n - 1)).0
  }

  /** After `n` failures since the last successful open (which resets the
      counter to 0) the counter is `min(n, 5)`. */
  lemma {:induction false} AttemptsAfterReset(n: nat)
    ensures AttemptsAfter(0, n) == MinInt(n, MAX_ATTEMPTS)
  {
    if n > 0 {
      AttemptsAfterReset(n - 1);
    }
  }

  /** Each further failure waits at least as long as the previous one. */
  lemma BackoffNonDecreasing(attempts: nat)
    ensures ScheduleReconnect(ScheduleReconnect(attempts).0).1 >= ScheduleReconnect(attempts).1
  {
  }
}

=== FILE: indicators.dfy ===
/** The indicator library of the four signal bots (bot-sinais, bot-sinais2,
    bot-sinais3, bot-sinais4): windowed RSI, simple moving average,
    stochastic RSI with K/D smoothing, ATR as the mean absolute
    close-to-close move, and EMA seeded with the first value. */
module Indicators {
  import opened Num

  const RSI_PERIOD: nat := 14
  const STOCH_PERIOD: nat := 14
  const ATR_PERIOD: nat := 14
  const K_SMOOTH: nat := 3
  const D_SMOOTH: nat := 3

  /** Close-to-close deltas: `diffs[i] = series[i+1] - series[i]`. */
  function Diffs(s: seq<real>): (r: seq<real>)
    ensures |r| == if |s| == 0 then 0 else |s| - 1
    ensures forall i :: 0 <= i < |r| ==> r[i] == s[i + 1] - s[i]
  {
    if |s| == 0 then [] else seq(|s| - 1, i requires 0 <= i < |s| - 1 => s[i + 1] - s[i])
  }

  /** Absolute close-to-close deltas, the terms ATR averages. */
  function AbsDiffs(s: seq<real>): (r: seq<real>)
    ensures |r| == if |s| == 0 then 0 else |s| - 1
    ensures forall i :: 0 <= i < |r| ==> r[i] == Abs(s[i + 1] - s[i]) && r[i] >= 0.0
  {
    if |s| == 0 then [] else seq(|s| - 1, i requires 0 <= i < |s| - 1 => Abs(s[i + 1] - s[i]))
  }

  /** Sum of the positive deltas of a window (`if (d > 0) gains += d`). */
  function Gains(d: seq<real>): (r: real)
    ensures r >= 0.0
    decreases |d|
  {
    if |d| == 0 then 0.0
    else Gains(d[..|d| - 1]) + (if d[|d| - 1] > 0.0 then d[|d| - 1] else 0.0)
  }

  /** Sum of the magnitudes of the non-positive deltas (`else losses += -d`). */
  function Losses(d: seq<real>): (r: real)
    ensures r >= 0.0
    decreases |d|
  {
    if |d| == 0 then 0.0
    else Losses(d[..|d| - 1]) + (if d[|d| - 1] > 0.0 then 0.0 else -d[|d| - 1])
  }

  /** A window with no falling delta has no losses. */
  lemma {:induction false} NoLossWhenNoFall(d: seq<real>)
    requires forall i :: 0 <= i < |d| ==> d[i] >= 0.0
    ensures Losses(d) == 0.0
    decreases |d|
  {
    if |d| > 0 {
      NoLossWhenNoFall(d[..|d| - 1]);
    }
  }

  /** `100 - 100 / (1 + rs)` for a non-negative ratio lies in [0, 100). */
  lemma SaturationBounds(rs: real)
    requires rs >= 0.0
    ensures 0.0 <= 100.0 - 100.0 / (1.0 + rs) < 100.0
  {
    var q := 100.0 / (1.0 + rs);
    assert q * (1.0 + rs) == 100.0;
    assert q > 0.0;
    assert q * rs >= 0.0;
    assert q + q * rs == 100.0;
  }

  /** One RSI value of bot-sinais and bot-sinais2: simple averages of the
      window's gains and losses, 100 when the average loss is zero, and no
      clamp. */
  function WindowRsiUnclamped(w: seq<real>): (r: real)
    requires |w| >= 1
    ensures Losses(w) == 0.0 ==> r == 100.0
    ensures Losses(w) > 0.0 ==> 0.0 <= r < 100.0
  {
    var n := |w| as real;
    var avgGain := Gains(w) / n;
    var avgLoss := Losses(w) / n;
    assert avgGain >= 0.0 && avgLoss >= 0.0;
    if avgLoss == 0.0 then 100.0
    else
      var rs := avgGain / avgLoss;
      assert rs >= 0.0;
      SaturationBounds(rs);
      100.0 - 100.0 / (1.0 + rs)
  }

  /** The same value as bot-sinais3 and bot-sinais4 compute it, clamped into [0, 100]. */
  function WindowRsi(w: seq<real>): (r: real)
    requires |w| >= 1
    ensures 0.0 <= r <= 100.0
    ensures Losses(w) == 0.0 ==> r == 100.0
  {
    var n := |w| as real;
    var avgGain := Gains(w) / n;
    var avgLoss := Losses(w) / n;
    if avgLoss == 0.0 then 100.0
    else Clamp(100.0 - 100.0 / (1.0 + avgGain / avgLoss), 0.0, 100.0)
  }

  /** One unclamped RSI value per window of `length` consecutive deltas. */
  function WindowsRsiUnclamped(d: seq<real>, length: nat): (vals: seq<real>)
    requires 1 <= length <= |d|
    ensures |vals| == |d| - length + 1
    ensures forall i :: 0 <= i < |vals| ==> vals[i] == WindowRsiUnclamped(d[i..i + length])
    ensures forall i :: 0 <= i < |vals| ==> 0.0 <= vals[i] <= 100.0
  {
    seq(|d| - length + 1, i requires 0 <= i <= |d| - length => WindowRsiUnclamped(d[i..i + length]))
  }

  /** One clamped RSI value per window of `length` consecutive deltas. */
  function WindowsRsi(d: seq<real>, length: nat): (vals: seq<real>)
    requires 1 <= length <= |d|
    ensures |vals| == |d| - length + 1
    ensures forall i :: 0 <= i < |vals| ==> vals[i] == WindowRsi(d[i..i + length])
    ensures forall i :: 0 <= i < |vals| ==> 0.0 <= vals[i] <= 100.0
  {
    seq(|d| - length + 1, i requires 0 <= i <= |d| - length => WindowRsi(d[i..i + length]))
  }

  /** The windowed RSI series of bot-sinais / bot-sinais2 (`rsi`): one value per
      window of `length` consecutive deltas, the last one being the current RSI. */
  function RsiUnclamped(series: seq<real>, length: nat): (r: Option<seq<real>>)
    requires length >= 1
    ensures r.None? <==> |series| < length + 1
    ensures r.Some? ==> |r.value| == |series| - length
    ensures r.Some? ==> forall i :: 0 <= i < |r.value| ==> 0.0 <= r.value[i] <= 100.0
  {
    if |series| < length + 1 then None
    else Some(WindowsRsiUnclamped(Diffs(series), length))
  }

  /** The windowed RSI series of bot-sinais3 / bot-sinais4 (`rsi`, clamped). */
  function Rsi(series: seq<real>, length: nat): (r: Option<seq<real>>)
    requires length >= 1
    ensures r.None? <==> |series| < length + 1
    ensures r.Some? ==> |r.value| == |series| - length
    ensures r.Some? ==> forall i :: 0 <= i < |r.value| ==> 0.0 <= r.value[i] <= 100.0
    ensures r.Some? ==> forall i :: 0 <= i < |r.value| ==> r.value[i] == WindowRsi(Diffs(series)[i..i + length])
  {
    if |series| < length + 1 then None
    else Some(WindowsRsi(Diffs(series), length))
  }

  /** Entry `i` of the RSI series is the RSI of the `i`-th window of deltas. */
  lemma RsiAt(series: seq<real>, length: nat, i: nat)
    requires length >= 1 && i + length < |series|
    ensures |Diffs(series)| == |series| - 1
    ensures Rsi(series, length).value[i] == WindowRsi(Diffs(series)[i..i + length])
  {
  }

  /** A window without a falling delta has an RSI of 100. */
  lemma RsiOfZeroLossWindow(series: seq<real>, length: nat, i: nat)
    requires length >= 1 && i + length < |series|
    requires Losses(Diffs(series)[i..i + length]) == 0.0
    ensures Rsi(series, length).value[i] == 100.0
  {
    RsiAt(series, length, i);
  }

  /** The clamp added in the later bots never fires on a single window. */
  lemma WindowClampIsNoOp(w: seq<real>)
    requires |w| >= 1
    ensures WindowRsi(w) == WindowRsiUnclamped(w)
  {
    var u := WindowRsiUnclamped(w);
    assert 0.0 <= u <= 100.0;
  }

  /** The clamp added in the later bots never fires: both RSI versions agree on every input. */
  lemma RsiClampIsNoOp(series: seq<real>, length: nat)
    requires length >= 1
    ensures Rsi(series, length) == RsiUnclamped(series, length)
  {
    if |series| >= length + 1 {
      var d := Diffs(series);
      var a := Rsi(series, length).value;
      var b := RsiUnclamped(series, length).value;
      forall i | 0 <= i < |a|
        ensures a[i] == b[i]
      {
        WindowClampIsNoOp(d[i..i + length]);
      }
      assert a == b;
    }
  }

  /** On a series that never falls, every RSI value is 100. */
  lemma RsiOfNonFallingSeries(series: seq<real>, length: nat)
    requires length >= 1
    requires |series| >= length + 1
    requires forall i :: 0 <= i < |series| - 1 ==> series[i] <= series[i + 1]
    ensures forall i :: 0 <= i < |Rsi(series, length).value| ==> Rsi(series, length).value[i] == 100.0
  {
    var d := Diffs(series);
    var r := Rsi(series, length).value;
    forall i | 0 <= i < |r|
      ensures r[i] == 100.0
    {
      NoLossWhenNoFall(d[i..i + length]);
      RsiOfZeroLossWindow(series, length, i);
    }
  }

  /** `simpleSMA(arr, len)`: the mean of the last `len` values, null when
      there are fewer. crypto-shield-pro's `sma` is the same function. */
  function SimpleSma(arr: seq<real>, len: nat): (r: Option<real>)
    requires len >= 1
    ensures r.None? <==> |arr| < len
  {
    if |arr| < len then None else Some(Mean(Last(arr, len)))
  }

  /** Times `len`, the average gives back the sum of the window. */
  lemma SmaTimesPeriod(arr: seq<real>, len: nat)
    requires len >= 1 && |arr| >= len
    ensures SimpleSma(arr, len).value * len as real == Sum(arr[|arr| - len..])
  {
  }

  /** The average lies within any range holding its window, so a constant
      window gives its constant. */
  lemma SmaWithin(arr: seq<real>, len: nat, lo: real, hi: real)
    requires len >= 1 && |arr| >= len
    requires forall i :: |arr| - len <= i < |arr| ==> lo <= arr[i] <= hi
    ensures lo <= SimpleSma(arr, len).value <= hi
  {
    MeanBounds(Last(arr, len), lo, hi);
  }

  /** The stochastic position of a window's last value between its minimum
      and maximum, 0 for a flat window. */
  function WindowStoch(w: seq<real>): (r: real)
    requires |w| >= 1
    ensures 0.0 <= r <= 100.0
  {
    var mn := MinOf(w);
    var mx := MaxOf(w);
    if mx == mn then 0.0
    else
      assert mn <= w[|w| - 1] <= mx;
      DivUnit(w[|w| - 1] - mn, mx - mn);
      100.0 * ((w[|w| - 1] - mn) / (mx - mn))
  }

  /** The rolling stochastic series: one value per window of `stochLen` RSI values. */
  function StochSeries(r: seq<real>, stochLen: nat): (ss: seq<real>)
    requires 1 <= stochLen <= |r|
    ensures |ss| == |r| - stochLen + 1
    ensures forall i :: 0 <= i < |ss| ==> 0.0 <= ss[i] <= 100.0
  {
    var vals := seq(|r| - stochLen + 1, i requires 0 <= i < |r| - stochLen + 1 => WindowStoch(r[i..i + stochLen]));
    assert forall i :: 0 <= i < |vals| ==> vals[i] == WindowStoch(r[i..i + stochLen]);
    vals
  }

  datatype StochResult = StochResult(stoch: real, k: real, d: real)

  predicate InPercentRange(x: real) {
    0.0 <= x <= 100.0
  }

  lemma {:induction false} LastOfLast(s: seq<real>, a: nat, b: nat)
    requires b <= a <= |s|
    ensures Last(Last(s, a), b) == Last(s, b)
  {
  }

  /** The mean of the last `n` entries of a [0, 100] series is in [0, 100]. */
  lemma MeanLastInRange(ss: seq<real>, n: nat)
    requires 1 <= n <= |ss|
    requires forall i :: 0 <= i < |ss| ==> 0.0 <= ss[i] <= 100.0
    ensures InPercentRange(Mean(Last(ss, n)))
  {
    MeanBounds(Last(ss, n), 0.0, 100.0);
  }

  /** Slicing to the last `max(d, 1)` values before taking the last
      `min(d, n)` keeps just the last `min(d, n)`. */
  lemma SliceForD(ss: seq<real>, d: nat)
    requires d >= 1
    ensures var forD := Last(ss, MinInt(MaxInt(d, 1), |ss|));
      Last(forD, MinInt(d, |forD|)) == Last(ss, MinInt(d, |ss|))
  {
    var forD := Last(ss, MinInt(MaxInt(d, 1), |ss|));
    LastOfLast(ss, |forD|, MinInt(d, |forD|));
  }

  /** The K and D smoothing of `stochRsi`: K is the mean of the last `k`
      stochastic values and D the mean of the last `d`, both over fewer values
      when the series is shorter. */
  function SmoothKD(ss: seq<real>, k: nat, d: nat): (r: (real, real))
    requires |ss| >= 1 && k >= 1 && d >= 1
    requires forall i :: 0 <= i < |ss| ==> 0.0 <= ss[i] <= 100.0
    ensures InPercentRange(r.0) && InPercentRange(r.1)
    ensures k == d ==> r.0 == r.1
    ensures r.0 == Mean(Last(ss, MinInt(k, |ss|)))
    ensures r.1 == Mean(Last(ss, MinInt(d, |ss|)))
  {
    var kLen := MinInt(k, |ss|);
    var kVal := Mean(Last(ss, kLen));
    var forD := Last(ss, MinInt(MaxInt(d, 1), |ss|));
    var dLen := MinInt(d, |forD|);
    var dVal := Mean(Last(forD, dLen));
    MeanLastInRange(ss, kLen);
    SliceForD(ss, d);
    MeanLastInRange(ss, MinInt(d, |ss|));
    (kVal, dVal)
  }

  /** `stochRsi`: null when the RSI series is missing or shorter than
      `stochLen`; all zeros when the last `stochLen` RSI values are equal;
      otherwise the current stochastic value with its K/D smoothing. */
  function StochRsi(series: seq<real>, rsiLen: nat, stochLen: nat, k: nat, d: nat): (r: Option<StochResult>)
    requires rsiLen >= 1 && stochLen >= 1 && k >= 1 && d >= 1
    ensures r.None? <==> |series| < rsiLen + 1 || |series| - rsiLen < stochLen
    ensures r.Some? ==> InPercentRange(r.value.stoch) && InPercentRange(r.value.k) && InPercentRange(r.value.d)
    ensures r.Some? && k == d ==> r.value.k == r.value.d
    ensures r.Some? ==>
      var rs := Rsi(series, rsiLen).value;
      var recent := Last(rs, stochLen);
      var ss := StochSeries(rs, stochLen);
      (MinOf(recent) == MaxOf(recent) ==> r.value == StochResult(0.0, 0.0, 0.0))
      && (MinOf(recent) != MaxOf(recent) ==>
            r.value.stoch == WindowStoch(recent)
            && r.value.k == Mean(Last(ss, MinInt(k, |ss|)))
            && r.value.d == Mean(Last(ss, MinInt(d, |ss|))))
  {
    var rso := Rsi(series, rsiLen);
    if rso.None? || |rso.value| < stochLen then None
    else
      var rs := rso.value;
      var recent := Last(rs, stochLen);
      var minRsi := MinOf(recent);
      var maxRsi := MaxOf(recent);
      if maxRsi == minRsi then Some(StochResult(0.0, 0.0, 0.0))
      else
        var stoch := WindowStoch(recent);
        var kd := SmoothKD(StochSeries(rs, stochLen), k, d);
        Some(StochResult(stoch, kd.0, kd.1))
  }

  /** When the last `stochLen` RSI values are equal, K, D and the
      stochastic value are all zero. */
  lemma StochRsiFlat(series: seq<real>, rsiLen: nat, stochLen: nat, k: nat, d: nat)
    requires rsiLen >= 1 && stochLen >= 1 && k >= 1 && d >= 1
    requires |series| >= rsiLen + 1 + stochLen - 1
    requires var rs := Rsi(series, rsiLen).value;
      forall i :: |rs| - stochLen <= i < |rs| ==> rs[i] == rs[|rs| - 1]
    ensures StochRsi(series, rsiLen, stochLen, k, d) == Some(StochResult(0.0, 0.0, 0.0))
  {
    var rs := Rsi(series, rsiLen).value;
    var recent := Last(rs, stochLen);
    assert forall i :: 0 <= i < |recent| ==> recent[i] == rs[|rs| - 1];
    assert MinOf(recent) == rs[|rs| - 1] == MaxOf(recent);
  }

  /** `atr`: null with fewer than `period + 1` points, otherwise the mean
      absolute delta over the last `period` deltas. */
  function Atr(series: seq<real>, period: nat): (r: Option<real>)
    requires period >= 1
    ensures r.None? <==> |series| < period + 1
    ensures r.Some? ==> r.value >= 0.0
  {
    if |series| < period + 1 then None
    else
      var recent := Last(AbsDiffs(series), period);
      MeanBounds(recent, 0.0, MaxOf(recent));
      Some(Mean(recent))
  }

  lemma {:induction false} SumZeroOfNonNeg(s: seq<real>, i: nat)
    requires forall j :: 0 <= j < |s| ==> s[j] >= 0.0
    requires Sum(s) == 0.0
    requires i < |s|
    ensures s[i] == 0.0
    decreases |s|
  {
    var init := s[..|s| - 1];
    SumBounds(init, 0.0, MaxOf(s));
    if i < |s| - 1 {
      SumZeroOfNonNeg(init, i);
    }
  }

  lemma ZeroMeanZeroSum(s: seq<real>)
    requires |s| >= 1 && Mean(s) == 0.0
    ensures Sum(s) == 0.0
  {
    var n := |s| as real;
    assert Sum(s) == Mean(s) * n;
  }

  /** A zero ATR means the last `period + 1` closes are all equal. */
  lemma AtrZeroMeansFlat(series: seq<real>, period: nat)
    requires period >= 1 && |series| >= period + 1
    requires Atr(series, period).value == 0.0
    ensures forall i :: |series| - period - 1 <= i < |series| ==> series[i] == series[|series| - 1]
  {
    var start := |series| - period - 1;
    TailDeltasVanish(series, period);
    forall i | start <= i < |series|
      ensures series[i] == series[|series| - 1]
    {
      FlatChain(series, start, i);
    }
  }

  /** A zero ATR leaves every one of the last `period` steps flat. */
  lemma TailDeltasVanish(series: seq<real>, period: nat)
    requires period >= 1 && |series| >= period + 1
    requires Atr(series, period).value == 0.0
    ensures forall j :: |series| - period - 1 <= j < |series| - 1 ==> series[j] == series[j + 1]
  {
    var ad := AbsDiffs(series);
    var recent := Last(ad, period);
    var start := |series| - period - 1;
    assert Mean(recent) == 0.0;
    AllZeroOfZeroMean(recent);
    forall j | start <= j < |series| - 1
      ensures series[j] == series[j + 1]
    {
      assert ad[j] == recent[j - start] == 0.0;
      assert Abs(series[j + 1] - series[j]) == 0.0;
    }
  }

  /** A mean of non-negative terms is zero only when every term is. */
  lemma AllZeroOfZeroMean(s: seq<real>)
    requires |s| >= 1 && Mean(s) == 0.0
    requires forall j :: 0 <= j < |s| ==> s[j] >= 0.0
    ensures forall j :: 0 <= j < |s| ==> s[j] == 0.0
  {
    ZeroMeanZeroSum(s);
    forall j | 0 <= j < |s|
      ensures s[j] == 0.0
    {
      SumZeroOfNonNeg(s, j);
    }
  }

  /** Equal closes over the last `period + 1` points give a zero ATR. */
  lemma AtrOfFlat(series: seq<real>, period: nat)
    requires period >= 1 && |series| >= period + 1
    requires forall i :: |series| - period - 1 <= i < |series| ==> series[i] == series[|series| - 1]
    ensures Atr(series, period).value == 0.0
  {
    var ad := AbsDiffs(series);
    var recent := Last(ad, period);
    var start := |series| - period - 1;
    forall j | 0 <= j < period
      ensures recent[j] == 0.0
    {
      assert recent[j] == ad[start + j];
      assert series[start + j] == series[|series| - 1];
      assert series[start + j + 1] == series[|series| - 1];
    }
    MeanConstant(recent, 0.0);
  }

  /** ATR is zero exactly when the last `period + 1` closes are all equal. */
  lemma AtrZeroIffFlat(series: seq<real>, period: nat)
    requires period >= 1 && |series| >= period + 1
    ensures Atr(series, period).value == 0.0 <==>
      forall i :: |series| - period - 1 <= i < |series| ==> series[i] == series[|series| - 1]
  {
    if Atr(series, period).value == 0.0 {
      AtrZeroMeansFlat(series, period);
    }
    if forall i :: |series| - period - 1 <= i < |series| ==> series[i] == series[|series| - 1] {
      AtrOfFlat(series, period);
    }
  }

  lemma {:induction false} FlatChain(s: seq<real>, start: nat, i: nat)
    requires start <= i < |s|
    requires forall j :: start <= j < |s| - 1 ==> s[j] == s[j + 1]
    ensures s[i] == s[|s| - 1]
    decreases |s| - i
  {
    if i < |s| - 1 {
      FlatChain(s, start, i + 1);
    }
  }

  /** The exponential fold of `ema`: seeded with the first value, each
      next value weighted by `alpha`. */
  function EmaFold(s: seq<real>, alpha: real): real
    requires |s| >= 1
    decreases |s|
  {
    if |s| == 1 then s[0]
    else s[|s| - 1] * alpha + EmaFold(s[..|s| - 1], alpha) * (1.0 - alpha)
  }

  lemma Between(x: real, e: real, alpha: real, lo: real, hi: real)
    requires lo <= x <= hi && lo <= e <= hi && 0.0 <= alpha <= 1.0
    ensures lo <= x * alpha + e * (1.0 - alpha) <= hi
  {
    var v := x * alpha + e * (1.0 - alpha);
    assert (x - lo) * alpha >= 0.0 && (e - lo) * (1.0 - alpha) >= 0.0;
    assert (hi - x) * alpha >= 0.0 && (hi - e) * (1.0 - alpha) >= 0.0;
    assert v - lo == (x - lo) * alpha + (e - lo) * (1.0 - alpha);
    assert hi - v == (hi - x) * alpha + (hi - e) * (1.0 - alpha);
  }

  /** The fold never leaves the range of its inputs. */
  lemma {:induction false} EmaFoldBounds(s: seq<real>, alpha: real, lo: real, hi: real)
    requires |s| >= 1 && 0.0 <= alpha <= 1.0
    requires forall i :: 0 <= i < |s| ==> lo <= s[i] <= hi
    ensures lo <= EmaFold(s, alpha) <= hi
    decreases |s|
  {
    if |s| > 1 {
      EmaFoldBounds(s[..|s| - 1], alpha, lo, hi);
      Between(s[|s| - 1], EmaFold(s[..|s| - 1], alpha), alpha, lo, hi);
    }
  }

  /** `ema`: null when the series is shorter than `length`; otherwise the
      exponential average with factor `2 / (length + 1)` seeded with the
      first value. It lies between the series' minimum and maximum, so a
      constant series gives its constant. */
  function Ema(series: seq<real>, length: nat): (r: Option<real>)
    requires length >= 1
    ensures r.None? <==> |series| < length
    ensures r.Some? ==> MinOf(series) <= r.value <= MaxOf(series)
    ensures r.Some? && (forall i :: 0 <= i < |series| ==> series[i] == series[0]) ==> r.value == series[0]
  {
    if |series| < length then None
    else
      var alpha := 2.0 / (length as real + 1.0);
      EmaFoldBounds(series, alpha, MinOf(series), MaxOf(series));
      assert (forall i :: 0 <= i < |series| ==> series[i] == series[0]) ==> MinOf(series) == series[0] == MaxOf(series);
      Some(EmaFold(series, alpha))
  }
}

=== FILE: learning.dfy ===
/** The adaptive part of bot-sinais4: the per-symbol hill-climbing model
    `learn` adjusts from rolling win rates, and the RSI thresholds
    `adaptiveThreshold` derives from the symbol's recent results. */
module Learning {
  import opened Num
  import opened Trade

  /** `state.model[symbol]`: the ATR multiplier of the WIN floor and the
      integer stochastic/RSI thresholds. */
  datatype Model = Model(minAtrMult: real, kOver: int, kUnder: int, rsiOver: int, rsiUnder: int)

  const INITIAL_MODEL: Model := Model(0.20, 95, 5, 70, 30)

  const MIN_ATR_MULT_LO: real := 0.12
  const MIN_ATR_MULT_HI: real := 0.50

  /** The ranges `learn` clamps into. */
  predicate InRange(m: Model) {
    MIN_ATR_MULT_LO <= m.minAtrMult <= MIN_ATR_MULT_HI
    && 90 <= m.kOver <= 99 && 1 <= m.kUnder <= 10
    && 55 <= m.rsiOver <= 80 && 20 <= m.rsiUnder <= 45
  }

  lemma InitialModelInRange()
    ensures InRange(INITIAL_MODEL)
  {
  }

  /** The multiplier change: +0.05 / -0.02 from the last 20 results and
      +0.02 / -0.01 from the last 100. */
  function DeltaMin(wr20: real, wr100: real): (d: real)
    ensures -0.03 <= d <= 0.07
  {
    (if wr20 < 0.5 then 0.05 else if wr20 > 0.7 then -0.02 else 0.0)
    + (if wr100 < 0.5 then 0.02 else if wr100 > 0.7 then -0.01 else 0.0)
  }

  /** One step of the integer thresholds: stricter after a poor run
      (`dir = 1`), looser after a good one (`dir = -1`). */
  function StepThresholds(m: Model, dir: int): Model {
    m.(kOver := ClampInt(m.kOver + dir, 90, 99),
       kUnder := ClampInt(m.kUnder - dir, 1, 10),
       rsiOver := ClampInt(m.rsiOver + dir, 55, 80),
       rsiUnder := ClampInt(m.rsiUnder - dir, 20, 45))
  }

  /** The rolling win rates `learn` reads: last 20 and last 100 (0 when
      empty), last 10 (1 when empty). */
  function Wr20(mine: seq<Record>): real { WinRate(Take(mine, 20), 0.0) }
  function Wr100(mine: seq<Record>): real { WinRate(Take(mine, 100), 0.0) }
  function Wr10(mine: seq<Record>): real { WinRate(Take(mine, 10), 1.0) }

  function Toggle(mode: Mode): Mode {
    if mode == Reversao then Rompimento else Reversao
  }

  /** `learn(symbol)`: nothing without a day; otherwise the multiplier moves
      by `DeltaMin` inside [0.12, 0.50], the thresholds step inside their
      ranges when the 20-result win rate leaves [0.5, 0.7], and the mode
      toggles when fewer than half of the last ten results are wins. */
  function Learn(m: Model, mode: Mode, day: Option<Day>, symbol: string): (r: (Model, Mode))
    ensures day.None? ==> r == (m, mode)
    ensures day.Some? ==> MIN_ATR_MULT_LO <= r.0.minAtrMult <= MIN_ATR_MULT_HI
    ensures InRange(m) ==> InRange(r.0)
    ensures day.Some? ==>
      var mine := OfSymbol(day.value.results, symbol);
      (0.5 <= Wr20(mine) <= 0.7 ==>
        r.0.kOver == m.kOver && r.0.kUnder == m.kUnder && r.0.rsiOver == m.rsiOver && r.0.rsiUnder == m.rsiUnder)
      && (r.1 != mode <==> Wr10(mine) < 0.5)
  {
    if day.None? then (m, mode)
    else
      var mine := OfSymbol(day.value.results, symbol);
      var wr20 := Wr20(mine);
      var wr100 := Wr100(mine);
      var m1 := m.(minAtrMult := Clamp(m.minAtrMult + DeltaMin(wr20, wr100), MIN_ATR_MULT_LO, MIN_ATR_MULT_HI));
      var m2 := if wr20 < 0.5 then StepThresholds(m1, 1) else if wr20 > 0.7 then StepThresholds(m1, -1) else m1;
      var mode2 := if Wr10(mine) < 0.5 then Toggle(mode) else mode;
      (m2, mode2)
  }

  /** A poor 20-result run (win rate below 0.5) never loosens the model: the
      multiplier does not fall (its change is at least +0.04) and each
      threshold moves only towards the stricter side. */
  lemma PoorRunTightens(m: Model, mode: Mode, day: Day, symbol: string)
    requires InRange(m)
    requires Wr20(OfSymbol(day.results, symbol)) < 0.5
    ensures var r := Learn(m, mode, Some(day), symbol).0;
      r.minAtrMult >= m.minAtrMult && r.kOver >= m.kOver && r.kUnder <= m.kUnder
      && r.rsiOver >= m.rsiOver && r.rsiUnder <= m.rsiUnder
  {
  }

  /** A good run (win rate above 0.7 over 20 and 100 results) never
      tightens it. */
  lemma GoodRunLoosens(m: Model, mode: Mode, day: Day, symbol: string)
    requires InRange(m)
    requires Wr20(OfSymbol(day.results, symbol)) > 0.7 && Wr100(OfSymbol(day.results, symbol)) > 0.7
    ensures var r := Learn(m, mode, Some(day), symbol).0;
      r.minAtrMult <= m.minAtrMult && r.kOver <= m.kOver && r.kUnder >= m.kUnder
      && r.rsiOver <= m.rsiOver && r.rsiUnder >= m.rsiUnder
  {
  }

  /** With no results for the symbol both rates are 0 (a poor run) but the
      10-result rate is 1, so the mode stays. */
  lemma LearnWithoutHistory(m: Model, mode: Mode, day: Day, symbol: string)
    requires OfSymbol(day.results, symbol) == []
    ensures Learn(m, mode, Some(day), symbol).1 == mode
    ensures InRange(m) ==> Learn(m, mode, Some(day), symbol).0.kOver == ClampInt(m.kOver + 1, 90, 99)
  {
  }

  /** The RSI pair bot-sinais4 uses in the sideways regime. */
  datatype Thresholds = Thresholds(rsiBuy: int, rsiSell: int)

  /** `adj`: +5 below a 60% win rate, -5 above 80%, else 0. */
  function Adj(wr: real): (a: int)
    ensures a == 5 || a == 0 || a == -5
    ensures a == 5 <==> wr < 0.6
    ensures a == -5 <==> wr > 0.8
  {
    if wr < 0.6 then 5 else if wr > 0.8 then -5 else 0
  }

  /** A better win rate never raises the adjustment. */
  lemma AdjMonotone(wr1: real, wr2: real)
    requires wr1 <= wr2
    ensures Adj(wr2) <= Adj(wr1)
  {
  }

  /** The win rate over the symbol's last 30 results in a day's log (newest
      first), 0 when it has none. */
  function RecentWinRate(day: Day, symbol: string): (wr: real)
    ensures 0.0 <= wr <= 1.0
    ensures OfSymbol(day.results, symbol) == [] ==> wr == 0.0
  {
    WinRate(Take(OfSymbol(day.results, symbol), 30), 0.0)
  }

  /** `adaptiveThreshold`: {35, 65} without a day; otherwise moved by `Adj`
      of the win rate over the symbol's last 30 results: {40, 60} below 60%,
      {30, 70} above 80%. The pair is always symmetric around 50. */
  function AdaptiveThreshold(day: Option<Day>, symbol: string): (t: Thresholds)
    ensures t.rsiBuy + t.rsiSell == 100
    ensures t.rsiBuy == 30 || t.rsiBuy == 35 || t.rsiBuy == 40
    ensures day.None? ==> t == Thresholds(35, 65)
    ensures day.Some? && OfSymbol(day.value.results, symbol) == [] ==> t == Thresholds(40, 60)
    ensures day.Some? ==>
      (t.rsiBuy == 40 <==> RecentWinRate(day.value, symbol) < 0.6)
      && (t.rsiBuy == 30 <==> RecentWinRate(day.value, symbol) > 0.8)
  {
    if day.None? then Thresholds(35, 65)
    else
      var a := Adj(RecentWinRate(day.value, symbol));
      Thresholds(35 + a, 65 - a)
  }

  /** A better recent win rate never moves the thresholds toward 50:
      `rsiBuy` never rises and `rsiSell` never falls. */
  lemma ThresholdsMonotoneInWinRate(d1: Day, d2: Day, symbol: string)
    requires RecentWinRate(d1, symbol) <= RecentWinRate(d2, symbol)
    ensures AdaptiveThreshold(Some(d2), symbol).rsiBuy <= AdaptiveThreshold(Some(d1), symbol).rsiBuy
    ensures AdaptiveThreshold(Some(d2), symbol).rsiSell >= AdaptiveThreshold(Some(d1), symbol).rsiSell
  {
    AdjMonotone(RecentWinRate(d1, symbol), RecentWinRate(d2, symbol));
  }
}

=== FILE: lifecycle.dfy ===
/** The per-symbol trade lifecycle of the four bots and the once-a-second
    scheduler that drives it: a closed candle extends the series, the mode
    switch runs, an announcement opens a pending signal, the enter step turns
    it into a trade at the live price, and at second 0 of the next minute the
    trade is scored, logged, counted into the bankroll and closed. */
module Lifecycle {
  import opened Num
  import opened Trade
  import Indicators
  import TrendLines
  import SupportResistance
  import Signals
  import Learning
  import ModeSwitch
  import Feed

  /** bot-sinais, bot-sinais2, bot-sinais3 and bot-sinais4. */
  datatype Version = V1 | V2 | V3 | V4

  const COOLDOWN_BARS: nat := 1
  const ANNOUNCE_MIN: int := 1
  const ANNOUNCE_MAX: int := 25
  const EXIT_SECOND: int := 0
  /** The WIN floor of bot-sinais3 as a fraction of the ATR. */
  const FLOOR_ATR_V3: real := 0.2

  /** Everything a bot keeps per symbol. `bars` counts the closed candles
      the symbol has received; the cooldown is measured on it (see
      `CoolingDown`). */
  datatype Sym = Sym(
    ser: Feed.Series,
    lastPrice: Option<real>,
    pending: Option<Pending>,
    entry: Option<Entry>,
    stats: Stats,
    mode: Mode,
    bars: nat,
    cooldownUntil: nat,
    sr: SupportResistance.SrOutcome,
    trends: Option<TrendLines.Lines>,
    model: Learning.Model)

  /** A symbol as the bots start it: preloaded candles, no price yet,
      REVERSAO, zero counters and the initial learning model. */
  function Fresh(ser: Feed.Series): (s: Sym)
    ensures Inv(s)
  {
    Sym(ser, None, None, None, Stats(0, 0), Reversao, 0, 0, SupportResistance.NoLevels, None, Learning.INITIAL_MODEL)
  }

  /** The lifecycle invariant: a symbol is idle, has a pending signal, or
      has an open trade, never both of the last two; a pending signal or a
      trade implies a live price, a trade has an entry price; the learning
      model stays inside its ranges. */
  predicate Inv(s: Sym) {
    !(s.pending.Some? && s.entry.Some?)
    && (s.pending.Some? ==> s.lastPrice.Some?)
    && (s.entry.Some? ==> s.lastPrice.Some? && s.entry.value.entryPrice.Some?)
    && Learning.InRange(s.model)
  }

  // ------------------------------------------------------------------ feed

  /** The kline handler for one symbol: the live price follows finite
      closes; a closed candle is pushed (see `Feed.PushCandle`) and counted.
      Bot-sinais2 then recomputes the levels and stores them only when some
      are found; bot-sinais3/4 recompute the trend lines and, through the
      trend panel refresh, store the result whatever it is, null included. */
  function OnKline(v: Version, s: Sym, k: Feed.Kline): (r: Sym)
    ensures r.pending == s.pending && r.entry == s.entry && r.stats == s.stats && r.mode == s.mode
    ensures r.cooldownUntil == s.cooldownUntil && r.model == s.model
    ensures r.lastPrice == Feed.NextPrice(s.lastPrice, k)
    ensures r.ser == Feed.PushCandle(s.ser, k)
    ensures r.bars == s.bars + (if k.closed && k.close.Some? && k.high.Some? && k.low.Some? then 1 else 0)
    ensures v == V1 ==> r.sr == s.sr && r.trends == s.trends
    ensures v != V2 ==> r.sr == s.sr
    ensures v == V2 ==> r.trends == s.trends
    ensures r.bars == s.bars ==> r.sr == s.sr && r.trends == s.trends
    ensures (v == V3 || v == V4) && r.bars != s.bars ==>
      r.trends == TrendLines.ComputeTrendLines(r.ser.highs, r.ser.lows)
    ensures v == V2 && r.bars != s.bars ==>
      var found := SupportResistance.ComputeSRLevels(r.ser.closes, r.ser.highs, r.ser.lows);
      (found.Levels? ==> r.sr == found) && (!found.Levels? ==> r.sr == s.sr)
  {
    var price := Feed.NextPrice(s.lastPrice, k);
    if !(k.closed && k.close.Some? && k.high.Some? && k.low.Some?) then s.(lastPrice := price)
    else
      var ser := Feed.PushCandle(s.ser, k);
      var s1 := s.(lastPrice := price, ser := ser, bars := s.bars + 1);
      match v
      case V1 => s1
      case V2 =>
        var sr := SupportResistance.ComputeSRLevels(ser.closes, ser.highs, ser.lows);
        if sr.Levels? then s1.(sr := sr) else s1
      case _ => s1.(trends := TrendLines.ComputeTrendLines(ser.highs, ser.lows))
  }

  /** The kline handler over a run of messages. */
  function OnKlines(v: Version, s: Sym, ks: seq<Feed.Kline>): Sym
    decreases |ks|
  {
    if |ks| == 0 then s else OnKline(v, OnKlines(v, s, ks[..|ks| - 1]), ks[|ks| - 1])
  }

  /** A symbol that has closes has a live price. */
  predicate Priced(s: Sym) {
    |s.ser.closes| > 0 ==> s.lastPrice.Some?
  }

  /** Every close the handler pushes also sets the live price, so a symbol
      that starts with no closes never has closes without a price: the
      `null` price the mode switch could compare never meets a series long
      enough for it to run. */
  lemma {:induction false} KlinesKeepPriced(v: Version, s: Sym, ks: seq<Feed.Kline>)
    requires Priced(s)
    ensures Priced(OnKlines(v, s, ks))
    decreases |ks|
  {
    if |ks| > 0 {
      KlinesKeepPriced(v, s, ks[..|ks| - 1]);
    }
  }

  // ------------------------------------------------------- once a second

  /** The once-a-second loop for one symbol. Bot-sinais2 re-reads the levels
      (`updateSRUI`) and bot-sinais3/4 the trend lines (`updateTrendUI`),
      overwriting what is stored with whatever the computation gives, null
      included; both skip the refresh while the highs or lows are empty.
      The mode switch then runs on the refreshed state. An exception while
      computing the levels ends the loop body before the mode switch.
      Bot-sinais changes no state here. */
  function Refresh(v: Version, s: Sym): (r: Sym)
    ensures r == s.(mode := r.mode, sr := r.sr, trends := r.trends)
    ensures v == V1 ==> r == s
    ensures v != V2 ==> r.sr == s.sr
    ensures v == V2 ==> r.trends == s.trends
    ensures (|s.ser.highs| == 0 || |s.ser.lows| == 0) ==> r.sr == s.sr && r.trends == s.trends
    ensures (v == V3 || v == V4) && |s.ser.highs| > 0 && |s.ser.lows| > 0 ==>
      r.trends == TrendLines.ComputeTrendLines(s.ser.highs, s.ser.lows)
    ensures v == V3 || v == V4 ==> r.mode == ModeSwitch.AutoAdjustV34(s.mode, s.ser.closes, r.trends, s.lastPrice)
    ensures v == V2 && |s.ser.highs| > 0 && |s.ser.lows| > 0 ==>
      var found := SupportResistance.ComputeSRLevels(s.ser.closes, s.ser.highs, s.ser.lows);
      (found.Raised? ==> r == s) && (!found.Raised? ==> r.sr == found)
    ensures v == V2 && (|s.ser.highs| == 0 || |s.ser.lows| == 0
                        || !SupportResistance.ComputeSRLevels(s.ser.closes, s.ser.highs, s.ser.lows).Raised?) ==>
      r.mode == ModeSwitch.AutoAdjustV2(s.mode, s.ser.closes, r.sr, s.lastPrice)
  {
    var unfed := |s.ser.highs| == 0 || |s.ser.lows| == 0;
    match v
    case V1 => s
    case V2 =>
      var sr := if unfed then s.sr else SupportResistance.ComputeSRLevels(s.ser.closes, s.ser.highs, s.ser.lows);
      if sr.Raised? then s
      else s.(sr := sr, mode := ModeSwitch.AutoAdjustV2(s.mode, s.ser.closes, sr, s.lastPrice))
    case _ =>
      var tr := if unfed then s.trends else TrendLines.ComputeTrendLines(s.ser.highs, s.ser.lows);
      s.(trends := tr, mode := ModeSwitch.AutoAdjustV34(s.mode, s.ser.closes, tr, s.lastPrice))
  }

  /** In bot-sinais3/4 the handler and the loop agree: right after a closed
      candle, the next second's refresh finds the same trend lines. */
  lemma RefreshAfterCandleKeepsTrends(v: Version, s: Sym, k: Feed.Kline)
    requires v == V3 || v == V4
    requires k.closed && k.close.Some? && k.high.Some? && k.low.Some?
    ensures Refresh(v, OnKline(v, s, k)).trends == OnKline(v, s, k).trends
  {
  }

  /** In bot-sinais2 a closed candle on a flat market (the last 15 closes
      equal) finds no levels, so the handler keeps the levels found before
      it; the next second's refresh then clears them. */
  lemma FlatMarketClearsLevels(s: Sym, k: Feed.Kline)
    requires k.closed && k.close.Some? && k.high.Some? && k.low.Some?
    requires s.sr.Levels?
    requires var c := Feed.PushCandle(s.ser, k).closes;
      |c| >= SupportResistance.SR_MIN_BARS && forall i :: |c| - 15 <= i < |c| ==> c[i] == c[|c| - 1]
    ensures OnKline(V2, s, k).sr == s.sr
    ensures Refresh(V2, OnKline(V2, s, k)).sr == SupportResistance.NoLevels
  {
    var ser := Feed.PushCandle(s.ser, k);
    SupportResistance.NoLevelsIffFlatCloses(ser.closes, ser.highs, ser.lows);
  }

  // ------------------------------------------------------------ announcement

  /** The cooldown gate of bot-sinais2 and bot-sinais3, measured in closed
      candles seen (the corrected form; see `CooldownAsWritten`). Bot-sinais
      and bot-sinais4 have no cooldown. */
  predicate CoolingDown(v: Version, s: Sym): (r: bool)
    ensures v == V1 || v == V4 ==> !r
    ensures s.bars >= s.cooldownUntil ==> !r
    ensures (v == V2 || v == V3) && s.bars < s.cooldownUntil ==> r
  {
    (v == V2 || v == V3) && s.cooldownUntil > s.bars
  }

  /** The version's signal rule on the symbol's state; `th` is bot-sinais4's
      adaptive RSI pair. */
  function Signal(v: Version, s: Sym, th: Learning.Thresholds): (r: Option<Side>)
    ensures r.Some? ==> s.lastPrice.Some? && |s.ser.closes| >= Signals.SIGNAL_MIN_CLOSES
  {
    match v
    case V1 => Signals.SignalV1(s.ser.closes, s.lastPrice)
    case V2 => Signals.SignalV2(s.ser.closes, s.ser.highs, s.ser.lows, s.lastPrice, s.sr, s.mode)
    case V3 => Signals.SignalV3(s.ser.closes, s.lastPrice, s.trends, s.mode)
    case V4 => Signals.SignalV4(s.ser.closes, s.lastPrice, s.trends, th)
  }

  /** The announcement behind a gate: nothing while a signal is pending, a
      trade is open or `blocked` holds; otherwise the rule's side becomes the
      pending signal at the live price. Nothing else changes. */
  function AnnounceGated(v: Version, s: Sym, th: Learning.Thresholds, blocked: bool): (r: Sym)
    ensures s.pending.Some? || s.entry.Some? || blocked ==> r == s
    ensures r != s ==>
      s.pending.None? && s.entry.None? && !blocked && s.lastPrice.Some?
      && Signal(v, s, th).Some?
      && r == s.(pending := Some(Pending(Signal(v, s, th).value, s.lastPrice.value)))
    ensures s.pending.None? && s.entry.None? && !blocked && Signal(v, s, th).Some? ==> r.pending.Some?
  {
    if s.pending.Some? || s.entry.Some? || blocked then s
    else
      var side := Signal(v, s, th);
      if side.None? then s else s.(pending := Some(Pending(side.value, s.lastPrice.value)))
  }

  /** `announceSignals` for one symbol, with the cooldown of bot-sinais2 and
      bot-sinais3 as the gate. */
  function Announce(v: Version, s: Sym, th: Learning.Thresholds): (r: Sym)
    ensures s.pending.Some? || s.entry.Some? || CoolingDown(v, s) ==> r == s
    ensures r != s ==>
      s.pending.None? && s.entry.None? && !CoolingDown(v, s) && s.lastPrice.Some?
      && Signal(v, s, th).Some?
      && r == s.(pending := Some(Pending(Signal(v, s, th).value, s.lastPrice.value)))
    ensures s.pending.None? && s.entry.None? && !CoolingDown(v, s) && Signal(v, s, th).Some? ==> r.pending.Some?
  {
    AnnounceGated(v, s, th, CoolingDown(v, s))
  }

  /** Announcing twice in a row is announcing once: a pending signal blocks
      the second pass. */
  lemma AnnounceIdempotent(v: Version, s: Sym, th: Learning.Thresholds)
    ensures Announce(v, Announce(v, s, th), th) == Announce(v, s, th)
  {
  }

  /** `enterTrades` for one symbol: a pending signal becomes a trade on the
      same side at the live price and stops being pending. */
  function Enter(s: Sym): (r: Sym)
    ensures s.pending.None? ==> r == s
    ensures s.pending.Some? ==>
      r == s.(pending := None, entry := Some(Entry(s.pending.value.side, s.lastPrice)))
  {
    if s.pending.None? then s
    else s.(pending := None, entry := Some(Entry(s.pending.value.side, s.lastPrice)))
  }

  /** The scheduler runs the enter step right after the announcement in the
      same tick, so a signal is entered at the very price it was announced
      at and never stays pending. */
  lemma AnnouncedIsEnteredAtSignalPrice(v: Version, s: Sym, th: Learning.Thresholds)
    requires Inv(s)
    ensures Enter(Announce(v, s, th)).pending.None? || s.pending.Some?
    ensures Announce(v, s, th) != s ==>
      Enter(Announce(v, s, th)).entry == Some(Entry(Signal(v, s, th).value, s.lastPrice))
      && Announce(v, s, th).pending.value.price == s.lastPrice.value
  {
  }

  // -------------------------------------------------------------------- exit

  /** The day's log and the bankroll the exit step updates. */
  datatype Book = Book(day: Day, bankroll: real)

  /** The WIN floor: 0 in bot-sinais and bot-sinais2, `(atr || 0) * 0.2` in
      bot-sinais3 and `(atr || 0) * model.minAtrMult` in bot-sinais4. */
  function MinMove(v: Version, s: Sym): (m: real)
    ensures v == V1 || v == V2 ==> m == 0.0
    ensures v == V3 ==> m == AtrOrZero(s.ser.closes) * FLOOR_ATR_V3
    ensures v == V4 ==> m == AtrMultiple(AtrOrZero(s.ser.closes), s.model.minAtrMult)
    ensures v == V3 || Learning.InRange(s.model) ==> m >= 0.0
  {
    match v
    case V1 => 0.0
    case V2 => 0.0
    case V3 => AtrMultiple(AtrOrZero(s.ser.closes), FLOOR_ATR_V3)
    case V4 => AtrMultiple(AtrOrZero(s.ser.closes), s.model.minAtrMult)
  }

  /** `atr * mult` for a non-negative ATR: non-negative with the multiplier,
      and 0 when either factor is. */
  function AtrMultiple(atr: real, mult: real): (m: real)
    requires atr >= 0.0
    ensures m == atr * mult
    ensures mult >= 0.0 ==> m >= 0.0
    ensures mult == 0.0 || atr == 0.0 ==> m == 0.0
  {
    if mult >= 0.0 then MulNonNeg(atr, mult); atr * mult else atr * mult
  }

  /** `atr(closes, 14) || 0`. */
  function AtrOrZero(closes: seq<real>): (a: real)
    ensures a >= 0.0
    ensures |closes| <= Indicators.ATR_PERIOD ==> a == 0.0
  {
    var o := Indicators.Atr(closes, Indicators.ATR_PERIOD);
    if o.Some? then o.value else 0.0
  }

  /** The scored record of an open trade with both prices present. */
  function Scored(v: Version, s: Sym, symbol: string): (rec: Record)
    requires s.entry.Some? && s.entry.value.entryPrice.Some? && s.lastPrice.Some?
    ensures rec.symbol == symbol && rec.side == s.entry.value.side
    ensures rec.entryPrice == s.entry.value.entryPrice.value && rec.exitPrice == s.lastPrice.value
    ensures (v == V3 || Learning.InRange(s.model)) && rec.result == Win ==>
      (rec.side == Call && rec.exitPrice > rec.entryPrice) || (rec.side == Put && rec.exitPrice < rec.entryPrice)
    ensures v == V1 || v == V2 ==>
      (rec.result == Win <==> (rec.side == Call && rec.exitPrice > rec.entryPrice) || (rec.side == Put && rec.exitPrice < rec.entryPrice))
    ensures rec.result == Win <==>
      (rec.side == Call && rec.exitPrice - rec.entryPrice > MinMove(v, s))
      || (rec.side == Put && rec.entryPrice - rec.exitPrice > MinMove(v, s))
  {
    var side := s.entry.value.side;
    var e := s.entry.value.entryPrice.value;
    var x := s.lastPrice.value;
    var floor := MinMove(v, s);
    var o := Score(side, e, x, floor);
    assert Gain(side, e, x) == if side == Call then x - e else e - x;
    Record(symbol, side, o, e, x)
  }

  /** bot-sinais's outcome, which compares whatever prices there are: a
      missing one makes every comparison false and the trade a LOSS. */
  function OutcomeV1(e: Entry, exit: Option<real>): (o: Outcome)
    ensures e.entryPrice.None? || exit.None? ==> o == Loss
  {
    if e.entryPrice.Some? && exit.Some? then Score(e.side, e.entryPrice.value, exit.value, 0.0) else Loss
  }

  /** The results log cap: only bot-sinais4 has one. */
  function Cap(v: Version): (c: Option<nat>)
    ensures c.Some? ==> c.value >= 1
  {
    if v == V4 then Some(RESULTS_CAP) else None
  }

  /** The state side of scoring a trade whose record is `rec`: counters,
      cooldown (bot-sinais2/3, one bar), learning (bot-sinais4) and the
      return to REVERSAO after a loss (bot-sinais3/4); the trade closes. */
  function Settle(v: Version, s: Sym, rec: Record, day: Day): (r: Sym)
    ensures r.entry.None? && r.stats == Tally(s.stats, rec.result)
    ensures r.ser == s.ser && r.lastPrice == s.lastPrice && r.bars == s.bars && r.sr == s.sr && r.trends == s.trends
    ensures v == V2 || v == V3 ==> r.cooldownUntil == s.bars + COOLDOWN_BARS
    ensures v == V1 || v == V4 ==> r.cooldownUntil == s.cooldownUntil
    ensures (v == V3 || v == V4) && rec.result == Loss ==> r.mode == Reversao
    ensures v != V4 ==> r.model == s.model
    ensures Learning.InRange(s.model) ==> Learning.InRange(r.model)
  {
    var learned := if v == V4 then Learning.Learn(s.model, s.mode, Some(day), rec.symbol) else (s.model, s.mode);
    s.(entry := None,
       pending := if v == V3 || v == V4 then None else s.pending,
       stats := Tally(s.stats, rec.result),
       cooldownUntil := if v == V2 || v == V3 then s.bars + COOLDOWN_BARS else s.cooldownUntil,
       model := learned.0,
       mode := if (v == V3 || v == V4) && rec.result == Loss then Reversao else learned.1)
  }

  /** `exitAndScore` for one symbol. Without an open trade nothing happens.
      bot-sinais scores whatever prices there are and only counts; the later
      bots drop a trade with a missing price unscored, and otherwise log the
      record (capped in bot-sinais4) and, in bot-sinais3/4, move the
      bankroll by `+stake * payout` or `-stake`. */
  function ExitSym(v: Version, s: Sym, symbol: string, book: Book): (r: (Sym, Book))
    ensures s.entry.None? ==> r == (s, book)
    ensures r.0.entry.None?
    ensures v == V1 ==> r.1 == book
    ensures v == V1 && s.entry.Some? ==> r.0 == s.(entry := None, stats := Tally(s.stats, OutcomeV1(s.entry.value, s.lastPrice)))
    ensures v != V1 && s.entry.Some? && (s.entry.value.entryPrice.None? || s.lastPrice.None?) ==>
      r == (s.(entry := None), book)
    ensures v != V1 && s.entry.Some? && s.entry.value.entryPrice.Some? && s.lastPrice.Some? ==>
      var rec := Scored(v, s, symbol);
      r.1.day == AddResult(book.day, rec, Cap(v))
      && r.1.bankroll == book.bankroll + (if v == V2 then 0.0 else Delta(rec.result, STAKE, PAYOUT))
      && r.0 == Settle(v, s, rec, r.1.day)
  {
    if s.entry.None? then (s, book)
    else if v == V1 then (s.(entry := None, stats := Tally(s.stats, OutcomeV1(s.entry.value, s.lastPrice))), book)
    else if s.entry.value.entryPrice.None? || s.lastPrice.None? then (s.(entry := None), book)
    else
      var rec := Scored(v, s, symbol);
      var day := AddResult(book.day, rec, Cap(v));
      var bankroll := book.bankroll + (if v == V2 then 0.0 else Delta(rec.result, STAKE, PAYOUT));
      (Settle(v, s, rec, day), Book(day, bankroll))
  }

  /** bot-sinais has no finiteness guard, but under the invariant both
      prices are always there, so its outcome is the strict rule. */
  lemma V1GuardNotNeeded(s: Sym)
    requires Inv(s) && s.entry.Some?
    ensures OutcomeV1(s.entry.value, s.lastPrice) == Win <==>
      var e := s.entry.value.entryPrice.value;
      (s.entry.value.side == Call && s.lastPrice.value > e) || (s.entry.value.side == Put && s.lastPrice.value < e)
  {
    StrictRule(s.entry.value.side, s.entry.value.entryPrice.value, s.lastPrice.value);
  }

  /** The kline handler and the once-a-second loop keep the lifecycle invariant. */
  lemma FeedKeepsInv(v: Version, s: Sym, k: Feed.Kline)
    requires Inv(s)
    ensures Inv(OnKline(v, s, k)) && Inv(Refresh(v, s))
  {
  }

  /** The announcement and the enter step keep the lifecycle invariant. */
  lemma AnnounceEnterKeepInv(v: Version, s: Sym, th: Learning.Thresholds)
    requires Inv(s)
    ensures Inv(Announce(v, s, th)) && Inv(Enter(s))
  {
  }

  /** The exit step keeps the lifecycle invariant; a symbol that had a trade
      is left idle. */
  lemma ExitKeepsInv(v: Version, s: Sym, symbol: string, book: Book)
    requires Inv(s)
    ensures Inv(ExitSym(v, s, symbol, book).0)
    ensures s.entry.Some? ==> ExitSym(v, s, symbol, book).0.pending.None?
  {
  }

  /** In bot-sinais3, and in bot-sinais4 while its log is below the cap, the
      bankroll stays equal to the one recalculated from the log. */
  lemma ExitKeepsBankroll(v: Version, s: Sym, symbol: string, book: Book)
    requires v == V3 || (v == V4 && |book.day.results| < RESULTS_CAP)
    requires book.bankroll == Recalc(book.day.results, STAKE, PAYOUT)
    ensures var r := ExitSym(v, s, symbol, book).1;
      r.bankroll == Recalc(r.day.results, STAKE, PAYOUT)
  {
    if s.entry.Some? && s.entry.value.entryPrice.Some? && s.lastPrice.Some? {
      var rec := Scored(v, s, symbol);
      RecalcPrepend(rec, book.day.results, STAKE, PAYOUT);
      assert AddResult(book.day, rec, Cap(v)).results == [rec] + book.day.results;
    }
  }

  /** In bot-sinais2 and bot-sinais3 the per-symbol counters stay equal to
      the ones `loadDayToUI` rebuilds from the log, for the scored symbol and
      for every other one. */
  lemma ExitKeepsStats(v: Version, s: Sym, symbol: string, other: string, otherStats: Stats, book: Book)
    requires v == V2 || v == V3
    requires s.stats == StatsFromLog(book.day.results, symbol)
    requires other != symbol && otherStats == StatsFromLog(book.day.results, other)
    ensures var r := ExitSym(v, s, symbol, book);
      r.0.stats == StatsFromLog(r.1.day.results, symbol)
      && otherStats == StatsFromLog(r.1.day.results, other)
  {
    if s.entry.Some? && s.entry.value.entryPrice.Some? && s.lastPrice.Some? {
      var rec := Scored(v, s, symbol);
      TallyMatchesLog(book.day.results, rec, symbol);
      TallyMatchesLog(book.day.results, rec, other);
    }
  }

  // --------------------------------------------------------------- all symbols

  /** `exitAndScore` over the symbols in order, threading the log and the
      bankroll. */
  function ExitAll(v: Version, syms: map<string, Sym>, order: seq<string>, book: Book): (r: (map<string, Sym>, Book))
    ensures r.0.Keys == syms.Keys
    ensures forall k :: k in syms && k !in order ==> r.0[k] == syms[k]
    ensures forall k :: k in order && k in syms ==> r.0[k].entry.None?
    decreases |order|
  {
    if |order| == 0 then (syms, book)
    else
      var prev := ExitAll(v, syms, order[..|order| - 1], book);
      var k := order[|order| - 1];
      if k in prev.0 then
        var one := ExitSym(v, prev.0[k], k, prev.1);
        (prev.0[k := one.0], one.1)
      else prev
  }

  /** In bot-sinais3 the bankroll equals the recalculated one after the
      whole exit pass. */
  lemma {:induction false} ExitAllKeepsBankroll(syms: map<string, Sym>, order: seq<string>, book: Book)
    requires book.bankroll == Recalc(book.day.results, STAKE, PAYOUT)
    ensures var r := ExitAll(V3, syms, order, book).1;
      r.bankroll == Recalc(r.day.results, STAKE, PAYOUT)
    decreases |order|
  {
    if |order| > 0 {
      var prev := ExitAll(V3, syms, order[..|order| - 1], book);
      ExitAllKeepsBankroll(syms, order[..|order| - 1], book);
      var k := order[|order| - 1];
      if k in prev.0 {
        ExitKeepsBankroll(V3, prev.0[k], k, prev.1);
      }
    }
  }

  /** A symbol that has no open trade is left exactly as it was by the exit
      pass. */
  lemma {:induction false} ExitAllSparesIdle(v: Version, syms: map<string, Sym>, order: seq<string>, book: Book, k: string)
    requires k in syms && syms[k].entry.None?
    ensures ExitAll(v, syms, order, book).0[k] == syms[k]
    decreases |order|
  {
    if |order| > 0 {
      ExitAllSparesIdle(v, syms, order[..|order| - 1], book, k);
    }
  }

  /** `adaptiveThreshold`, read from the day's log. */
  function Th(day: Option<Day>, symbol: string): Learning.Thresholds {
    Learning.AdaptiveThreshold(day, symbol)
  }

  /** `announceSignals` and then `enterTrades`, symbol by symbol. */
  function AnnounceEnterAll(v: Version, syms: map<string, Sym>, order: seq<string>, day: Option<Day>): (r: map<string, Sym>)
    ensures r.Keys == syms.Keys
    ensures forall k :: k in syms && k !in order ==> r[k] == syms[k]
    ensures forall k :: k in order && k in syms ==> r[k].pending.None? || syms[k].pending.Some?
    decreases |order|
  {
    if |order| == 0 then syms
    else
      var prev := AnnounceEnterAll(v, syms, order[..|order| - 1], day);
      var k := order[|order| - 1];
      if k in prev then prev[k := Enter(Announce(v, prev[k], Th(day, k)))] else prev
  }

  // ------------------------------------------------------------- scheduler

  /** What one scheduler tick does at second `sec` of the minute `stamp`. */
  datatype Plan = Plan(announce: bool, exit: bool, exitedStamp: Option<string>)

  /** The gating of the 100 ms scheduler: announce and enter during seconds
      1..25; exit at second 0, once per minute stamp. */
  function Schedule(sec: int, stamp: string, exited: Option<string>): (p: Plan)
    ensures p.announce <==> ANNOUNCE_MIN <= sec <= ANNOUNCE_MAX
    ensures p.exit <==> sec == EXIT_SECOND && exited != Some(stamp)
    ensures !(p.announce && p.exit)
    ensures p.exit ==> p.exitedStamp == Some(stamp)
    ensures !p.exit ==> p.exitedStamp == exited
  {
    var exit := sec == EXIT_SECOND && exited != Some(stamp);
    Plan(ANNOUNCE_MIN <= sec <= ANNOUNCE_MAX, exit, if exit then Some(stamp) else exited)
  }

  /** The many ticks that fall in the same second exit at most once. */
  lemma ExitOncePerMinute(sec: int, stamp: string, exited: Option<string>)
    ensures !Schedule(sec, stamp, Schedule(sec, stamp, exited).exitedStamp).exit
  {
  }

  /** The whole-bot state the scheduler acts on. */
  datatype Session = Session(
    syms: map<string, Sym>,
    store: map<string, Day>,
    dayKey: string,
    bankroll: real,
    saved: map<string, real>,
    exitedStamp: Option<string>)

  const EMPTY_DAY: Day := Day([], 0, 0)

  /** `ensureDay`: an empty day for a key the store does not have. */
  function EnsureDay(store: map<string, Day>, key: string): (r: map<string, Day>)
    ensures key in r && r.Keys == store.Keys + {key}
    ensures forall k :: k in store ==> r[k] == store[k]
    ensures key !in store ==> r[key] == EMPTY_DAY
  {
    if key in store then store else store[key := EMPTY_DAY]
  }

  /** The current day's entry of the store. */
  function CurDay(sess: Session): Day {
    if sess.dayKey in sess.store then sess.store[sess.dayKey] else EMPTY_DAY
  }

  /** Per-symbol counters rebuilt from a log (`loadDayToUI`). */
  function RebuildStats(syms: map<string, Sym>, results: seq<Record>): (r: map<string, Sym>)
    ensures r.Keys == syms.Keys
    ensures forall k :: k in r ==> r[k] == syms[k].(stats := StatsFromLog(results, k))
  {
    map k | k in syms :: syms[k].(stats := StatsFromLog(results, k))
  }

  /** `newDaySession`: switch to `key`, make sure the day exists and rebuild
      the counters from its log; bot-sinais3 restarts the bankroll at 0,
      bot-sinais4 restores the day's saved bankroll or recalculates it from
      the log (and saves it). bot-sinais has no day session. */
  function NewDaySession(v: Version, sess: Session, key: string): (r: Session)
    requires v != V1
    ensures r.dayKey == key && key in r.store && r.store == EnsureDay(sess.store, key)
    ensures r.syms == RebuildStats(sess.syms, r.store[key].results)
    ensures v == V2 ==> r.bankroll == sess.bankroll
    ensures v == V3 ==> r.bankroll == 0.0
    ensures v == V4 ==> r.bankroll == (if key in sess.saved then sess.saved[key] else Recalc(r.store[key].results, STAKE, PAYOUT))
    ensures v == V4 ==> key in r.saved && r.saved[key] == r.bankroll
    ensures r.exitedStamp == sess.exitedStamp
  {
    var store := EnsureDay(sess.store, key);
    var day := store[key];
    var bankroll := match v
      case V3 => 0.0
      case V4 => if key in sess.saved then sess.saved[key] else Recalc(day.results, STAKE, PAYOUT)
      case _ => sess.bankroll;
    sess.(dayKey := key, store := store, syms := RebuildStats(sess.syms, day.results), bankroll := bankroll,
          saved := if v == V4 then sess.saved[key := bankroll] else sess.saved)
  }

  /** The bankroll and counters agree with the current day's log. */
  predicate Consistent(sess: Session) {
    sess.bankroll == Recalc(CurDay(sess).results, STAKE, PAYOUT)
    && forall k :: k in sess.syms ==> sess.syms[k].stats == StatsFromLog(CurDay(sess).results, k)
  }

  /** A day that starts fresh at midnight starts consistent in bot-sinais3
      and bot-sinais4: an empty log, a zero bankroll, zero counters. */
  lemma FreshDayIsConsistent(v: Version, sess: Session, key: string)
    requires v == V3 || v == V4
    requires key !in sess.store && key !in sess.saved
    ensures Consistent(NewDaySession(v, sess, key))
    ensures forall k :: k in sess.syms ==> NewDaySession(v, sess, key).syms[k].stats == Stats(0, 0)
  {
    var r := NewDaySession(v, sess, key);
    assert CurDay(r) == EMPTY_DAY;
    assert Recalc([], STAKE, PAYOUT) == 0.0;
  }

  /** One scheduler tick: the day rollover (not in bot-sinais), then the
      announce-and-enter pass or the once-per-minute exit pass. bot-sinais4
      saves the bankroll into the day after the exit pass. */
  function Tick(v: Version, sess: Session, sec: int, stamp: string, keyNow: string, order: seq<string>): (r: Session)
    ensures r.syms.Keys == sess.syms.Keys
    ensures v == V1 ==> r.dayKey == sess.dayKey
    ensures v != V1 ==> r.dayKey == keyNow
    ensures r.exitedStamp == Schedule(sec, stamp, sess.exitedStamp).exitedStamp
    ensures !Schedule(sec, stamp, sess.exitedStamp).exit ==> r.bankroll == (if v == V1 || sess.dayKey == keyNow then sess.bankroll else NewDaySession(v, sess, keyNow).bankroll)
  {
    var s1 := if v != V1 && sess.dayKey != keyNow then NewDaySession(v, sess, keyNow) else sess;
    var plan := Schedule(sec, stamp, s1.exitedStamp);
    if plan.announce then
      s1.(syms := AnnounceEnterAll(v, s1.syms, order, Some(CurDay(s1))))
    else if plan.exit then
      var out := ExitAll(v, s1.syms, order, Book(CurDay(s1), s1.bankroll));
      var store := if v == V1 then s1.store else s1.store[s1.dayKey := out.1.day];
      s1.(syms := out.0, store := store, bankroll := out.1.bankroll, exitedStamp := plan.exitedStamp,
          saved := if v == V4 then s1.saved[s1.dayKey := out.1.bankroll] else s1.saved)
    else s1
  }

  /** A second tick in the same exit second and minute changes nothing. */
  lemma TickExitsOncePerMinute(v: Version, sess: Session, stamp: string, keyNow: string, order: seq<string>)
    ensures var t1 := Tick(v, sess, EXIT_SECOND, stamp, keyNow, order);
      Tick(v, t1, EXIT_SECOND, stamp, keyNow, order) == t1
  {
  }

  /** In bot-sinais3 an exit tick keeps the bankroll equal to the one
      recalculated from the day's log. */
  lemma ExitTickKeepsBankrollV3(sess: Session, stamp: string, order: seq<string>)
    requires sess.bankroll == Recalc(CurDay(sess).results, STAKE, PAYOUT)
    ensures var t := Tick(V3, sess, EXIT_SECOND, stamp, sess.dayKey, order);
      t.bankroll == Recalc(CurDay(t).results, STAKE, PAYOUT)
  {
    var plan := Schedule(EXIT_SECOND, stamp, sess.exitedStamp);
    if plan.exit {
      ExitAllKeepsBankroll(sess.syms, order, Book(CurDay(sess), sess.bankroll));
    }
  }

  // ------------------------------------------------------ cooldown lockout

  /** The cooldown as bot-sinais2 and bot-sinais3 write it: measured on the
      length of the close series, which stops growing at 500. */
  predicate CoolingDownAsWritten(s: Sym) {
    s.cooldownUntil > |s.ser.closes|
  }

  /** The cooldown the exit step sets as written: length plus one bar. */
  function CooldownAsWritten(s: Sym): (c: nat)
    ensures c > |s.ser.closes|
  {
    |s.ser.closes| + COOLDOWN_BARS
  }

  /** `announceSignals` with the cooldown as written. */
  function AnnounceAsWritten(v: Version, s: Sym, th: Learning.Thresholds): (r: Sym)
    ensures (v == V2 || v == V3) && CoolingDownAsWritten(s) ==> r == s
  {
    AnnounceGated(v, s, th, (v == V2 || v == V3) && CoolingDownAsWritten(s))
  }

  /** Once the series is full, the as-written cooldown never ends: the
      length stays 500 whatever candles arrive, so the symbol is locked out
      of announcing for good. */
  lemma {:induction false} LockoutAsWritten(v: Version, s: Sym, ks: seq<Feed.Kline>, th: Learning.Thresholds)
    requires v == V2 || v == V3
    requires |s.ser.closes| == Feed.MAX_CLOSES
    requires s.cooldownUntil == CooldownAsWritten(s)
    ensures |OnKlines(v, s, ks).ser.closes| == Feed.MAX_CLOSES
    ensures OnKlines(v, s, ks).cooldownUntil == s.cooldownUntil
    ensures AnnounceAsWritten(v, OnKlines(v, s, ks), th) == OnKlines(v, s, ks)
    decreases |ks|
  {
    if |ks| > 0 {
      LockoutAsWritten(v, s, ks[..|ks| - 1], th);
    }
  }

  /** With the cooldown measured on the candle counter, one closed candle
      after an exit lifts it, even with a full series. */
  lemma CooldownLiftsAfterOneBar(v: Version, s: Sym, symbol: string, book: Book, k: Feed.Kline)
    requires v == V2 || v == V3
    requires s.entry.Some? && s.entry.value.entryPrice.Some? && s.lastPrice.Some?
    requires k.closed && k.close.Some? && k.high.Some? && k.low.Some?
    ensures CoolingDown(v, ExitSym(v, s, symbol, book).0)
    ensures !CoolingDown(v, OnKline(v, ExitSym(v, s, symbol, book).0, k))
  {
  }
}

=== FILE: modes.dfy ===
/** The per-symbol automatic mode switch (`autoAdjustModePerSymbol`) of
    bot-sinais2 (on support/resistance levels) and of bot-sinais3 and
    bot-sinais4 (on trend lines): a break of a level turns the symbol to
    ROMPIMENTO, a price back inside the channel with a middling RSI turns it
    back to REVERSAO, and anything else keeps the current mode. */
module ModeSwitch {
  import opened Num
  import opened Trade
  import Indicators
  import SupportResistance
  import TrendLines

  /** Fewer closes than `RSI_PERIOD + 10` leave the mode alone. */
  const ADJUST_MIN_CLOSES: nat := Indicators.RSI_PERIOD + 10
  /** The RSI is computed on the last 30 closes and averaged over its last 10 values. */
  const ADJUST_RSI_CLOSES: nat := 30
  const ADJUST_RSI_VALUES: nat := 10
  const BAND_LO: real := 35.0
  const BAND_HI: real := 65.0

  /** `rsi(closes.slice(-30))` averaged over its last ten values (the sum
      divided by 10). bot-sinais2's `rsi` is the unclamped one, the later
      bots' the clamped one. */
  function AvgRsi(closes: seq<real>, clamped: bool): (r: real)
    requires |closes| >= ADJUST_MIN_CLOSES
    ensures 0.0 <= r <= 100.0
  {
    var recent := Last(closes, MinInt(ADJUST_RSI_CLOSES, |closes|));
    var rs := if clamped then Indicators.Rsi(recent, Indicators.RSI_PERIOD).value
              else Indicators.RsiUnclamped(recent, Indicators.RSI_PERIOD).value;
    var tail := Last(rs, ADJUST_RSI_VALUES);
    MeanBounds(tail, 0.0, 100.0);
    Mean(tail)
  }

  predicate InBand(avg: real) {
    BAND_LO < avg < BAND_HI
  }

  // --------------------------------------------------------------- bot-sinais2

  /** `sr?.top && price > sr.top && prev <= sr.top`: the live price has just
      crossed above a (non-zero) resistance. A missing price compares false. */
  predicate BreaksUp(sr: SupportResistance.SrOutcome, price: Option<real>, prev: real) {
    sr.Levels? && Truthy(sr.top) && price.Some? && price.value > sr.top.value && prev <= sr.top.value
  }

  /** The mirror below a (non-zero) support. */
  predicate BreaksDown(sr: SupportResistance.SrOutcome, price: Option<real>, prev: real) {
    sr.Levels? && Truthy(sr.bottom) && price.Some? && price.value < sr.bottom.value && prev >= sr.bottom.value
  }

  /** Both levels present and the live price strictly between them. */
  predicate InsideLevels(sr: SupportResistance.SrOutcome, price: Option<real>) {
    sr.Levels? && Truthy(sr.top) && Truthy(sr.bottom) && price.Some?
    && price.value < sr.top.value && price.value > sr.bottom.value
  }

  /** `autoAdjustModePerSymbol` of bot-sinais2. */
  function AutoAdjustV2(mode: Mode, closes: seq<real>, sr: SupportResistance.SrOutcome, price: Option<real>): (r: Mode)
    ensures |closes| < ADJUST_MIN_CLOSES || price.None? || !sr.Levels? ==> r == mode
    ensures |closes| >= ADJUST_MIN_CLOSES ==>
      var prev := closes[|closes| - 2];
      (BreaksUp(sr, price, prev) || BreaksDown(sr, price, prev) ==> r == Rompimento)
      && (r == Rompimento && mode == Reversao ==> BreaksUp(sr, price, prev) || BreaksDown(sr, price, prev))
      && (r == Reversao && mode == Rompimento ==> InsideLevels(sr, price) && InBand(AvgRsi(closes, false)))
      && (InsideLevels(sr, price) && InBand(AvgRsi(closes, false)) ==> r == Reversao)
  {
    if |closes| < ADJUST_MIN_CLOSES then mode
    else
      var prev := closes[|closes| - 2];
      if BreaksUp(sr, price, prev) || BreaksDown(sr, price, prev) then Rompimento
      else if InsideLevels(sr, price) && InBand(AvgRsi(closes, false)) then Reversao
      else mode
  }

  /** A break needs the price outside the channel, so the two switches never
      compete and their order in the source does not matter. */
  lemma BreakAndChannelExclusiveV2(sr: SupportResistance.SrOutcome, price: Option<real>, prev: real)
    ensures !(BreaksUp(sr, price, prev) && InsideLevels(sr, price))
    ensures !(BreaksDown(sr, price, prev) && InsideLevels(sr, price))
  {
  }

  /** Re-running the switch on the same market changes nothing more. */
  lemma AutoAdjustV2Idempotent(mode: Mode, closes: seq<real>, sr: SupportResistance.SrOutcome, price: Option<real>)
    ensures AutoAdjustV2(AutoAdjustV2(mode, closes, sr, price), closes, sr, price) == AutoAdjustV2(mode, closes, sr, price)
  {
  }

  /** Whenever the switch fires, where it lands does not depend on the mode
      it started from. */
  lemma AutoAdjustV2IgnoresStart(m1: Mode, m2: Mode, closes: seq<real>, sr: SupportResistance.SrOutcome, price: Option<real>)
    requires AutoAdjustV2(m1, closes, sr, price) != m1
    ensures AutoAdjustV2(m2, closes, sr, price) == AutoAdjustV2(m1, closes, sr, price)
  {
  }

  // --------------------------------------------------- bot-sinais3, bot-sinais4

  /** `closes.slice(-2).every(c => c > tr.ltb)`: two closes above the LTB. */
  predicate TwoAbove(closes: seq<real>, lines: TrendLines.Lines)
    requires |closes| >= 2
  {
    closes[|closes| - 2] > lines.ltb && closes[|closes| - 1] > lines.ltb
  }

  /** Two closes below the LTA. */
  predicate TwoBelow(closes: seq<real>, lines: TrendLines.Lines)
    requires |closes| >= 2
  {
    closes[|closes| - 2] < lines.lta && closes[|closes| - 1] < lines.lta
  }

  /** The live price strictly between the LTA and the LTB. */
  predicate InsideLines(lines: TrendLines.Lines, price: Option<real>) {
    price.Some? && price.value < lines.ltb && price.value > lines.lta
  }

  /** `autoAdjustModePerSymbol` of bot-sinais3 and bot-sinais4: a break is
      confirmed by the last two closes (the live price plays no part), the
      return to REVERSAO by the live price inside the lines. */
  function AutoAdjustV34(mode: Mode, closes: seq<real>, trends: Option<TrendLines.Lines>, price: Option<real>): (r: Mode)
    ensures |closes| < ADJUST_MIN_CLOSES || trends.None? ==> r == mode
    ensures |closes| >= ADJUST_MIN_CLOSES && trends.Some? ==>
      var tr := trends.value;
      (TwoAbove(closes, tr) || TwoBelow(closes, tr) ==> r == Rompimento)
      && (r == Rompimento && mode == Reversao ==> TwoAbove(closes, tr) || TwoBelow(closes, tr))
      && (r == Reversao && mode == Rompimento ==> InsideLines(tr, price) && InBand(AvgRsi(closes, true)))
      && (InsideLines(tr, price) && InBand(AvgRsi(closes, true)) && !TwoAbove(closes, tr) && !TwoBelow(closes, tr)
          ==> r == Reversao)
  {
    if |closes| < ADJUST_MIN_CLOSES || trends.None? then mode
    else
      var tr := trends.value;
      if TwoAbove(closes, tr) || TwoBelow(closes, tr) then Rompimento
      else if InsideLines(tr, price) && InBand(AvgRsi(closes, true)) then Reversao
      else mode
  }

  /** Without a live price only a two-close break can change the mode. */
  lemma NoPriceOnlyBreaksV34(mode: Mode, closes: seq<real>, trends: Option<TrendLines.Lines>)
    ensures AutoAdjustV34(mode, closes, trends, None) != mode ==>
      mode == Reversao && AutoAdjustV34(mode, closes, trends, None) == Rompimento
  {
  }

  /** Re-running the switch on the same market changes nothing more. */
  lemma AutoAdjustV34Idempotent(mode: Mode, closes: seq<real>, trends: Option<TrendLines.Lines>, price: Option<real>)
    ensures AutoAdjustV34(AutoAdjustV34(mode, closes, trends, price), closes, trends, price)
         == AutoAdjustV34(mode, closes, trends, price)
  {
  }

  /** Whenever the switch fires, where it lands does not depend on the mode
      it started from. */
  lemma AutoAdjustV34IgnoresStart(m1: Mode, m2: Mode, closes: seq<real>, trends: Option<TrendLines.Lines>, price: Option<real>)
    requires AutoAdjustV34(m1, closes, trends, price) != m1
    ensures AutoAdjustV34(m2, closes, trends, price) == AutoAdjustV34(m1, closes, trends, price)
  {
  }
}

=== FILE: num.dfy ===
/** Numeric vocabulary shared by every script: optional values, clamping,
    rounding, sums, means and extrema of price series.

    All arithmetic is over `real`. A JavaScript value that is absent or not
    finite (null, undefined, NaN) is `None`. */
module Num {

  /** A value that may be absent or non-finite. */
  datatype Option<+T> = None | Some(value: T) {
    function GetOr(default: T): T {
      match this
      case Some(v) => v
      case None => default
    }
  }

  /** The quotient of a non-negative numerator by an arbitrary denominator,
      as a JavaScript division produces it: a zero denominator gives
      +Infinity (numerator > 0) or NaN (numerator = 0). */
  datatype Ext = Fin(v: real) | PosInf | NaN {
    /** `this > c` with the IEEE comparison rules (NaN compares false). */
    predicate Gt(c: real) {
      match this
      case Fin(v) => v > c
      case PosInf => true
      case NaN => false
    }
    /** `this < c` with the IEEE comparison rules. */
    predicate Lt(c: real) {
      match this
      case Fin(v) => v < c
      case PosInf => false
      case NaN => false
    }
  }

  function DivNonNeg(n: real, d: real): (r: Ext)
    requires n >= 0.0
    ensures d != 0.0 ==> r == Fin(n / d)
    ensures d == 0.0 ==> (r.PosInf? <==> n > 0.0) && (r.NaN? <==> n == 0.0)
  {
    if d != 0.0 then Fin(n / d) else if n > 0.0 then PosInf else NaN
  }

  function Abs(x: real): (r: real)
    ensures r >= 0.0
    ensures r == x || r == -x
  {
    if x < 0.0 then -x else x
  }

  function Max(a: real, b: real): (r: real)
    ensures r >= a && r >= b && (r == a || r == b)
  {
    if a >= b then a else b
  }

  function Min(a: real, b: real): (r: real)
    ensures r <= a && r <= b && (r == a || r == b)
  {
    if a <= b then a else b
  }

  function MinInt(a: int, b: int): (r: int)
    ensures r <= a && r <= b && (r == a || r == b)
  {
    if a <= b then a else b
  }

  function MaxInt(a: int, b: int): (r: int)
    ensures r >= a && r >= b && (r == a || r == b)
  {
    if a >= b then a else b
  }

  /** `Math.max(lo, Math.min(hi, x))`. */
  function Clamp(x: real, lo: real, hi: real): (r: real)
    ensures lo <= hi ==> lo <= r <= hi
    ensures lo <= x <= hi ==> r == x
    ensures x < lo && lo <= hi ==> r == lo
    ensures x > hi && lo <= hi ==> r == hi
  {
    Max(lo, Min(hi, x))
  }

  /** The integer version, used on the integer thresholds of the adaptive model. */
  function ClampInt(x: int, lo: int, hi: int): (r: int)
    ensures lo <= hi ==> lo <= r <= hi
    ensures lo <= x <= hi ==> r == x
  {
    MaxInt(lo, MinInt(hi, x))
  }

  /** Multiplying by a non-negative factor keeps an order. */
  lemma MulMono(a: real, b: real, s: real)
    requires a <= b && s >= 0.0
    ensures a * s <= b * s
  {
    assert (b - a) * s >= 0.0;
  }

  /** Multiplying by a positive factor keeps a strict order. */
  lemma MulStrictMono(a: real, b: real, s: real)
    requires a < b && s > 0.0
    ensures a * s < b * s
  {
    assert (b - a) * s > 0.0;
  }

  lemma MulNonNeg(a: real, b: real)
    requires a >= 0.0 && b >= 0.0
    ensures a * b >= 0.0
  {
  }

  /** Dividing and multiplying back by a non-zero number gives the start. */
  lemma DivTimes(a: real, d: real)
    requires d != 0.0
    ensures (a / d) * d == a
  {
  }

  /** Against a positive divisor, a quotient is below `t` exactly when the
      dividend is below `t` times the divisor. */
  lemma DivLt(n: real, d: real, t: real)
    requires d > 0.0
    ensures n / d < t <==> n < t * d
  {
    var q := n / d;
    DivTimes(n, d);
    if q < t {
      MulStrictMono(q, t, d);
    } else {
      MulMono(t, q, d);
    }
  }

  /** A non-negative number over a negative one is at most 0. */
  lemma DivByNegative(n: real, d: real)
    requires n >= 0.0 && d < 0.0
    ensures n / d <= 0.0
  {
    var q := n / d;
    DivTimes(n, d);
    if q > 0.0 {
      MulStrictMono(0.0, q, -d);
    }
  }

  /** A share of a positive whole lies in [0, 1]. */
  lemma DivUnit(a: real, b: real)
    requires 0.0 <= a <= b && b > 0.0
    ensures 0.0 <= a / b <= 1.0
  {
    var q := a / b;
    assert q * b == a;
    if q < 0.0 {
      MulStrictMono(q, 0.0, b);
    }
    if q > 1.0 {
      MulStrictMono(1.0, q, b);
    }
  }

  /** Dividing by a positive number keeps the sign, and keeps a value
      within `[-d, d]` within [-1, 1]. */
  lemma DivSigned(n: real, d: real)
    requires d > 0.0
    ensures n / d > 0.0 <==> n > 0.0
    ensures -d <= n <= d ==> -1.0 <= n / d <= 1.0
  {
    var q := n / d;
    assert q * d == n;
    if q > 0.0 && n <= 0.0 {
      MulStrictMono(0.0, q, d);
    }
    if q <= 0.0 && n > 0.0 {
      MulMono(q, 0.0, d);
    }
    if -d <= n <= d {
      if q > 1.0 {
        MulStrictMono(1.0, q, d);
      }
      if q < -1.0 {
        MulStrictMono(q, -1.0, d);
      }
    }
  }

  /** `Math.round`: the nearest integer, halves rounded towards +infinity. */
  function Round(x: real): (r: int)
    ensures x - 0.5 < r as real <= x + 0.5
  {
    (x + 0.5).Floor
  }

  lemma RoundMonotonic(x: real, y: real)
    requires x <= y
    ensures Round(x) <= Round(y)
  {
  }

  lemma RoundOfInt(n: int)
    ensures Round(n as real) == n
  {
  }

  /** Rounding a value inside an integer range stays inside it. */
  lemma RoundWithin(x: real, lo: int, hi: int)
    requires lo as real <= x <= hi as real
    ensures lo <= Round(x) <= hi
  {
    RoundMonotonic(lo as real, x);
    RoundMonotonic(x, hi as real);
    RoundOfInt(lo);
    RoundOfInt(hi);
  }

  /** Sum of a series, accumulated from the front as `reduce((a, b) => a + b, 0)` does. */
  function Sum(s: seq<real>): real
    decreases |s|
  {
    if |s| == 0 then 0.0 else Sum(s[..|s| - 1]) + s[|s| - 1]
  }

  lemma {:induction false} SumAppend(s: seq<real>, x: real)
    ensures Sum(s + [x]) == Sum(s) + x
  {
    assert (s + [x])[..|s|] == s;
  }

  lemma {:induction false} SumConcat(a: seq<real>, b: seq<real>)
    ensures Sum(a + b) == Sum(a) + Sum(b)
    decreases |b|
  {
    if |b| == 0 {
      assert a + b == a;
    } else {
      var ab := a + b;
      var b' := b[..|b| - 1];
      assert ab[..|ab| - 1] == a + b';
      assert ab[|ab| - 1] == b[|b| - 1];
      SumConcat(a, b');
    }
  }

  lemma SumDropFirst(s: seq<real>)
    requires |s| >= 1
    ensures Sum(s) == s[0] + Sum(s[1..])
  {
    assert s == [s[0]] + s[1..];
    SumConcat([s[0]], s[1..]);
    assert [s[0]] == [] + [s[0]];
    SumAppend([], s[0]);
  }

  /** Every element between `lo` and `hi` bounds the sum by `lo*n` and `hi*n`. */
  lemma {:induction false} SumBounds(s: seq<real>, lo: real, hi: real)
    requires forall i :: 0 <= i < |s| ==> lo <= s[i] <= hi
    ensures lo * |s| as real <= Sum(s) <= hi * |s| as real
    decreases |s|
  {
    if |s| > 0 {
      SumBounds(s[..|s| - 1], lo, hi);
    }
  }

  lemma {:induction false} SumConstant(s: seq<real>, c: real)
    requires forall i :: 0 <= i < |s| ==> s[i] == c
    ensures Sum(s) == c * |s| as real
    decreases |s|
  {
    if |s| > 0 {
      SumConstant(s[..|s| - 1], c);
    }
  }

  /** The mean of a non-empty series. */
  function Mean(s: seq<real>): real
    requires |s| >= 1
  {
    Sum(s) / |s| as real
  }

  /** Times the number of terms, a mean gives back the sum. */
  lemma MeanTimesLength(s: seq<real>)
    requires |s| >= 1
    ensures Mean(s) * |s| as real == Sum(s)
  {
    DivTimes(Sum(s), |s| as real);
  }

  /** A mean lies between any common lower and upper bound of its terms. */
  lemma MeanBounds(s: seq<real>, lo: real, hi: real)
    requires |s| >= 1
    requires forall i :: 0 <= i < |s| ==> lo <= s[i] <= hi
    ensures lo <= Mean(s) <= hi
  {
    SumBounds(s, lo, hi);
    var n := |s| as real;
    assert lo * n <= Sum(s) <= hi * n;
    assert Sum(s) / n >= lo by {
      assert Sum(s) >= lo * n;
    }
    assert Sum(s) / n <= hi by {
      assert Sum(s) <= hi * n;
    }
  }

  lemma MeanConstant(s: seq<real>, c: real)
    requires |s| >= 1
    requires forall i :: 0 <= i < |s| ==> s[i] == c
    ensures Mean(s) == c
  {
    SumConstant(s, c);
  }

  /** The last `n` elements, as `s.slice(-n)` gives them when `n <= |s|`. */
  function Last(s: seq<real>, n: nat): (r: seq<real>)
    requires n <= |s|
    ensures |r| == n
    ensures forall i :: 0 <= i < n ==> r[i] == s[|s| - n + i]
  {
    s[|s| - n..]
  }

  /** Values placed in front never reach the last `n`. */
  lemma LastOfConcat(older: seq<real>, s: seq<real>, n: nat)
    requires n <= |s|
    ensures Last(older + s, n) == Last(s, n)
  {
    assert (older + s)[|older + s| - n..] == s[|s| - n..];
  }

  /** `Math.min(...s)` of a non-empty series. */
  function MinOf(s: seq<real>): (r: real)
    requires |s| >= 1
    ensures forall i :: 0 <= i < |s| ==> r <= s[i]
    ensures exists i :: 0 <= i < |s| && r == s[i]
    decreases |s|
  {
    if |s| == 1 then s[0]
    else
      var m := MinOf(s[..|s| - 1]);
      assert forall i :: 0 <= i < |s| - 1 ==> s[..|s| - 1][i] == s[i];
      if s[|s| - 1] < m then s[|s| - 1] else m
  }

  /** `Math.max(...s)` of a non-empty series. */
  function MaxOf(s: seq<real>): (r: real)
    requires |s| >= 1
    ensures forall i :: 0 <= i < |s| ==> s[i] <= r
    ensures exists i :: 0 <= i < |s| && r == s[i]
    decreases |s|
  {
    if |s| == 1 then s[0]
    else
      var m := MaxOf(s[..|s| - 1]);
      assert forall i :: 0 <= i < |s| - 1 ==> s[..|s| - 1][i] == s[i];
      if s[|s| - 1] > m then s[|s| - 1] else m
  }

  /** A series whose minimum equals its maximum is constant. */
  lemma FlatWhenMinIsMax(s: seq<real>)
    requires |s| >= 1
    requires MinOf(s) == MaxOf(s)
    ensures forall i :: 0 <= i < |s| ==> s[i] == MinOf(s)
  {
  }

  /** A JavaScript value used as a condition: null, NaN and 0 are falsy. */
  predicate Truthy(o: Option<real>) {
    o.Some? && o.value != 0.0
  }
}

=== FILE: regime.dfy ===
/** The market-regime classifier and the signal score of bot-sinais4
    (`detectMarketRegime`, `scoreSignal`), with the EMA trend predicates the
    later bots use as a macro filter. */
module Regime {
  import opened Num
  import Indicators

  datatype Regime = Unknown | Flat | Trend | Side | Volatile

  const REGIME_MIN_BARS: nat := 100
  const FLAT_ATR: real := 0.0002
  const TREND_EMA_DIFF: real := 0.001
  const TREND_RSI_RANGE: real := 25.0
  const SIDE_EMA_DIFF: real := 0.0005
  const SIDE_RSI_RANGE: real := 20.0

  /** `ema50 && ema200 && ema50 > ema200`: both averages present and
      non-zero (JavaScript truthiness) and the fast one above. */
  predicate TrendUp(ema50: Option<real>, ema200: Option<real>): (r: bool)
    ensures r ==> ema50.Some? && ema200.Some? && ema50.value > ema200.value
    ensures ema50.Some? && ema200.Some? && ema50.value > 0.0 && ema200.value > 0.0 ==>
      (r <==> ema50.value > ema200.value)
  {
    Truthy(ema50) && Truthy(ema200) && ema50.value > ema200.value
  }

  /** The mirror: both present and non-zero and the fast one below. */
  predicate TrendDown(ema50: Option<real>, ema200: Option<real>): (r: bool)
    ensures r ==> ema50.Some? && ema200.Some? && ema50.value < ema200.value
    ensures ema50.Some? && ema200.Some? && ema50.value > 0.0 && ema200.value > 0.0 ==>
      (r <==> ema50.value < ema200.value)
  {
    Truthy(ema50) && Truthy(ema200) && ema50.value < ema200.value
  }

  /** The two trend predicates never hold together. */
  lemma TrendsExclusive(ema50: Option<real>, ema200: Option<real>)
    ensures !(TrendUp(ema50, ema200) && TrendDown(ema50, ema200))
    ensures ema50.None? || ema200.None? ==> !TrendUp(ema50, ema200) && !TrendDown(ema50, ema200)
  {
  }

  /** `|ema50 - ema200| / ema200`, where a missing EMA200 (fewer than 200
      closes) is the JavaScript `null`, which arithmetic reads as 0. */
  function EmaDiff(closes: seq<real>): (r: Ext)
    requires |closes| >= 50
    ensures |closes| < 200 ==> !r.Fin?
  {
    var e50 := Indicators.Ema(closes, 50).value;
    var e200 := Indicators.Ema(closes, 200).GetOr(0.0);
    DivNonNeg(Abs(e50 - e200), e200)
  }

  /** The spread of percentages is a percentage. */
  lemma SpreadBounds(s: seq<real>)
    requires |s| >= 1
    requires forall i :: 0 <= i < |s| ==> 0.0 <= s[i] <= 100.0
    ensures 0.0 <= MaxOf(s) - MinOf(s) <= 100.0
  {
  }

  /** Spread of the last ten RSI values. */
  function RsiRange(closes: seq<real>): (r: real)
    requires |closes| >= REGIME_MIN_BARS
    ensures 0.0 <= r <= 100.0
  {
    var recent := Last(Indicators.Rsi(closes, Indicators.RSI_PERIOD).value, 10);
    SpreadBounds(recent);
    MaxOf(recent) - MinOf(recent)
  }

  /** The priority order of `detectMarketRegime` on its three measures:
      FLAT on a small ATR, TREND on a wide EMA gap and RSI spread, SIDE on a
      narrow gap and spread, VOLATILE otherwise. */
  function Classify(atrVal: real, emaDiff: Ext, rsiRange: real): (r: Regime)
    ensures r != Unknown
    ensures r == Flat <==> atrVal < FLAT_ATR
    ensures r == Trend ==> emaDiff.Gt(TREND_EMA_DIFF) && rsiRange > TREND_RSI_RANGE
    ensures r == Side ==> emaDiff.Fin? && rsiRange < SIDE_RSI_RANGE
    ensures r == Trend <==> atrVal >= FLAT_ATR && emaDiff.Gt(TREND_EMA_DIFF) && rsiRange > TREND_RSI_RANGE
    ensures r == Side <==>
      atrVal >= FLAT_ATR && !(emaDiff.Gt(TREND_EMA_DIFF) && rsiRange > TREND_RSI_RANGE)
      && emaDiff.Lt(SIDE_EMA_DIFF) && rsiRange < SIDE_RSI_RANGE
    ensures r == Volatile <==>
      atrVal >= FLAT_ATR && !(emaDiff.Gt(TREND_EMA_DIFF) && rsiRange > TREND_RSI_RANGE)
      && !(emaDiff.Lt(SIDE_EMA_DIFF) && rsiRange < SIDE_RSI_RANGE)
  {
    if atrVal < FLAT_ATR then Flat
    else if emaDiff.Gt(TREND_EMA_DIFF) && rsiRange > TREND_RSI_RANGE then Trend
    else if emaDiff.Lt(SIDE_EMA_DIFF) && rsiRange < SIDE_RSI_RANGE then Side
    else Volatile
  }

  /** `detectMarketRegime`: UNKNOWN below 100 closes; then FLAT, TREND, SIDE
      and VOLATILE in that priority. */
  function DetectRegime(closes: seq<real>): (r: Regime)
    ensures r == Unknown <==> |closes| < REGIME_MIN_BARS
    ensures |closes| >= REGIME_MIN_BARS ==>
      (r == Flat <==> Indicators.Atr(closes, Indicators.ATR_PERIOD).value < FLAT_ATR)
    ensures r == Trend ==> RsiRange(closes) > TREND_RSI_RANGE
    ensures r == Side ==> |closes| >= 200 && RsiRange(closes) < SIDE_RSI_RANGE
    ensures |closes| >= REGIME_MIN_BARS ==>
      var atrVal := Indicators.Atr(closes, Indicators.ATR_PERIOD).value;
      var trend := EmaDiff(closes).Gt(TREND_EMA_DIFF) && RsiRange(closes) > TREND_RSI_RANGE;
      var side := EmaDiff(closes).Lt(SIDE_EMA_DIFF) && RsiRange(closes) < SIDE_RSI_RANGE;
      (r == Trend <==> atrVal >= FLAT_ATR && trend)
      && (r == Side <==> atrVal >= FLAT_ATR && !trend && side)
      && (r == Volatile <==> atrVal >= FLAT_ATR && !trend && !side)
  {
    if |closes| < REGIME_MIN_BARS then Unknown
    else Classify(Indicators.Atr(closes, Indicators.ATR_PERIOD).value, EmaDiff(closes), RsiRange(closes))
  }

  /** A price that has not moved over the last 15 closes is FLAT, whatever
      the EMAs and RSI say. */
  lemma StillMarketIsFlat(closes: seq<real>)
    requires |closes| >= REGIME_MIN_BARS
    requires forall i :: |closes| - 15 <= i < |closes| ==> closes[i] == closes[|closes| - 1]
    ensures DetectRegime(closes) == Flat
  {
    Indicators.AtrOfFlat(closes, Indicators.ATR_PERIOD);
  }

  /** Between 100 and 199 closes a market with enough movement is TREND when
      the RSI spread exceeds 25 and VOLATILE otherwise: never SIDE. */
  lemma ShortHistoryNeverSide(closes: seq<real>)
    requires REGIME_MIN_BARS <= |closes| < 200
    requires Indicators.Atr(closes, Indicators.ATR_PERIOD).value >= FLAT_ATR
    ensures DetectRegime(closes) == Trend || DetectRegime(closes) == Volatile
    ensures Abs(Indicators.Ema(closes, 50).value) > 0.0 ==>
      (DetectRegime(closes) == Trend <==> RsiRange(closes) > TREND_RSI_RANGE)
  {
  }

  /** What `scoreSignal` reads from its context. */
  datatype ScoreCtx = ScoreCtx(
    sd: Option<Indicators.StochResult>, rsiNow: Option<real>,
    ema50: Option<real>, ema200: Option<real>,
    nearLTB: bool, nearLTA: bool, atr: Option<real>)

  /** The weighted blend before the final clamp; the weights 0.30, 0.20,
      0.10, 0.20 and 0.20 sum to 1. */
  function ScoreRaw(ctx: ScoreCtx): (r: real)
    requires ctx.sd.Some? && ctx.rsiNow.Some?
    ensures 0.05 <= r <= 1.0
  {
    var kd := 1.0 - Min(1.0, Abs(ctx.sd.value.k - ctx.sd.value.d) / 100.0);
    var rsiExtreme := Min(1.0, Abs(ctx.rsiNow.value - 50.0) / 50.0);
    assert Abs(ctx.sd.value.k - ctx.sd.value.d) / 100.0 >= 0.0;
    assert Abs(ctx.rsiNow.value - 50.0) / 50.0 >= 0.0;
    var trendScore := if TrendUp(ctx.ema50, ctx.ema200) || TrendDown(ctx.ema50, ctx.ema200) then 1.0 else 0.5;
    var nearScore := if ctx.nearLTB || ctx.nearLTA then 1.0 else 0.0;
    var atrScore := if ctx.atr.Some? then Clamp((ctx.atr.value - 0.0001) / 0.0005, 0.0, 1.0) else 0.5;
    kd * 0.30 + rsiExtreme * 0.20 + trendScore * 0.10 + nearScore * 0.20 + atrScore * 0.20
  }

  /** `scoreSignal`: 0 without a stochastic result or an RSI, otherwise the
      blend clamped into [0, 1]. */
  function ScoreSignal(ctx: ScoreCtx): (r: real)
    ensures 0.0 <= r <= 1.0
    ensures ctx.sd.None? || ctx.rsiNow.None? ==> r == 0.0
  {
    if ctx.sd.None? || ctx.rsiNow.None? then 0.0
    else Clamp(ScoreRaw(ctx), 0.0, 1.0)
  }

  /** Every component lies in [0, 1] and the weights sum to 1, so the blend
      is already inside [0, 1] (at least 0.05, from the trend term) and the
      final clamp never changes it. */
  lemma ScoreClampIsNoOp(ctx: ScoreCtx)
    requires ctx.sd.Some? && ctx.rsiNow.Some?
    ensures 0.05 <= ScoreRaw(ctx) <= 1.0
    ensures ScoreSignal(ctx) == ScoreRaw(ctx)
  {
    var kd := 1.0 - Min(1.0, Abs(ctx.sd.value.k - ctx.sd.value.d) / 100.0);
    var rsiExtreme := Min(1.0, Abs(ctx.rsiNow.value - 50.0) / 50.0);
    assert Abs(ctx.sd.value.k - ctx.sd.value.d) / 100.0 >= 0.0;
    assert Abs(ctx.rsiNow.value - 50.0) / 50.0 >= 0.0;
    assert 0.0 <= kd <= 1.0 && 0.0 <= rsiExtreme <= 1.0;
  }

  /** Being near a trend line adds exactly 0.2 to the score. */
  lemma NearnessAddsFixedBonus(ctx: ScoreCtx)
    requires ctx.sd.Some? && ctx.rsiNow.Some?
    ensures ScoreSignal(ctx.(nearLTB := true)) == ScoreSignal(ctx.(nearLTB := false, nearLTA := false)) + 0.2
  {
    ScoreClampIsNoOp(ctx.(nearLTB := true));
    ScoreClampIsNoOp(ctx.(nearLTB := false, nearLTA := false));
  }
}

=== FILE: shield_indicators.dfy ===
/** The indicators of crypto-shield-pro: the simple moving average of the
    last `period` closes and its running-sum series, and Wilder's RSI (a
    seed average of the first `period` changes, then exponential smoothing)
    and its per-candle series. */
module ShieldIndicators {
  import opened Num
  import Indicators

  const SHIELD_RSI_PERIOD: nat := 14
  const FAST: nat := 9
  const SLOW: nat := 21

  // --------------------------------------------------------------------- SMA

  // `sma` is the bots' `simpleSMA`, `Indicators.SimpleSma`.

  /** `smaSeries`: one running sum, to which each value is added and from
      which the value `period` places back is taken away; entry `i` is
      null before index `period - 1` and otherwise the running sum over
      `period`. Every entry is the `sma` of the prefix ending at it. */
  method SmaSeries(values: seq<real>, period: nat) returns (out: seq<Option<real>>)
    requires period >= 1
    ensures |out| == |values|
    ensures forall i :: 0 <= i < |values| ==> out[i] == Indicators.SimpleSma(values[..i + 1], period)
    ensures forall i :: 0 <= i < |values| ==> (out[i].None? <==> i < period - 1)
  {
    out := [];
    var runSum := 0.0;
    var i := 0;
    while i < |values|
      invariant 0 <= i <= |values|
      invariant |out| == i
      invariant forall j :: 0 <= j < i ==> out[j] == Indicators.SimpleSma(values[..j + 1], period)
      invariant runSum == Sum(values[MaxInt(0, i - period)..i])
    {
      var o;
      runSum, o := SmaStep(values, period, i, runSum);
      out := out + [o];
      i := i + 1;
    }
    PrefixSmaNulls(values, period, out);
  }

  /** One pass of the `smaSeries` loop: the running sum moved on by one
      value and the entry at `i`, which is the `sma` of the prefix ending
      there. */
  method SmaStep(values: seq<real>, period: nat, i: nat, runSum: real) returns (next: real, o: Option<real>)
    requires period >= 1 && i < |values|
    requires runSum == Sum(values[MaxInt(0, i - period)..i])
    ensures next == Sum(values[MaxInt(0, i + 1 - period)..i + 1])
    ensures o == Indicators.SimpleSma(values[..i + 1], period)
  {
    RunningSumStep(values, period, i, runSum);
    next := runSum + values[i];
    if i >= period {
      next := next - values[i - period];
    }
    o := if i >= period - 1 then Some(next / period as real) else None;
    SmaOfPrefix(values, period, i, next);
  }

  /** The average of a prefix is null exactly while the prefix is shorter
      than `period`. */
  lemma PrefixSmaNulls(values: seq<real>, period: nat, out: seq<Option<real>>)
    requires period >= 1 && |out| == |values|
    requires forall i :: 0 <= i < |values| ==> out[i] == Indicators.SimpleSma(values[..i + 1], period)
    ensures forall i :: 0 <= i < |values| ==> (out[i].None? <==> i < period - 1)
  {
    forall i | 0 <= i < |values|
      ensures out[i].None? <==> i < period - 1
    {
      assert |values[..i + 1]| == i + 1;
    }
  }

  /** One step of the running sum: add the new value, drop the one that
      leaves the window. */
  lemma RunningSumStep(values: seq<real>, period: nat, i: nat, runSum: real)
    requires period >= 1 && i < |values|
    requires runSum == Sum(values[MaxInt(0, i - period)..i])
    ensures Sum(values[MaxInt(0, i + 1 - period)..i + 1])
            == runSum + values[i] - (if i >= period then values[i - period] else 0.0)
  {
    var lo := MaxInt(0, i - period);
    assert values[lo..i + 1] == values[lo..i] + [values[i]];
    SumAppend(values[lo..i], values[i]);
    if i >= period {
      SumDropFirst(values[lo..i + 1]);
      assert values[lo..i + 1][1..] == values[i - period + 1..i + 1];
    }
  }

  /** The running sum over the window ending at `i`, divided by `period`,
      is the `sma` of the prefix ending at `i`. */
  lemma SmaOfPrefix(values: seq<real>, period: nat, i: nat, runSum: real)
    requires period >= 1 && i < |values|
    requires runSum == Sum(values[MaxInt(0, i + 1 - period)..i + 1])
    ensures (if i >= period - 1 then Some(runSum / period as real) else None) == Indicators.SimpleSma(values[..i + 1], period)
  {
    if i >= period - 1 {
      assert values[..i + 1][i + 1 - period..] == values[i + 1 - period..i + 1];
    }
  }

  // ------------------------------------------------------------- Wilder RSI

  /** A pair of running gain and loss figures. */
  datatype GainLoss = GainLoss(gain: real, loss: real)

  /** The first loop of `rsi`: the gains and losses of changes 1..k summed,
      a non-negative change counting as a gain. */
  function SeedSums(values: seq<real>, k: nat): (r: GainLoss)
    requires k < |values|
    ensures r.gain >= 0.0 && r.loss >= 0.0
    decreases k
  {
    if k == 0 then GainLoss(0.0, 0.0)
    else
      var prev := SeedSums(values, k - 1);
      var ch := values[k] - values[k - 1];
      if ch >= 0.0 then GainLoss(prev.gain + ch, prev.loss) else GainLoss(prev.gain, prev.loss - ch)
  }

  /** One Wilder smoothing step: `(avg * (period - 1) + x) / period`. */
  function Smooth(avg: real, x: real, period: nat): (r: real)
    requires period >= 1 && avg >= 0.0 && x >= 0.0
    ensures r >= 0.0
  {
    MulNonNeg(avg, (period - 1) as real);
    (avg * (period - 1) as real + x) / period as real
  }

  /** The smoothed averages once the changes up to index `n` are consumed:
      the seed averages at `n == period`, one smoothing step per later
      change. Both stay non-negative. */
  function WilderAvgs(values: seq<real>, period: nat, n: nat): (r: GainLoss)
    requires 1 <= period <= n < |values|
    ensures r.gain >= 0.0 && r.loss >= 0.0
    decreases n
  {
    if n == period then
      var s := SeedSums(values, period);
      GainLoss(s.gain / period as real, s.loss / period as real)
    else
      var a := WilderAvgs(values, period, n - 1);
      var ch := values[n] - values[n - 1];
      GainLoss(Smooth(a.gain, if ch > 0.0 then ch else 0.0, period),
               Smooth(a.loss, if ch < 0.0 then -ch else 0.0, period))
  }

  /** The final averages of a series with at least `period + 1` values. */
  function FinalAvgs(values: seq<real>, period: nat): GainLoss
    requires 1 <= period < |values|
  {
    WilderAvgs(values, period, |values| - 1)
  }

  /** `rsi` (Wilder): null with fewer than `period + 1` values; 100 exactly
      when the smoothed loss is zero, otherwise `100 - 100 / (1 + rs)`,
      which stays in [0, 100). */
  function WilderRsi(values: seq<real>, period: nat): (r: Option<real>)
    requires period >= 1
    ensures r.None? <==> |values| < period + 1
    ensures r.Some? ==> 0.0 <= r.value <= 100.0
    ensures r.Some? ==> (r.value == 100.0 <==> FinalAvgs(values, period).loss == 0.0)
  {
    if |values| < period + 1 then None
    else
      var a := FinalAvgs(values, period);
      if a.loss == 0.0 then Some(100.0)
      else
        var rs := a.gain / a.loss;
        Indicators.SaturationBounds(rs);
        Some(100.0 - 100.0 / (1.0 + rs))
  }

  /** The two loops of `rsi` as written, computing the same value as the
      recursive definition. */
  method WilderRsiLoop(values: seq<real>, period: nat) returns (r: Option<real>)
    requires period >= 1
    ensures r == WilderRsi(values, period)
  {
    if |values| < period + 1 {
      return None;
    }
    var gains, losses := 0.0, 0.0;
    var i := 1;
    while i <= period
      invariant 1 <= i <= period + 1
      invariant GainLoss(gains, losses) == SeedSums(values, i - 1)
    {
      var ch := values[i] - values[i - 1];
      if ch >= 0.0 {
        gains := gains + ch;
      } else {
        losses := losses - ch;
      }
      i := i + 1;
    }
    var avgGain := gains / period as real;
    var avgLoss := losses / period as real;
    i := period + 1;
    while i < |values|
      invariant period + 1 <= i <= |values|
      invariant GainLoss(avgGain, avgLoss) == WilderAvgs(values, period, i - 1)
    {
      var ch := values[i] - values[i - 1];
      var gain := if ch > 0.0 then ch else 0.0;
      var loss := if ch < 0.0 then -ch else 0.0;
      avgGain := Smooth(avgGain, gain, period);
      avgLoss := Smooth(avgLoss, loss, period);
      i := i + 1;
    }
    if avgLoss == 0.0 {
      return Some(100.0);
    }
    var rs := avgGain / avgLoss;
    r := Some(100.0 - 100.0 / (1.0 + rs));
  }

  /** A series that never falls has no seed loss. */
  lemma {:induction false} SeedLossOfRising(values: seq<real>, k: nat)
    requires k < |values|
    requires forall i :: 1 <= i <= k ==> values[i] >= values[i - 1]
    ensures SeedSums(values, k).loss == 0.0
    decreases k
  {
    if k > 0 {
      SeedLossOfRising(values, k - 1);
    }
  }

  /** A series that never falls keeps a zero smoothed loss. */
  lemma {:induction false} LossOfRising(values: seq<real>, period: nat, n: nat)
    requires 1 <= period <= n < |values|
    requires forall i :: 1 <= i < |values| ==> values[i] >= values[i - 1]
    ensures WilderAvgs(values, period, n).loss == 0.0
    decreases n
  {
    if n == period {
      SeedLossOfRising(values, period);
    } else {
      LossOfRising(values, period, n - 1);
    }
  }

  /** A series that never falls has a Wilder RSI of 100. */
  lemma RisingRsiIsHundred(values: seq<real>, period: nat)
    requires period >= 1 && |values| >= period + 1
    requires forall i :: 1 <= i < |values| ==> values[i] >= values[i - 1]
    ensures WilderRsi(values, period) == Some(100.0)
  {
    LossOfRising(values, period, |values| - 1);
  }

  /** A series that never rises has no seed gain. */
  lemma {:induction false} SeedGainOfFalling(values: seq<real>, k: nat)
    requires k < |values|
    requires forall i :: 1 <= i <= k ==> values[i] <= values[i - 1]
    ensures SeedSums(values, k).gain == 0.0
    decreases k
  {
    if k > 0 {
      SeedGainOfFalling(values, k - 1);
    }
  }

  /** A series that never rises keeps a zero smoothed gain. */
  lemma {:induction false} GainOfFalling(values: seq<real>, period: nat, n: nat)
    requires 1 <= period <= n < |values|
    requires forall i :: 1 <= i < |values| ==> values[i] <= values[i - 1]
    ensures WilderAvgs(values, period, n).gain == 0.0
    decreases n
  {
    if n == period {
      SeedGainOfFalling(values, period);
    } else {
      GainOfFalling(values, period, n - 1);
    }
  }

  /** A series that never rises, but does fall, has a Wilder RSI of 0. */
  lemma FallingRsiIsZero(values: seq<real>, period: nat)
    requires period >= 1 && |values| >= period + 1
    requires forall i :: 1 <= i < |values| ==> values[i] <= values[i - 1]
    requires FinalAvgs(values, period).loss > 0.0
    ensures WilderRsi(values, period) == Some(0.0)
  {
    GainOfFalling(values, period, |values| - 1);
  }

  /** `rsiSeries`: entry `i` is the Wilder RSI of the closes up to `i`. */
  function RsiSeries(values: seq<real>, period: nat): (r: seq<Option<real>>)
    requires period >= 1
    ensures |r| == |values|
    ensures forall i :: 0 <= i < |values| ==> r[i] == WilderRsi(values[..i + 1], period)
  {
    seq(|values|, i requires 0 <= i < |values| => WilderRsi(values[..i + 1], period))
  }

  /** The series is null exactly on its first `period` entries and ends with
      the RSI of the whole input. */
  lemma RsiSeriesShape(values: seq<real>, period: nat)
    requires period >= 1
    ensures forall i :: 0 <= i < |values| ==> (RsiSeries(values, period)[i].None? <==> i < period)
    ensures |values| >= 1 ==> RsiSeries(values, period)[|values| - 1] == WilderRsi(values, period)
  {
    if |values| >= 1 {
      assert values[..|values|] == values;
    }
  }
}

=== FILE: shield_memory.dfy ===
/** The adaptive trend memory of crypto-shield-pro: each decisive signal
    leaves a context behind; the next analysis scores it against the latest
    close (WIN when the price moved the signal's way) and appends the
    outcome to a time-limited memory, whose per-direction hit rate then
    scales the announced probability. */
module ShieldMemory {
  import opened Num

  /** The analyser's verdict (`COMPRA`, `VENDA`, `NEUTRO`). */
  datatype Signal = Compra | Venda | Neutro

  /** The trend line a decisive signal leans on: a buy on the rising line
      (LTA), a sell on the falling one (LTB). */
  datatype Direction = Lta | Ltb
  datatype Outcome = Win | Loss
  datatype TrendEntry = TrendEntry(slope: real, direction: Direction, touches: int, result: Outcome, timestamp: int)

  /** Entries older than 72 hours are purged. */
  const MAX_AGE_MS: int := 3 * 24 * 60 * 60 * 1000
  /** Only the newest 200 entries are written back to storage. */
  const PERSISTED: nat := 200
  /** The touch count every context carries. */
  const TOUCHES: int := 3

  /** `makeDirectionFromSignal`; `NEUTRO` has no direction. */
  function MakeDirection(s: Signal): (r: Option<Direction>)
    ensures r.None? <==> s == Neutro
    ensures r == Some(Lta) <==> s == Compra
  {
    match s
    case Compra => Some(Lta)
    case Venda => Some(Ltb)
    case Neutro => None
  }

  // ------------------------------------------------------------ hit rates

  /** The number of entries recorded for direction `d`. */
  function Count(mem: seq<TrendEntry>, d: Direction): nat
    decreases |mem|
  {
    if |mem| == 0 then 0
    else Count(mem[..|mem| - 1], d) + (if mem[|mem| - 1].direction == d then 1 else 0)
  }

  /** The number of WIN entries recorded for direction `d`; never more than
      the entries for it. */
  function Wins(mem: seq<TrendEntry>, d: Direction): (r: nat)
    ensures r <= Count(mem, d)
    decreases |mem|
  {
    if |mem| == 0 then 0
    else
      var e := mem[|mem| - 1];
      Wins(mem[..|mem| - 1], d) + (if e.direction == d && e.result == Win then 1 else 0)
  }

  /** Appending one entry moves the counts of its own direction only. */
  lemma CountsAppend(mem: seq<TrendEntry>, e: TrendEntry, d: Direction)
    ensures Count(mem + [e], d) == Count(mem, d) + (if e.direction == d then 1 else 0)
    ensures Wins(mem + [e], d) == Wins(mem, d) + (if e.direction == d && e.result == Win then 1 else 0)
  {
    assert (mem + [e])[..|mem|] == mem;
  }

  datatype Accuracy = Accuracy(accuracy: real, wins: nat, total: nat)

  /** `computeDirectionAccuracy`: the share of WIN entries among those of
      direction `d`, 0.5 when there are none. */
  function DirectionAccuracy(mem: seq<TrendEntry>, d: Direction): (r: Accuracy)
    ensures r.total == Count(mem, d) && r.wins == Wins(mem, d)
    ensures r.wins <= r.total
    ensures r.total == 0 ==> r.accuracy == 0.5
    ensures r.total > 0 ==> r.accuracy == HitRate(r.wins, r.total)
    ensures 0.0 <= r.accuracy <= 1.0
  {
    var total := Count(mem, d);
    var wins := Wins(mem, d);
    if total == 0 then Accuracy(0.5, wins, total)
    else Accuracy(HitRate(wins, total), wins, total)
  }

  /** `wins / total` for a non-empty record: a share in [0, 1]. */
  function HitRate(wins: nat, total: nat): (r: real)
    requires 0 < total && wins <= total
    ensures 0.0 <= r <= 1.0
    ensures r * total as real == wins as real
    ensures wins == 0 ==> r == 0.0
    ensures wins == total ==> r == 1.0
  {
    DivUnit(wins as real, total as real);
    assert wins == total ==> wins as real / total as real == 1.0;
    wins as real / total as real
  }

  /** One more WIN never lowers a hit rate; one more LOSS never raises it. */
  lemma RatioStep(w: nat, t: nat)
    requires 0 < t && w <= t
    ensures (w + 1) as real / (t + 1) as real >= w as real / t as real
    ensures w as real / (t + 1) as real <= w as real / t as real
  {
    var x := w as real / t as real;
    var up := (w + 1) as real / (t + 1) as real;
    var down := w as real / (t + 1) as real;
    DivUnit(w as real, t as real);
    assert x * t as real == w as real;
    assert up * (t + 1) as real == (w + 1) as real;
    assert down * (t + 1) as real == w as real;
    assert x * (t + 1) as real == w as real + x;
    if up < x {
      MulStrictMono(up, x, (t + 1) as real);
    }
    if down > x {
      MulStrictMono(x, down, (t + 1) as real);
    }
  }

  /** Recording a WIN for a direction never lowers its accuracy. */
  lemma WinRaisesAccuracy(mem: seq<TrendEntry>, e: TrendEntry)
    requires e.result == Win
    ensures DirectionAccuracy(mem + [e], e.direction).accuracy >= DirectionAccuracy(mem, e.direction).accuracy
  {
    CountsAppend(mem, e, e.direction);
    if Count(mem, e.direction) > 0 {
      RatioStep(Wins(mem, e.direction), Count(mem, e.direction));
    }
  }

  /** Recording a LOSS for a direction never raises its accuracy. */
  lemma LossLowersAccuracy(mem: seq<TrendEntry>, e: TrendEntry)
    requires e.result == Loss
    ensures DirectionAccuracy(mem + [e], e.direction).accuracy <= DirectionAccuracy(mem, e.direction).accuracy
  {
    CountsAppend(mem, e, e.direction);
    if Count(mem, e.direction) > 0 {
      RatioStep(Wins(mem, e.direction), Count(mem, e.direction));
    }
  }

  /** An entry for one direction leaves the other direction's record alone. */
  lemma OtherDirectionUnchanged(mem: seq<TrendEntry>, e: TrendEntry, d: Direction)
    requires e.direction != d
    ensures DirectionAccuracy(mem + [e], d) == DirectionAccuracy(mem, d)
  {
    CountsAppend(mem, e, d);
  }

  // ------------------------------------------------------ probability scaling

  /** The scaling of `adjustProbWithATL`: the probability times
      `0.8 + accuracy * 0.4`, rounded and clamped into [40, 95]. */
  function AdjustProb(baseProb: int, accuracy: real): (r: int)
    ensures 40 <= r <= 95
  {
    ClampInt(Round(baseProb as real * (0.8 + accuracy * 0.4)), 40, 95)
  }

  /** `adjustProbWithATL`: the scaling with the accuracy recorded for `d`. */
  function AdjustProbWithAtl(baseProb: int, mem: seq<TrendEntry>, d: Direction): (r: int)
    ensures 40 <= r <= 95
    ensures r == AdjustProb(baseProb, DirectionAccuracy(mem, d).accuracy)
  {
    AdjustProb(baseProb, DirectionAccuracy(mem, d).accuracy)
  }

  /** With no history (accuracy 0.5) a probability already in [40, 95] is
      passed through unchanged. */
  lemma NoHistoryKeepsProb(baseProb: int, mem: seq<TrendEntry>, d: Direction)
    requires Count(mem, d) == 0 && 40 <= baseProb <= 95
    ensures AdjustProbWithAtl(baseProb, mem, d) == baseProb
  {
    assert baseProb as real * (0.8 + 0.5 * 0.4) == baseProb as real;
    RoundOfInt(baseProb);
  }

  /** A better record never lowers a non-negative probability. */
  lemma AdjustMonotone(baseProb: int, a1: real, a2: real)
    requires baseProb >= 0 && a1 <= a2
    ensures AdjustProb(baseProb, a1) <= AdjustProb(baseProb, a2)
  {
    var b := baseProb as real;
    var f1 := 0.8 + a1 * 0.4;
    var f2 := 0.8 + a2 * 0.4;
    MulMono(f1, f2, b);
    assert b * f1 <= b * f2;
    RoundMonotonic(b * f1, b * f2);
  }

  // ------------------------------------------------------------- the memory

  predicate Recent(e: TrendEntry, now: int) {
    now - e.timestamp < MAX_AGE_MS
  }

  /** `purgeOldTrendMemory`: keeps, in order, exactly the entries younger
      than 72 hours. */
  function Purge(mem: seq<TrendEntry>, now: int): (r: seq<TrendEntry>)
    ensures |r| <= |mem|
    ensures forall i :: 0 <= i < |r| ==> Recent(r[i], now)
    ensures forall e :: e in r ==> e in mem
    ensures forall e :: e in mem && Recent(e, now) ==> e in r
    decreases |mem|
  {
    if |mem| == 0 then []
    else
      var rest := Purge(mem[..|mem| - 1], now);
      var e := mem[|mem| - 1];
      assert forall x :: x in mem ==> x in mem[..|mem| - 1] || x == e;
      if Recent(e, now) then rest + [e] else rest
  }

  /** Purging twice at the same moment removes nothing more. */
  lemma {:induction false} PurgeIdempotent(mem: seq<TrendEntry>, now: int)
    ensures Purge(Purge(mem, now), now) == Purge(mem, now)
    decreases |mem|
  {
    if |mem| > 0 {
      var init := mem[..|mem| - 1];
      var e := mem[|mem| - 1];
      PurgeIdempotent(init, now);
      if Recent(e, now) {
        var p := Purge(init, now) + [e];
        assert p[..|p| - 1] == Purge(init, now);
      }
    }
  }

  /** `saveTrendMemory`: the newest 200 entries, oldest first. */
  function Persisted(mem: seq<TrendEntry>): (r: seq<TrendEntry>)
    ensures |r| == MinInt(|mem|, PERSISTED)
    ensures forall i :: 0 <= i < |r| ==> r[i] == mem[|mem| - |r| + i]
  {
    if |mem| <= PERSISTED then mem else mem[|mem| - PERSISTED..]
  }

  // ------------------------------------------------------------ the context

  /** What `lastAnalysisCtx` holds once a decisive signal has been seen. */
  datatype Context = Context(signal: Signal, direction: Direction, slope: real, touches: int, closePrice: Option<real>)

  /** The memory, the last context (none before the first decisive signal)
      and the last recorded outcome. */
  datatype AtlState = AtlState(mem: seq<TrendEntry>, ctx: Option<Context>, last: Option<Outcome>)

  /** The verdict on the last context: a buy wins when the close rose above
      its price, a sell when it fell below; anything else, a missing close
      included, is a loss. */
  function Judge(c: Context, currentClose: Option<real>): (o: Outcome)
    requires c.closePrice.Some?
    ensures o == Win <==>
      (currentClose.Some? &&
       ((c.signal == Compra && currentClose.value > c.closePrice.value)
        || (c.signal == Venda && currentClose.value < c.closePrice.value)))
  {
    if c.signal == Compra && currentClose.Some? && currentClose.value > c.closePrice.value then Win
    else if c.signal == Venda && currentClose.Some? && currentClose.value < c.closePrice.value then Win
    else Loss
  }

  /** `recordATLOutcomeFromLastCtx`: without a context or its price nothing
      happens; otherwise the verdict becomes the last outcome and is
      appended to the memory, which is then purged. The context itself is
      kept, so it is judged again at the next analysis unless a new
      decisive signal replaces it. */
  function RecordOutcome(st: AtlState, currentClose: Option<real>, now: int): (r: AtlState)
    ensures st.ctx.None? || st.ctx.value.closePrice.None? ==> r == st
    ensures st.ctx.Some? && st.ctx.value.closePrice.Some? ==>
      r.last == Some(Judge(st.ctx.value, currentClose))
      && |r.mem| >= 1
      && r.mem[|r.mem| - 1] == TrendEntry(st.ctx.value.slope, st.ctx.value.direction, st.ctx.value.touches,
                                          r.last.value, now)
      && |r.mem| <= |st.mem| + 1
      && (forall i :: 0 <= i < |r.mem| ==> Recent(r.mem[i], now))
    ensures r.ctx == st.ctx
  {
    if st.ctx.None? || st.ctx.value.closePrice.None? then st
    else
      var c := st.ctx.value;
      var result := Judge(c, currentClose);
      var entry := TrendEntry(c.slope, c.direction, c.touches, result, now);
      var mem := Purge(st.mem + [entry], now);
      PurgeKeepsRecentLast(st.mem, entry, now);
      AtlState(mem, st.ctx, Some(result))
  }

  /** A fresh entry survives the purge as the last element. */
  lemma PurgeKeepsRecentLast(mem: seq<TrendEntry>, e: TrendEntry, now: int)
    requires Recent(e, now)
    ensures Purge(mem + [e], now) == Purge(mem, now) + [e]
  {
    assert (mem + [e])[..|mem|] == mem;
  }

  /** `estimateSlopeNormalized`: the last change relative to the previous
      close (floored at 1e-8), 0 with fewer than two closes. */
  function SlopeNormalized(closes: seq<real>): (r: real)
    ensures |closes| < 2 ==> r == 0.0
    ensures |closes| >= 2 && closes[|closes| - 2] > 0.0 ==>
      (r > 0.0 <==> closes[|closes| - 1] > closes[|closes| - 2])
  {
    if |closes| < 2 then 0.0
    else
      var prev := closes[|closes| - 2];
      var now := closes[|closes| - 1];
      (now - prev) / Max(0.00000001, prev)
  }

  /** The context update at the end of an analysis: only a decisive signal
      replaces it, with its direction, the slope, three touches and the
      last close. */
  function UpdateContext(ctx: Option<Context>, signal: Signal, closes: seq<real>): (r: Option<Context>)
    ensures signal == Neutro ==> r == ctx
    ensures signal != Neutro ==>
      (r.Some? && r.value.signal == signal
       && Some(r.value.direction) == MakeDirection(signal) && r.value.touches == TOUCHES
       && (r.value.closePrice.Some? <==> |closes| >= 1))
  {
    if signal == Neutro then ctx
    else
      Some(Context(signal, MakeDirection(signal).value, SlopeNormalized(closes), TOUCHES,
                   if |closes| >= 1 then Some(closes[|closes| - 1]) else None))
  }

  /** A decisive signal followed by a close that moves its way is recorded
      as a WIN for its direction. */
  lemma SignalThenMoveIsWin(st: AtlState, signal: Signal, closes: seq<real>, next: real, now: int)
    requires signal != Neutro && |closes| >= 1
    requires signal == Compra ==> next > closes[|closes| - 1]
    requires signal == Venda ==> next < closes[|closes| - 1]
    ensures RecordOutcome(AtlState(st.mem, UpdateContext(st.ctx, signal, closes), st.last), Some(next), now).last == Some(Win)
  {
  }
}

=== FILE: shield_signal.dfy ===
/** The decision side of crypto-shield-pro: `determineSignal` (an RSI
    extreme, a crossing of the 9- and 21-period averages, or both, with a
    strength label and a heuristic probability), the three-candle
    `miniBacktest` of the combined rule, the probability blend of
    `runAnalysis`, and the two branches of `analyzeNow` (the "Smart
    Adaptive" weighted score and the order-book gated rule). */
module ShieldSignal {
  import opened Num
  import opened ShieldIndicators
  import opened ShieldMemory
  import opened Indicators

  datatype Strength = Fraco | Medio | Forte

  /** The strategy selector of `determineSignal`; every other choice
      (the "Smart Adaptive Signal" one included) takes its combined branch. */
  datatype Strategy = RsiStrategy | MovingAverageCross | Combined

  datatype Reading = Reading(signal: Signal, strength: Strength, prob: int)

  const OVERSOLD: real := 30.0
  const OVERBOUGHT: real := 70.0

  /** The fast average has just risen above the slow one. Both previous
      values must be present (`!== null`). */
  predicate CrossedUp(fastNow: real, slowNow: real, fastPrev: Option<real>, slowPrev: Option<real>): (r: bool)
    ensures r ==> fastPrev.Some? && slowPrev.Some? && fastNow > slowNow
    ensures r <==> CrossedDown(slowNow, fastNow, slowPrev, fastPrev)
  {
    fastPrev.Some? && slowPrev.Some? && fastPrev.value <= slowPrev.value && fastNow > slowNow
  }

  /** The fast average has just fallen below the slow one. */
  predicate CrossedDown(fastNow: real, slowNow: real, fastPrev: Option<real>, slowPrev: Option<real>): (r: bool)
    ensures r ==> fastPrev.Some? && slowPrev.Some? && fastNow < slowNow
    ensures fastPrev.None? || slowPrev.None? ==> !r
  {
    fastPrev.Some? && slowPrev.Some? && fastPrev.value >= slowPrev.value && fastNow < slowNow
  }

  /** The two crossings never happen together. */
  lemma CrossesExclusive(fastNow: real, slowNow: real, fastPrev: Option<real>, slowPrev: Option<real>)
    ensures !(CrossedUp(fastNow, slowNow, fastPrev, slowPrev) && CrossedDown(fastNow, slowNow, fastPrev, slowPrev))
  {
  }

  // --------------------------------------------------------- determineSignal

  /** The signal of each strategy: the RSI extreme alone, the crossing
      alone, or both together; the buy side is tested first. */
  function SignalOf(strategy: Strategy, rsiNow: real, up: bool, down: bool): (s: Signal)
    ensures strategy == RsiStrategy ==>
      (s == Compra <==> rsiNow < OVERSOLD) && (s == Venda <==> rsiNow > OVERBOUGHT)
    ensures strategy == MovingAverageCross ==>
      (s == Compra <==> up) && (s == Venda <==> down && !up)
    ensures strategy == Combined ==>
      (s == Compra <==> rsiNow < OVERSOLD && up)
      && (s == Venda <==> rsiNow > OVERBOUGHT && down && !(rsiNow < OVERSOLD && up))
  {
    match strategy
    case RsiStrategy =>
      if rsiNow < OVERSOLD then Compra else if rsiNow > OVERBOUGHT then Venda else Neutro
    case MovingAverageCross =>
      if up then Compra else if down then Venda else Neutro
    case Combined =>
      if rsiNow < OVERSOLD && up then Compra
      else if rsiNow > OVERBOUGHT && down then Venda
      else Neutro
  }

  /** How far the RSI sits past the threshold of the signal (0 for NEUTRO). */
  function DistRsi(signal: Signal, rsiNow: real): real {
    match signal
    case Compra => OVERSOLD - rsiNow
    case Venda => rsiNow - OVERBOUGHT
    case Neutro => 0.0
  }

  /** FORTE needs a wide gap between the averages and an RSI well past its
      threshold; MEDIO either a moderate gap or a moderate distance. */
  function StrengthOf(relDiff: real, dist: real): (r: Strength)
    ensures r == Forte <==> relDiff > 0.003 && Abs(dist) > 5.0
    ensures r == Fraco <==> relDiff <= 0.0015 && Abs(dist) <= 2.0
  {
    if relDiff > 0.003 && Abs(dist) > 5.0 then Forte
    else if relDiff > 0.0015 || Abs(dist) > 2.0 then Medio
    else Fraco
  }

  /** The heuristic probability: 50 plus up to 15 for the gap and up to 15
      for the RSI distance, 50 for NEUTRO, rounded and clamped into
      [40, 90]. The clamp never binds: the value is always in [50, 80]. */
  function ProbOf(signal: Signal, relDiff: real, dist: real): (p: int)
    ensures 50 <= p <= 80
    ensures signal == Neutro ==> p == 50
    ensures signal != Neutro && relDiff >= 0.15 && Abs(dist) >= 15.0 ==> p == 80
  {
    var base := 50.0 + Clamp(relDiff * 100.0, 0.0, 15.0) + Clamp(Abs(dist), 0.0, 15.0);
    var probBase := if signal == Neutro then 50.0 else base;
    RoundWithin(probBase, 50, 80);
    assert signal != Neutro && relDiff >= 0.15 && Abs(dist) >= 15.0 ==> Round(probBase) == 80 by {
      RoundOfInt(80);
    }
    ClampInt(Round(probBase), 40, 90)
  }

  /** `determineSignal`. The relative gap divides by the slow average,
      which must not be zero. */
  function DetermineSignal(rsiNow: real, fastNow: real, slowNow: real, fastPrev: Option<real>, slowPrev: Option<real>,
                           strategy: Strategy): (r: Reading)
    requires slowNow != 0.0
    ensures r.signal == SignalOf(strategy, rsiNow, CrossedUp(fastNow, slowNow, fastPrev, slowPrev),
                                 CrossedDown(fastNow, slowNow, fastPrev, slowPrev))
    ensures 50 <= r.prob <= 80
    ensures r.signal == Neutro ==> r.prob == 50 && r.strength != Forte
    ensures r.strength == StrengthOf(Abs(fastNow - slowNow) / slowNow, DistRsi(r.signal, rsiNow))
    ensures r.prob == ProbOf(r.signal, Abs(fastNow - slowNow) / slowNow, DistRsi(r.signal, rsiNow))
  {
    var up := CrossedUp(fastNow, slowNow, fastPrev, slowPrev);
    var down := CrossedDown(fastNow, slowNow, fastPrev, slowPrev);
    var signal := SignalOf(strategy, rsiNow, up, down);
    var dist := DistRsi(signal, rsiNow);
    var relDiff := Abs(fastNow - slowNow) / slowNow;
    Reading(signal, StrengthOf(relDiff, dist), ProbOf(signal, relDiff, dist))
  }

  // ------------------------------------------------------------ miniBacktest

  const BACKTEST_MIN_CLOSES: nat := 60
  const BACKTEST_FIRST: nat := 22
  const HORIZON: nat := 3

  /** The combined rule of the backtest on one candle: a buy on an oversold
      RSI with an upward crossing, a sell on an overbought one with a
      downward crossing; a signal is a hit when the change `ret` three
      candles later has its sign. */
  function Verdict(rsiNow: real, fastNow: real, slowNow: real, fastPrev: real, slowPrev: real, ret: real): (r: Option<bool>)
    ensures r.Some? <==>
      (rsiNow < OVERSOLD && fastPrev <= slowPrev && fastNow > slowNow)
      || (rsiNow > OVERBOUGHT && fastPrev >= slowPrev && fastNow < slowNow)
    ensures r == Some(true) ==> ret != 0.0
  {
    var up := fastPrev <= slowPrev && fastNow > slowNow;
    var down := fastPrev >= slowPrev && fastNow < slowNow;
    if rsiNow < OVERSOLD && up then Some(ret > 0.0)
    else if rsiNow > OVERBOUGHT && down then Some(ret < 0.0)
    else None
  }

  /** The backtest's verdict at candle `i`. From index 22 on every average
      and the RSI exist, so the source's null check never skips a candle. */
  function TradeAt(closes: seq<real>, i: nat): Option<bool>
    requires BACKTEST_FIRST <= i && i + HORIZON < |closes|
  {
    Verdict(WilderRsi(closes[..i + 1], SHIELD_RSI_PERIOD).value,
            SimpleSma(closes[..i + 1], FAST).value, SimpleSma(closes[..i + 1], SLOW).value,
            SimpleSma(closes[..i], FAST).value, SimpleSma(closes[..i], SLOW).value,
            closes[i + HORIZON] - closes[i])
  }

  /** Read from the two average series, the verdict at candle `i` is the
      one `TradeAt` defines on the prefixes. */
  lemma TradeAtSeries(closes: seq<real>, fast: seq<Option<real>>, slow: seq<Option<real>>, i: nat)
    requires BACKTEST_FIRST <= i && i + HORIZON < |closes|
    requires |fast| == |closes| && |slow| == |closes|
    requires forall j :: 0 <= j < |closes| ==> fast[j] == SimpleSma(closes[..j + 1], FAST)
    requires forall j :: 0 <= j < |closes| ==> slow[j] == SimpleSma(closes[..j + 1], SLOW)
    ensures fast[i].Some? && slow[i].Some? && fast[i - 1].Some? && slow[i - 1].Some?
    ensures TradeAt(closes, i) == Verdict(WilderRsi(closes[..i + 1], SHIELD_RSI_PERIOD).value,
                                          fast[i].value, slow[i].value, fast[i - 1].value, slow[i - 1].value,
                                          closes[i + HORIZON] - closes[i])
  {
    assert closes[..i - 1 + 1] == closes[..i];
  }

  datatype Tally = Tally(hits: nat, total: nat)

  /** Hits and signals over the candles `22 <= i < hi`; never more hits
      than signals. */
  function TallyUpTo(closes: seq<real>, hi: nat): (t: Tally)
    requires hi + HORIZON <= |closes|
    ensures t.hits <= t.total
    ensures t.total <= if hi > BACKTEST_FIRST then hi - BACKTEST_FIRST else 0
    decreases hi
  {
    if hi <= BACKTEST_FIRST then Tally(0, 0)
    else
      var prev := TallyUpTo(closes, hi - 1);
      match TradeAt(closes, hi - 1)
      case None => prev
      case Some(ok) => Tally(prev.hits + (if ok then 1 else 0), prev.total + 1)
  }

  /** The backtest's probability: 50 with fewer than 60 closes or no signal,
      otherwise the hit rate mapped onto [45, 90] (45 + 0.45 × percent). */
  function BacktestProb(closes: seq<real>): (p: int)
    ensures 45 <= p <= 90
    ensures |closes| < BACKTEST_MIN_CLOSES ==> p == 50
    ensures |closes| >= BACKTEST_MIN_CLOSES && TallyUpTo(closes, |closes| - HORIZON).total == 0 ==> p == 50
  {
    if |closes| < BACKTEST_MIN_CLOSES then 50
    else
      var t := TallyUpTo(closes, |closes| - HORIZON);
      if t.total == 0 then 50
      else
        var pct := HitRate(t.hits, t.total) * 100.0;
        RoundWithin(45.0 + pct * 0.45, 45, 90);
        ClampInt(Round(45.0 + pct * 0.45), 45, 90)
  }

  /** Every signal a hit gives 90, every signal a miss gives 45. */
  lemma BacktestExtremes(closes: seq<real>)
    requires |closes| >= BACKTEST_MIN_CLOSES
    requires TallyUpTo(closes, |closes| - HORIZON).total > 0
    ensures TallyUpTo(closes, |closes| - HORIZON).hits == 0 ==> BacktestProb(closes) == 45
    ensures TallyUpTo(closes, |closes| - HORIZON).hits == TallyUpTo(closes, |closes| - HORIZON).total
            ==> BacktestProb(closes) == 90
  {
    RoundOfInt(45);
    RoundOfInt(90);
  }

  /** One candle of the `miniBacktest` loop: the signal of the combined
      rule read from the two average series and, when it fires, the
      counters moved on; the counters then tally the candles up to `i`. */
  method ScoreCandle(closes: seq<real>, fast: seq<Option<real>>, slow: seq<Option<real>>, i: nat, hits: nat, total: nat)
    returns (hits': nat, total': nat)
    requires BACKTEST_FIRST <= i && i + HORIZON < |closes|
    requires |fast| == |closes| && |slow| == |closes|
    requires forall j :: 0 <= j < |closes| ==> fast[j] == SimpleSma(closes[..j + 1], FAST)
    requires forall j :: 0 <= j < |closes| ==> slow[j] == SimpleSma(closes[..j + 1], SLOW)
    requires Tally(hits, total) == TallyUpTo(closes, i)
    ensures Tally(hits', total') == TallyUpTo(closes, i + 1)
  {
    TradeAtSeries(closes, fast, slow, i);
    var rsiNow := WilderRsi(closes[..i + 1], SHIELD_RSI_PERIOD).value;
    var s9Now, s21Now := fast[i].value, slow[i].value;
    var s9Prev, s21Prev := fast[i - 1].value, slow[i - 1].value;
    var crossedUp := s9Prev <= s21Prev && s9Now > s21Now;
    var crossedDown := s9Prev >= s21Prev && s9Now < s21Now;
    var sig := if rsiNow < OVERSOLD && crossedUp then Compra else if rsiNow > OVERBOUGHT && crossedDown then Venda else Neutro;
    ghost var v := Verdict(rsiNow, s9Now, s21Now, s9Prev, s21Prev, closes[i + HORIZON] - closes[i]);
    hits', total' := hits, total;
    if sig != Neutro {
      var ret := closes[i + HORIZON] - closes[i];
      var ok := (sig == Compra && ret > 0.0) || (sig == Venda && ret < 0.0);
      assert v == Some(ok);
      if ok {
        hits' := hits' + 1;
      }
      total' := total' + 1;
    } else {
      assert v.None?;
    }
  }

  /** `miniBacktest` as written: two average series, then one pass over the
      candles with a hit and a signal counter. */
  method MiniBacktest(closes: seq<real>) returns (p: int)
    ensures p == BacktestProb(closes)
  {
    if |closes| < BACKTEST_MIN_CLOSES {
      return 50;
    }
    var fast := SmaSeries(closes, FAST);
    var slow := SmaSeries(closes, SLOW);
    var hits, total := 0, 0;
    var i := BACKTEST_FIRST;
    while i < |closes| - HORIZON
      invariant BACKTEST_FIRST <= i <= |closes| - HORIZON
      invariant Tally(hits, total) == TallyUpTo(closes, i)
    {
      hits, total := ScoreCandle(closes, fast, slow, i, hits, total);
      i := i + 1;
    }
    if total == 0 {
      return 50;
    }
    var pct := (hits as real / total as real) * 100.0;
    p := ClampInt(Round(45.0 + pct * 0.45), 45, 90);
  }

  // ------------------------------------------------------------- runAnalysis

  const ANALYSIS_MIN_CLOSES: nat := 30

  /** The probability shown by `runAnalysis`: 65% backtest, 35% heuristic,
      rounded. */
  function BlendProb(backtest: int, heuristic: int): (p: int)
    requires 45 <= backtest <= 90 && 50 <= heuristic <= 80
    ensures 47 <= p <= 87
    ensures backtest == heuristic ==> p == backtest
  {
    var x := backtest as real * 0.65 + heuristic as real * 0.35;
    assert backtest == heuristic ==> Round(x) == backtest by {
      RoundOfInt(backtest);
    }
    Round(x)
  }

  /** `runAnalysis` on fetched closes: fewer than 30 closes raise an error,
      which shows NEUTRO, FRACO, 50; otherwise the signal and strength of
      `determineSignal` with the blended probability. */
  function RunAnalysis(closes: seq<real>, strategy: Strategy): (r: Reading)
    requires |closes| >= ANALYSIS_MIN_CLOSES ==> SimpleSma(closes, SLOW).value != 0.0
    ensures |closes| < ANALYSIS_MIN_CLOSES ==> r == Reading(Neutro, Fraco, 50)
    ensures 45 <= r.prob <= 90
    ensures |closes| >= ANALYSIS_MIN_CLOSES ==>
      var h := DetermineSignal(WilderRsi(closes, SHIELD_RSI_PERIOD).value, SimpleSma(closes, FAST).value,
                               SimpleSma(closes, SLOW).value, SimpleSma(closes[..|closes| - 1], FAST),
                               SimpleSma(closes[..|closes| - 1], SLOW), strategy);
      r.signal == h.signal && r.strength == h.strength
      && r.prob == BlendProb(BacktestProb(closes), h.prob) && 47 <= r.prob <= 87
  {
    if |closes| < ANALYSIS_MIN_CLOSES then Reading(Neutro, Fraco, 50)
    else
      var h := DetermineSignal(WilderRsi(closes, SHIELD_RSI_PERIOD).value, SimpleSma(closes, FAST).value,
                               SimpleSma(closes, SLOW).value, SimpleSma(closes[..|closes| - 1], FAST),
                               SimpleSma(closes[..|closes| - 1], SLOW), strategy);
      Reading(h.signal, h.strength, BlendProb(BacktestProb(closes), h.prob))
  }

  // ------------------------------------------------------ analyzeNow: inputs

  /** The order-book imbalance `(bids - asks) / max(1, bids + asks)`; with
      non-negative volumes it lies in [-1, 1]. */
  function BookDiff(bids: real, asks: real): (r: real)
    ensures bids >= 0.0 && asks >= 0.0 ==> -1.0 <= r <= 1.0
    ensures r > 0.0 <==> bids > asks
  {
    var d := Max(1.0, bids + asks);
    DivSigned(bids - asks, d);
    (bids - asks) / d
  }

  /** `avgVolume`: the mean of the last `min(|arr|, period)` volumes, 0 for
      an empty list; it lies between the smallest and largest volume. */
  function AvgVolume(arr: seq<real>, period: nat): (r: real)
    requires period >= 1
    ensures |arr| == 0 ==> r == 0.0
    ensures |arr| >= 1 ==> MinOf(arr) <= r <= MaxOf(arr)
  {
    if |arr| == 0 then 0.0
    else
      var w := Last(arr, MinInt(|arr|, period));
      MeanBounds(w, MinOf(arr), MaxOf(arr));
      Mean(w)
  }

  /** The volume average is the simple moving average over the last
      `min(|arr|, period)` volumes (so `SmaTimesPeriod` gives back their sum
      from it). */
  lemma {:induction false} AvgVolumeWindow(arr: seq<real>, period: nat)
    requires period >= 1 && |arr| >= 1
    ensures AvgVolume(arr, period) == SimpleSma(arr, MinInt(|arr|, period)).value
  {
  }

  /** Volumes older than the last `period` never change the average. */
  lemma {:induction false} AvgVolumeIgnoresOlder(older: seq<real>, arr: seq<real>, period: nat)
    requires period >= 1 && |arr| >= period
    ensures AvgVolume(older + arr, period) == AvgVolume(arr, period)
  {
    var all := older + arr;
    AvgVolumeWindow(all, period);
    AvgVolumeWindow(arr, period);
    LastOfConcat(older, arr, period);
  }

  /** The volume surprise `(volNow - volAvg) / max(1, volAvg)`. */
  function VolDiff(volNow: real, volAvg: real): (r: real)
    ensures r > 0.0 <==> volNow > volAvg
  {
    DivSigned(volNow - volAvg, Max(1.0, volAvg));
    (volNow - volAvg) / Max(1.0, volAvg)
  }

  /** The buy share `clamp(round(50 + book * 50), 0, 100)` and its sell
      complement. */
  function BuySell(book: real): (r: (int, int))
    ensures 0 <= r.0 <= 100 && r.1 == 100 - r.0
    ensures book >= 0.0 ==> r.0 >= 50
    ensures book <= 0.0 ==> r.0 <= 50
  {
    var buy := ClampInt(Round(50.0 + book * 50.0), 0, 100);
    RoundOfInt(50);
    assert book >= 0.0 ==> buy >= 50 by {
      if book >= 0.0 {
        RoundMonotonic(50.0, 50.0 + book * 50.0);
      }
    }
    assert book <= 0.0 ==> buy <= 50 by {
      if book <= 0.0 {
        RoundMonotonic(50.0 + book * 50.0, 50.0);
      }
    }
    (buy, 100 - buy)
  }

  /** `clamp(Math.round(raw), 40, 95)`: the base probability both branches
      of `analyzeNow` derive from their raw estimate. */
  function ProbFromRaw(raw: real): (p: int)
    ensures 40 <= p <= 95
    ensures 40.0 <= raw <= 95.0 ==> raw - 0.5 < p as real <= raw + 0.5
  {
    ClampInt(Round(raw), 40, 95)
  }

  /** A higher raw estimate never gives a lower base probability. */
  lemma ProbFromRawMonotone(x: real, y: real)
    requires x <= y
    ensures ProbFromRaw(x) <= ProbFromRaw(y)
  {
    RoundMonotonic(x, y);
  }

  // ------------------------------------------------- analyzeNow: Smart Adaptive

  datatype SmartReading = SmartReading(signal: Signal, score: real, baseProb: int, buyPct: int, sellPct: int,
                                       strength: Strength)

  /** The score components: ±0.8 at an RSI extreme, ±0.6 by the side of
      the fast average, and the volume and book imbalances clamped to
      [-1, 1]. */
  function SmartScore(rsiNow: real, fastNow: real, slowNow: real, volDiff: real, bookDiff: real): (score: real)
    ensures -0.81 <= score <= 0.81
    ensures rsiNow < OVERSOLD && fastNow > slowNow && volDiff >= 0.0 && bookDiff >= 0.0 ==> score > 0.25
    ensures rsiNow > OVERBOUGHT && fastNow < slowNow && volDiff <= 0.0 && bookDiff <= 0.0 ==> score < -0.25
  {
    var rsiScore := if rsiNow < OVERSOLD then 0.8 else if rsiNow > OVERBOUGHT then -0.8 else 0.0;
    var maScore := if fastNow > slowNow then 0.6 else if fastNow < slowNow then -0.6 else 0.0;
    var volumeScore := Clamp(volDiff, -1.0, 1.0);
    var bookScore := Clamp(bookDiff, -1.0, 1.0);
    rsiScore * 0.25 + maScore * 0.35 + volumeScore * 0.2 + bookScore * 0.2
  }

  /** The "Smart Adaptive Signal" branch of `analyzeNow`: COMPRA above a
      score of 0.25, VENDA below -0.25, a base probability of
      `50 + 50 × score` clamped into [40, 95], the book split, and a
      strength by the size of the score. */
  function SmartAdaptive(rsiNow: real, fastNow: real, slowNow: real, volDiff: real, bookDiff: real): (r: SmartReading)
    ensures r.score == SmartScore(rsiNow, fastNow, slowNow, volDiff, bookDiff)
    ensures r.signal == Compra <==> r.score > 0.25
    ensures r.signal == Venda <==> r.score < -0.25
    ensures 40 <= r.baseProb <= 91
    ensures r.signal == Compra ==> r.baseProb >= 62
    ensures r.signal == Venda ==> r.baseProb <= 40
    ensures r.baseProb == ProbFromRaw(50.0 + r.score * 50.0)
    ensures 0 <= r.buyPct <= 100 && r.sellPct == 100 - r.buyPct
    ensures (r.buyPct, r.sellPct) == BuySell(Clamp(bookDiff, -1.0, 1.0))
    ensures bookDiff >= 0.0 ==> r.buyPct >= 50
    ensures bookDiff <= 0.0 ==> r.buyPct <= 50
    ensures r.strength == Forte <==> Abs(r.score) > 0.6
    ensures r.strength == Fraco <==> Abs(r.score) <= 0.3
  {
    var score := SmartScore(rsiNow, fastNow, slowNow, volDiff, bookDiff);
    var signal := if score > 0.25 then Compra else if score < -0.25 then Venda else Neutro;
    var raw := 50.0 + score * 50.0;
    RoundWithin(raw, 9, 91);
    assert score > 0.25 ==> Round(raw) >= 62 by {
      if score > 0.25 {
        RoundWithin(raw, 62, 91);
      }
    }
    assert score < -0.25 ==> Round(raw) <= 38 by {
      if score < -0.25 {
        RoundWithin(raw, 9, 38);
      }
    }
    var baseProb := ProbFromRaw(raw);
    var split := BuySell(Clamp(bookDiff, -1.0, 1.0));
    var strength := if Abs(score) > 0.6 then Forte else if Abs(score) > 0.3 then Medio else Fraco;
    SmartReading(signal, score, baseProb, split.0, split.1, strength)
  }

  /** A higher score never lowers the Smart Adaptive base probability. */
  lemma SmartBaseProbMonotone(rsi1: real, fast1: real, slow1: real, vol1: real, book1: real,
                              rsi2: real, fast2: real, slow2: real, vol2: real, book2: real)
    requires SmartScore(rsi1, fast1, slow1, vol1, book1) <= SmartScore(rsi2, fast2, slow2, vol2, book2)
    ensures SmartAdaptive(rsi1, fast1, slow1, vol1, book1).baseProb <= SmartAdaptive(rsi2, fast2, slow2, vol2, book2).baseProb
  {
    var s1 := SmartScore(rsi1, fast1, slow1, vol1, book1);
    var s2 := SmartScore(rsi2, fast2, slow2, vol2, book2);
    MulMono(s1, s2, 50.0);
    ProbFromRawMonotone(50.0 + s1 * 50.0, 50.0 + s2 * 50.0);
  }

  /** The shown chance: the base probability, scaled by the memory of the
      signal's direction when the signal is decisive. */
  function WinChance(baseProb: int, signal: Signal, mem: seq<TrendEntry>): (p: int)
    requires 40 <= baseProb <= 95
    ensures 40 <= p <= 95
    ensures signal == Neutro ==> p == baseProb
    ensures signal != Neutro && Count(mem, MakeDirection(signal).value) == 0 ==> p == baseProb
    ensures signal != Neutro ==> p == AdjustProbWithAtl(baseProb, mem, MakeDirection(signal).value)
  {
    match MakeDirection(signal)
    case None => baseProb
    case Some(d) =>
      assert Count(mem, d) == 0 ==> AdjustProbWithAtl(baseProb, mem, d) == baseProb by {
        if Count(mem, d) == 0 {
          NoHistoryKeepsProb(baseProb, mem, d);
        }
      }
      AdjustProbWithAtl(baseProb, mem, d)
  }

  // --------------------------------------------- analyzeNow: order-book rule

  datatype DepthReading = DepthReading(signal: Signal, baseProb: int, buyPct: int, sellPct: int)

  /** The other branch of `analyzeNow`: COMPRA on an oversold RSI with an
      upward crossing and more bids than asks, VENDA on the mirror; the base
      probability `50 + 30 × book + 20 × volume` clamped into [40, 95]. */
  function DepthRule(rsiNow: real, fastNow: real, slowNow: real, fastPrev: real, slowPrev: real,
                     bids: real, asks: real, bookDiff: real, volDiff: real): (r: DepthReading)
    ensures r.signal == Compra <==> rsiNow < OVERSOLD && fastPrev <= slowPrev && fastNow > slowNow && bids > asks
    ensures r.signal == Venda <==> rsiNow > OVERBOUGHT && fastPrev >= slowPrev && fastNow < slowNow && asks > bids
    ensures r.baseProb == ProbFromRaw(50.0 + bookDiff * 30.0 + volDiff * 20.0)
    ensures (r.buyPct, r.sellPct) == BuySell(bookDiff)
    ensures 0 <= r.buyPct <= 100 && r.sellPct == 100 - r.buyPct
  {
    var up := fastPrev <= slowPrev && fastNow > slowNow;
    var down := fastPrev >= slowPrev && fastNow < slowNow;
    var signal := if rsiNow < OVERSOLD && up && bids > asks then Compra
                  else if rsiNow > OVERBOUGHT && down && asks > bids then Venda
                  else Neutro;
    var baseProb := ProbFromRaw(50.0 + bookDiff * 30.0 + volDiff * 20.0);
    var split := BuySell(bookDiff);
    DepthReading(signal, baseProb, split.0, split.1)
  }

  /** More bids and more volume never lower the order-book rule's base
      probability, and more bids never lower the buy share. */
  lemma DepthRuleMonotone(rsiNow: real, fastNow: real, slowNow: real, fastPrev: real, slowPrev: real,
                          bids: real, asks: real, book1: real, vol1: real, book2: real, vol2: real)
    requires book1 <= book2 && vol1 <= vol2
    ensures DepthRule(rsiNow, fastNow, slowNow, fastPrev, slowPrev, bids, asks, book1, vol1).baseProb
         <= DepthRule(rsiNow, fastNow, slowNow, fastPrev, slowPrev, bids, asks, book2, vol2).baseProb
    ensures DepthRule(rsiNow, fastNow, slowNow, fastPrev, slowPrev, bids, asks, book1, vol1).buyPct
         <= DepthRule(rsiNow, fastNow, slowNow, fastPrev, slowPrev, bids, asks, book2, vol2).buyPct
  {
    MulMono(book1, book2, 30.0);
    MulMono(vol1, vol2, 20.0);
    ProbFromRawMonotone(50.0 + book1 * 30.0 + vol1 * 20.0, 50.0 + book2 * 30.0 + vol2 * 20.0);
    MulMono(book1, book2, 50.0);
    RoundMonotonic(50.0 + book1 * 50.0, 50.0 + book2 * 50.0);
  }
}

=== FILE: shield_stream.dfy ===
/** The live side of crypto-shield-pro: the candle store `md` that the
    kline stream keeps (at most 100 candles, the open candle rewritten in
    place, a closed one appended), and the reconnect state of the
    WebSocket (an attempt counter, a back-off that grows by 2 s per
    attempt up to 30 s, and a switch from port 9443 to 443). */
module ShieldStream {
  import opened Num

  /** The store keeps at most this many candles. */
  const MAX_CANDLES: nat := 100

  /** The fields of a kline message the handler reads: the prices and the
      volume, the open time `t`, the close time `T`, and `x` (closed). */
  datatype ShieldKline = ShieldKline(open: real, high: real, low: real, close: real, volume: real,
                                     openTime: int, closeTime: int, closed: bool)

  /** The store `md`: one series per field and the close time of the
      candle in progress. */
  datatype MarketData = MarketData(opens: seq<real>, highs: seq<real>, lows: seq<real>, closes: seq<real>,
                                   volumes: seq<real>, times: seq<int>, lastCloseTime: Option<int>)

  /** All six series have the same length. */
  predicate Aligned(md: MarketData) {
    |md.opens| == |md.closes| && |md.highs| == |md.closes| && |md.lows| == |md.closes|
    && |md.volumes| == |md.closes| && |md.times| == |md.closes|
  }

  /** The newest `m` elements of `s` (all of them when there are fewer). */
  function Newest<T>(s: seq<T>, m: nat): (r: seq<T>)
    ensures |r| == MinInt(|s|, m)
    ensures forall i :: 0 <= i < |r| ==> r[i] == s[|s| - |r| + i]
  {
    s[|s| - MinInt(|s|, m)..]
  }

  /** `arr.shift()`: drops the first element; an empty array stays empty. */
  function Shift<T>(s: seq<T>): (r: seq<T>)
    ensures |s| >= 1 ==> r == s[1..]
    ensures |s| == 0 ==> r == []
  {
    if |s| == 0 then s else s[1..]
  }

  /** `arr[i] = x` for an index the array has; other indices leave it. */
  function SetAt<T>(s: seq<T>, i: int, x: T): (r: seq<T>)
    ensures |r| == |s|
    ensures 0 <= i < |s| ==> r == s[i := x]
    ensures !(0 <= i < |s|) ==> r == s
  {
    if 0 <= i < |s| then s[i := x] else s
  }

  /** `arr.push(x)`, then one `shift()` when the closes exceed the cap. */
  function Append(md: MarketData, k: ShieldKline): (r: MarketData)
    ensures |md.closes| <= MAX_CANDLES ==> r.closes == Newest(md.closes + [k.close], MAX_CANDLES)
    ensures Aligned(md) && |md.closes| <= MAX_CANDLES ==>
      r.opens == Newest(md.opens + [k.open], MAX_CANDLES)
      && r.highs == Newest(md.highs + [k.high], MAX_CANDLES)
      && r.lows == Newest(md.lows + [k.low], MAX_CANDLES)
      && r.volumes == Newest(md.volumes + [k.volume], MAX_CANDLES)
      && r.times == Newest(md.times + [k.openTime], MAX_CANDLES)
    ensures Aligned(md) ==> Aligned(r)
    ensures r.lastCloseTime == md.lastCloseTime
  {
    var p := MarketData(md.opens + [k.open], md.highs + [k.high], md.lows + [k.low], md.closes + [k.close],
                        md.volumes + [k.volume], md.times + [k.openTime], md.lastCloseTime);
    if |p.closes| > MAX_CANDLES then
      MarketData(Shift(p.opens), Shift(p.highs), Shift(p.lows), Shift(p.closes), Shift(p.volumes), Shift(p.times),
                 p.lastCloseTime)
    else p
  }

  /** The candle in progress rewritten at the last index of the closes;
      the open times are left as they are. */
  function Rewrite(md: MarketData, k: ShieldKline): (r: MarketData)
    ensures |md.closes| >= 1 ==> r.closes == md.closes[|md.closes| - 1 := k.close]
    ensures |md.closes| == 0 ==> r.closes == md.closes
    ensures Aligned(md) && |md.closes| >= 1 ==>
      var last := |md.closes| - 1;
      r.opens == md.opens[last := k.open] && r.highs == md.highs[last := k.high]
      && r.lows == md.lows[last := k.low] && r.volumes == md.volumes[last := k.volume]
    ensures r.times == md.times && r.lastCloseTime == md.lastCloseTime
    ensures |r.opens| == |md.opens| && |r.highs| == |md.highs| && |r.lows| == |md.lows|
            && |r.closes| == |md.closes| && |r.volumes| == |md.volumes|
  {
    var last := |md.closes| - 1;
    md.(opens := SetAt(md.opens, last, k.open), highs := SetAt(md.highs, last, k.high),
        lows := SetAt(md.lows, last, k.low), closes := SetAt(md.closes, last, k.close),
        volumes := SetAt(md.volumes, last, k.volume))
  }

  /** `ws.onmessage`: a message without a kline changes nothing; a closed
      kline is appended, an open one rewrites the last candle; either way
      the close time of the kline is recorded. */
  function OnKline(md: MarketData, msg: Option<ShieldKline>): (r: MarketData)
    ensures msg.None? ==> r == md
    ensures msg.Some? ==> r.lastCloseTime == Some(msg.value.closeTime)
    ensures Aligned(md) ==> Aligned(r)
    ensures |md.closes| <= MAX_CANDLES ==> |r.closes| <= MAX_CANDLES
    ensures msg.Some? && msg.value.closed && |md.closes| <= MAX_CANDLES ==>
      r.closes == Newest(md.closes + [msg.value.close], MAX_CANDLES) && r.closes[|r.closes| - 1] == msg.value.close
    ensures msg.Some? && !msg.value.closed ==> |r.closes| == |md.closes| && r.times == md.times
    ensures msg.Some? && !msg.value.closed && |md.closes| >= 1 ==>
      r.closes == md.closes[|md.closes| - 1 := msg.value.close]
  {
    match msg
    case None => md
    case Some(k) =>
      var next := if k.closed then Append(md, k) else Rewrite(md, k);
      next.(lastCloseTime := Some(k.closeTime))
  }

  /** The store after a run of messages, each carrying a kline. */
  function Replay(md: MarketData, ks: seq<ShieldKline>): MarketData
    decreases |ks|
  {
    if |ks| == 0 then md else OnKline(Replay(md, ks[..|ks| - 1]), Some(ks[|ks| - 1]))
  }

  /** The closes the klines carry. */
  function ClosesOf(ks: seq<ShieldKline>): (r: seq<real>)
    ensures |r| == |ks|
    decreases |ks|
  {
    if |ks| == 0 then [] else ClosesOf(ks[..|ks| - 1]) + [ks[|ks| - 1].close]
  }

  /** Keeping the newest elements commutes with appending one more. */
  lemma NewestAppend(a: seq<real>, c: real)
    ensures Newest(Newest(a, MAX_CANDLES) + [c], MAX_CANDLES) == Newest(a + [c], MAX_CANDLES)
  {
    var p := Newest(a, MAX_CANDLES);
    if |a| >= MAX_CANDLES {
      assert Newest(p + [c], MAX_CANDLES) == a[|a| - MAX_CANDLES + 1..] + [c];
    } else {
      assert p == a;
    }
  }

  lemma ConcatSnoc(a: seq<real>, b: seq<real>, c: real)
    ensures a + (b + [c]) == (a + b) + [c]
  {
  }

  /** A run of closed klines leaves the newest 100 closes of the old store
      followed by the klines' closes. */
  lemma {:induction false} ClosedReplayKeepsNewest(md: MarketData, ks: seq<ShieldKline>)
    requires |md.closes| <= MAX_CANDLES
    requires forall i :: 0 <= i < |ks| ==> ks[i].closed
    ensures Replay(md, ks).closes == Newest(md.closes + ClosesOf(ks), MAX_CANDLES)
    decreases |ks|
  {
    if |ks| == 0 {
      assert md.closes + ClosesOf(ks) == md.closes;
    } else {
      var init := ks[..|ks| - 1];
      var k := ks[|ks| - 1];
      ClosedReplayKeepsNewest(md, init);
      var before := Replay(md, init);
      var prefix := md.closes + ClosesOf(init);
      assert before.closes == Newest(prefix, MAX_CANDLES);
      assert |before.closes| <= MAX_CANDLES;
      assert Replay(md, ks) == OnKline(before, Some(k));
      assert Replay(md, ks).closes == Newest(before.closes + [k.close], MAX_CANDLES);
      NewestAppend(prefix, k.close);
      assert ClosesOf(ks) == ClosesOf(init) + [k.close];
      ConcatSnoc(md.closes, ClosesOf(init), k.close);
    }
  }

  /** A run of messages keeps the series aligned and within the cap. */
  lemma {:induction false} ReplayKeepsShape(md: MarketData, ks: seq<ShieldKline>)
    requires Aligned(md) && |md.closes| <= MAX_CANDLES
    ensures Aligned(Replay(md, ks)) && |Replay(md, ks).closes| <= MAX_CANDLES
    decreases |ks|
  {
    if |ks| > 0 {
      ReplayKeepsShape(md, ks[..|ks| - 1]);
    }
  }

  /** The closing message of the candle already in the store is appended
      as a further candle rather than written over it, so the open time of
      that candle appears twice at the end of `times`. */
  lemma ClosingMessageAppends(md: MarketData, k: ShieldKline)
    requires Aligned(md) && 1 <= |md.closes| < MAX_CANDLES
    requires k.closed && md.times[|md.times| - 1] == k.openTime
    ensures var r := OnKline(md, Some(k));
      |r.closes| == |md.closes| + 1
      && r.times[|r.times| - 1] == r.times[|r.times| - 2] == k.openTime
  {
  }

  // --------------------------------------------------------------- reconnect

  const BACKOFF_STEP: nat := 2000
  const MAX_BACKOFF: nat := 30000
  /** The attempt from which the fallback port 443 is used. */
  const SWITCH_ATTEMPTS: nat := 2

  /** `wsAttempts` and `wsUse443`. */
  datatype WsState = WsState(attempts: nat, use443: bool)

  /** The state the page starts in. */
  const INITIAL: WsState := WsState(0, false)

  /** The port `startKlineStream` connects to. */
  function Port(st: WsState): (p: nat)
    ensures p == 443 || p == 9443
    ensures p == 443 <==> st.use443
  {
    if st.use443 then 443 else 9443
  }

  /** `scheduleReconnect`: one more attempt, a delay of 2 s per attempt
      capped at 30 s, and port 443 from the second attempt on (the switch
      is never undone). Returns the new state and the delay in ms. */
  function ScheduleReconnect(st: WsState): (r: (WsState, nat))
    ensures r.0.attempts == st.attempts + 1
    ensures BACKOFF_STEP <= r.1 <= MAX_BACKOFF
    ensures r.1 == MinInt(MAX_BACKOFF, BACKOFF_STEP * r.0.attempts)
    ensures st.use443 ==> r.0.use443
    ensures r.0.use443 <==> st.use443 || r.0.attempts >= SWITCH_ATTEMPTS
  {
    var attempts := st.attempts + 1;
    (WsState(attempts, st.use443 || attempts >= SWITCH_ATTEMPTS), MinInt(MAX_BACKOFF, BACKOFF_STEP * attempts))
  }

  /** `ws.onopen`: a connection that opens clears the counter and keeps
      the port. */
  function OnOpen(st: WsState): (r: WsState)
    ensures r.attempts == 0 && r.use443 == st.use443
  {
    st.(attempts := 0)
  }

  /** `startKlineStream` as written: it clears the counter itself, and the
      reconnect timer calls it on every retry. */
  function StartStreamAsWritten(st: WsState): (r: WsState)
    ensures r.attempts == 0 && r.use443 == st.use443
  {
    st.(attempts := 0)
  }

  /** `startKlineStream` with the counter left to `onopen`. */
  function StartStream(st: WsState): (r: WsState)
    ensures r.attempts == st.attempts && r.use443 == st.use443
  {
    st
  }

  /** `n` connections in a row that close without opening, as written:
      each close schedules a reconnect, whose timer starts the stream
      again. Returns the final state and the delays, oldest first. */
  function FailuresAsWritten(st: WsState, n: nat): (r: (WsState, seq<nat>))
    ensures |r.1| == n
    decreases n
  {
    if n == 0 then (st, [])
    else
      var prev := FailuresAsWritten(st, n - 1);
      var next := ScheduleReconnect(prev.0);
      (StartStreamAsWritten(next.0), prev.1 + [next.1])
  }

  /** The same run with the corrected `startKlineStream`. */
  function Failures(st: WsState, n: nat): (r: (WsState, seq<nat>))
    ensures |r.1| == n
    decreases n
  {
    if n == 0 then (st, [])
    else
      var prev := Failures(st, n - 1);
      var next := ScheduleReconnect(prev.0);
      (StartStream(next.0), prev.1 + [next.1])
  }

  /** As written, however many connections fail, every delay is 2 s, the
      counter is back at 0 and port 9443 is kept. */
  lemma {:induction false} FailuresAsWrittenStall(n: nat)
    ensures FailuresAsWritten(INITIAL, n).0 == INITIAL
    ensures forall i :: 0 <= i < n ==> FailuresAsWritten(INITIAL, n).1[i] == BACKOFF_STEP
    decreases n
  {
    if n > 0 {
      FailuresAsWrittenStall(n - 1);
      var prev := FailuresAsWritten(INITIAL, n - 1);
      assert FailuresAsWritten(INITIAL, n).1 == prev.1 + [BACKOFF_STEP];
    }
  }

  /** Two failed connections: the second retry still waits 2 s and still
      connects to port 9443, although two attempts were made. */
  lemma SecondRetryAsWritten()
    ensures FailuresAsWritten(INITIAL, 2).1 == [2000, 2000]
    ensures Port(FailuresAsWritten(INITIAL, 2).0) == 9443
  {
    FailuresAsWrittenStall(2);
  }

  /** Corrected, the `i`-th retry waits `min(30 s, 2 s × i)`, the counter
      counts the failures, and port 443 is used from the second failure
      on. */
  lemma {:induction false} FailuresGrow(n: nat)
    ensures Failures(INITIAL, n).0.attempts == n
    ensures Failures(INITIAL, n).0.use443 <==> n >= SWITCH_ATTEMPTS
    ensures forall i :: 0 <= i < n ==> Failures(INITIAL, n).1[i] == MinInt(MAX_BACKOFF, BACKOFF_STEP * (i + 1))
    decreases n
  {
    if n > 0 {
      FailuresGrow(n - 1);
      var prev := Failures(INITIAL, n - 1);
      var next := ScheduleReconnect(prev.0);
      assert next.0.attempts == n;
      assert next.1 == MinInt(MAX_BACKOFF, BACKOFF_STEP * n);
      assert Failures(INITIAL, n).1 == prev.1 + [next.1];
    }
  }

  /** Corrected, the second retry waits 4 s on port 443. */
  lemma SecondRetry()
    ensures Failures(INITIAL, 2).1 == [2000, 4000]
    ensures Port(Failures(INITIAL, 2).0) == 443
  {
    FailuresGrow(2);
  }

  /** Corrected, a connection that opens starts the count again, on the
      port it opened on. */
  lemma OpenRestartsBackoff(st: WsState)
    ensures ScheduleReconnect(OnOpen(st)).1 == BACKOFF_STEP
    ensures Port(OnOpen(st)) == Port(st)
  {
  }
}

=== FILE: signals.dfy ===
/** The decision half of `announceSignals` in the four bots: from a symbol's
    closes, its live price and its structure (support/resistance levels or
    trend lines), whether to announce a CALL, a PUT or nothing. The state
    gating (a pending signal, an open trade, the bar cooldown) lives in
    the Lifecycle module; this module is the per-symbol rule. */
module Signals {
  import opened Num
  import opened Indicators
  import opened Trade
  import TrendLines
  import SupportResistance
  import RG = Regime
  import Learning

  /** `RSI_PERIOD + STOCH_PERIOD`: fewer closes never give a signal. */
  const SIGNAL_MIN_CLOSES: nat := RSI_PERIOD + STOCH_PERIOD
  /** bot-sinais4 only looks at the last 250 closes. */
  const WORK_WINDOW: nat := 250

  /** bot-sinais: the ATR must reach 20% of the mean absolute delta of the
      last `max(ATR_PERIOD, 20)` deltas. */
  const BASELINE_DELTAS: nat := 20
  const BASELINE_FRACTION: real := 0.20

  /** Relative nearness to a trend line: 0.05% (bot-sinais3) and 0.12%
      (bot-sinais4, sideways regime). */
  const NEAR_V3: real := 0.0005
  const NEAR_V4: real := 0.0012
  /** bot-sinais4 does not trade below this ATR. */
  const MIN_ATR_V4: real := 0.00015

  /** What every rule reads from the working series (the closes followed by
      the live price): the stochastic RSI, the last RSI value and the two
      EMAs (absent when the series is shorter than their length). */
  datatype Features = Features(sd: StochResult, rsiNow: real, ema50: Option<real>, ema200: Option<real>)

  function FeaturesOf(w: seq<real>): (f: Features)
    requires |w| > SIGNAL_MIN_CLOSES
    ensures InPercentRange(f.sd.k) && InPercentRange(f.sd.d) && InPercentRange(f.sd.stoch)
    ensures f.sd.k == f.sd.d
    ensures 0.0 <= f.rsiNow <= 100.0
    ensures f.ema50 == Ema(w, 50) && f.ema200 == Ema(w, 200)
  {
    var sd := StochRsi(w, RSI_PERIOD, STOCH_PERIOD, K_SMOOTH, D_SMOOTH).value;
    var rs := Rsi(w, RSI_PERIOD).value;
    Features(sd, rs[|rs| - 1], Ema(w, 50), Ema(w, 200))
  }

  /** `Math.abs(x - ref) / ref < tol`. A zero reference divides to infinity
      or NaN, which compares false; a negative one gives a negative ratio,
      which compares true. */
  predicate RelNear(x: real, ref: real, tol: real): (r: bool)
    ensures ref == 0.0 ==> !r
    ensures ref > 0.0 ==> (r <==> ref - tol * ref < x < ref + tol * ref)
    ensures ref < 0.0 && tol > 0.0 ==> r
  {
    RelNearBand(x, ref, tol);
    ref != 0.0 && Abs(x - ref) / ref < tol
  }

  /** For a positive reference the relative test is the open band of
      half-width `tol * ref` around it. */
  lemma RelNearBand(x: real, ref: real, tol: real)
    ensures ref > 0.0 ==> (Abs(x - ref) / ref < tol <==> ref - tol * ref < x < ref + tol * ref)
    ensures ref < 0.0 && tol > 0.0 ==> Abs(x - ref) / ref < tol
  {
    if ref > 0.0 {
      DivLt(Abs(x - ref), ref, tol);
    } else if ref < 0.0 {
      DivByNegative(Abs(x - ref), ref);
    }
  }

  /** The EMA50/EMA200 macro filter of bot-sinais3 and bot-sinais4: no CALL
      against a falling trend, no PUT against a rising one. */
  function MacroFilter(side: Side, f: Features): (r: Option<Side>)
    ensures r.None? || r == Some(side)
    ensures r == Some(Call) ==> !RG.TrendDown(f.ema50, f.ema200)
    ensures r == Some(Put) ==> !RG.TrendUp(f.ema50, f.ema200)
    ensures !RG.TrendUp(f.ema50, f.ema200) && !RG.TrendDown(f.ema50, f.ema200) ==> r == Some(side)
  {
    if side == Call && RG.TrendDown(f.ema50, f.ema200) then None
    else if side == Put && RG.TrendUp(f.ema50, f.ema200) then None
    else Some(side)
  }

  /** The filter never turns a signal into the other side, and under a
      rising trend only CALLs survive, under a falling one only PUTs. */
  lemma MacroFilterFollowsTrend(side: Side, f: Features)
    ensures RG.TrendUp(f.ema50, f.ema200) ==> (MacroFilter(side, f).Some? <==> side == Call)
    ensures RG.TrendDown(f.ema50, f.ema200) ==> (MacroFilter(side, f).Some? <==> side == Put)
  {
    RG.TrendsExclusive(f.ema50, f.ema200);
  }

  // ---------------------------------------------------------------- bot-sinais

  /** The mean absolute delta bot-sinais compares the ATR with: the last
      `min(|w| - 1, 20)` deltas of the working series. */
  function Baseline(w: seq<real>): (b: real)
    requires |w| >= 2
    ensures b >= 0.0
  {
    var ds := AbsDiffs(w);
    var recent := Last(ds, MinInt(|ds|, BASELINE_DELTAS));
    assert forall i :: 0 <= i < |recent| ==> 0.0 <= recent[i] <= MaxOf(recent);
    MeanBounds(recent, 0.0, MaxOf(recent));
    Mean(recent)
  }

  /** The stochastic extremes of bot-sinais: PUT at K, D >= 98, CALL at
      K, D <= 2. */
  function RuleV1(f: Features): (r: Option<Side>)
    requires f.sd.k == f.sd.d
    ensures r == Some(Put) <==> f.sd.k >= 98.0
    ensures r == Some(Call) <==> f.sd.k <= 2.0
    ensures r.None? <==> 2.0 < f.sd.k < 98.0
  {
    if f.sd.k >= 98.0 && f.sd.d >= 98.0 then Some(Put)
    else if f.sd.k <= 2.0 && f.sd.d <= 2.0 then Some(Call)
    else None
  }

  /** `announceSignals` of bot-sinais, for one symbol without a pending
      signal or open trade: at least 28 closes and a live price, an ATR of at
      least 20% of the baseline, then the stochastic extremes. */
  function SignalV1(closes: seq<real>, lp: Option<real>): (r: Option<Side>)
    ensures |closes| < SIGNAL_MIN_CLOSES || lp.None? ==> r.None?
    ensures r.Some? ==> |closes| >= SIGNAL_MIN_CLOSES && lp.Some?
    ensures r.Some? ==>
      var w := closes + [lp.value];
      Atr(w, ATR_PERIOD).value >= BASELINE_FRACTION * Baseline(w)
      && (r == Some(Put) <==> FeaturesOf(w).sd.k >= 98.0)
      && (r == Some(Call) <==> FeaturesOf(w).sd.k <= 2.0)
  {
    if |closes| < SIGNAL_MIN_CLOSES || lp.None? then None
    else
      var w := closes + [lp.value];
      if Atr(w, ATR_PERIOD).value < BASELINE_FRACTION * Baseline(w) then None
      else RuleV1(FeaturesOf(w))
  }

  /** A constant series has no losing delta, so every RSI value is 100. */
  lemma FlatRsi(w: seq<real>, c: real)
    requires |w| >= RSI_PERIOD + 1
    requires forall i :: 0 <= i < |w| ==> w[i] == c
    ensures forall i :: 0 <= i < |Rsi(w, RSI_PERIOD).value| ==> Rsi(w, RSI_PERIOD).value[i] == 100.0
  {
    RsiOfNonFallingSeries(w, RSI_PERIOD);
  }

  /** On a constant working series the baseline is 0. */
  lemma FlatBaselineIsZero(w: seq<real>, c: real)
    requires |w| >= 2
    requires forall i :: 0 <= i < |w| ==> w[i] == c
    ensures Baseline(w) == 0.0
  {
    var ds := AbsDiffs(w);
    assert forall i :: 0 <= i < |ds| ==> ds[i] == 0.0;
    var recent := Last(ds, MinInt(|ds|, BASELINE_DELTAS));
    assert forall i :: 0 <= i < |recent| ==> recent[i] == 0.0;
    MeanConstant(recent, 0.0);
  }

  /** A constant market passes the ATR filter: both sides are 0. */
  lemma FlatPassesAtrFilter(closes: seq<real>, c: real)
    requires |closes| >= SIGNAL_MIN_CLOSES
    requires forall i :: 0 <= i < |closes| ==> closes[i] == c
    ensures Atr(closes + [c], ATR_PERIOD).value >= BASELINE_FRACTION * Baseline(closes + [c])
  {
    var w := closes + [c];
    assert forall i :: 0 <= i < |w| ==> w[i] == c;
    AtrOfFlat(w, ATR_PERIOD);
    FlatBaselineIsZero(w, c);
  }

  /** A constant market has a stochastic RSI of 0. */
  lemma FlatStochIsZero(closes: seq<real>, c: real)
    requires |closes| >= SIGNAL_MIN_CLOSES
    requires forall i :: 0 <= i < |closes| ==> closes[i] == c
    ensures FeaturesOf(closes + [c]).sd.k == 0.0
  {
    var w := closes + [c];
    assert forall i :: 0 <= i < |w| ==> w[i] == c;
    FlatRsi(w, c);
    StochRsiFlat(w, RSI_PERIOD, STOCH_PERIOD, K_SMOOTH, D_SMOOTH);
  }

  lemma FlatDecision(closes: seq<real>, c: real)
    requires |closes| >= SIGNAL_MIN_CLOSES
    requires forall i :: 0 <= i < |closes| ==> closes[i] == c
    ensures !(Atr(closes + [c], ATR_PERIOD).value < BASELINE_FRACTION * Baseline(closes + [c]))
    ensures RuleV1(FeaturesOf(closes + [c])) == Some(Call)
  {
    FlatPassesAtrFilter(closes, c);
    FlatStochIsZero(closes, c);
  }

  /** A market that has not moved at all passes bot-sinais's ATR filter (0
      is not below 20% of 0) and its flat RSI gives K = 0, so bot-sinais
      announces a CALL. */
  lemma FlatMarketSignalsCall(closes: seq<real>, c: real)
    requires |closes| >= SIGNAL_MIN_CLOSES
    requires forall i :: 0 <= i < |closes| ==> closes[i] == c
    ensures SignalV1(closes, Some(c)) == Some(Call)
  {
    FlatDecision(closes, c);
  }

  // --------------------------------------------------------------- bot-sinais2

  /** The proximity rule of bot-sinais2: PUT near the resistance (within
      0.18 ATR) with K, D >= 98 and RSI >= 70; otherwise CALL near the
      support with K, D <= 2 and RSI <= 30. */
  function RuleV2(f: Features, lp: real, top: Option<real>, bottom: Option<real>, atrVal: real): (r: Option<Side>)
    ensures r == Some(Put) ==>
      top.Some? && Abs(lp - top.value) <= Max(atrVal * SupportResistance.SR_PROX_ATR, 0.0)
      && f.sd.k >= 98.0 && f.sd.d >= 98.0 && f.rsiNow >= 70.0
    ensures r == Some(Call) ==>
      bottom.Some? && Abs(lp - bottom.value) <= Max(atrVal * SupportResistance.SR_PROX_ATR, 0.0)
      && f.sd.k <= 2.0 && f.sd.d <= 2.0 && f.rsiNow <= 30.0
    ensures top.None? && bottom.None? ==> r.None?
  {
    var prox := Max(atrVal * SupportResistance.SR_PROX_ATR, 0.0);
    if top.Some? && Abs(lp - top.value) <= prox && f.sd.k >= 98.0 && f.sd.d >= 98.0 && f.rsiNow >= 70.0 then Some(Put)
    else if bottom.Some? && Abs(lp - bottom.value) <= prox && f.sd.k <= 2.0 && f.sd.d <= 2.0 && f.rsiNow <= 30.0 then Some(Call)
    else None
  }

  /** The mode filter of bot-sinais2. REVERSAO drops a PUT whose last or
      previous close is above the resistance, or whose last candle's high
      and close both are (and mirrors this for a CALL); ROMPIMENTO turns a
      PUT into a CALL when the last close is above the resistance and a CALL
      into a PUT when it is below the support. A missing candle extreme
      compares false. */
  function ModeFilterV2(side: Side, mode: Mode, top: Option<real>, bottom: Option<real>,
                        lastClose: real, prevClose: real, highPrice: Option<real>, lowPrice: Option<real>): (r: Option<Side>)
    requires side == Put ==> top.Some?
    requires side == Call ==> bottom.Some?
    ensures mode == Reversao ==> r.None? || r == Some(side)
    ensures mode == Reversao && r == Some(Put) ==> lastClose <= top.value && prevClose <= top.value
    ensures mode == Reversao && r == Some(Call) ==> lastClose >= bottom.value && prevClose >= bottom.value
    ensures mode == Rompimento ==> r.Some?
    ensures mode == Rompimento && r != Some(side) ==>
      (side == Put && lastClose > top.value) || (side == Call && lastClose < bottom.value)
  {
    if mode == Reversao then
      if side == Put && (lastClose > top.value || prevClose > top.value) then None
      else if side == Call && (lastClose < bottom.value || prevClose < bottom.value) then None
      else if side == Put && highPrice.Some? && highPrice.value > top.value && lastClose > top.value then None
      else if side == Call && lowPrice.Some? && lowPrice.value < bottom.value && lastClose < bottom.value then None
      else Some(side)
    else
      if side == Put && lastClose > top.value then Some(Call)
      else if side == Call && lastClose < bottom.value then Some(Put)
      else Some(side)
  }

  /** The wick test of the REVERSAO filter never decides anything: it needs
      the last close beyond the level, which the close test has already
      rejected. */
  lemma WickFilterRedundant(side: Side, mode: Mode, top: Option<real>, bottom: Option<real>,
                            lastClose: real, prevClose: real, highPrice: Option<real>, lowPrice: Option<real>)
    requires side == Put ==> top.Some?
    requires side == Call ==> bottom.Some?
    ensures ModeFilterV2(side, mode, top, bottom, lastClose, prevClose, highPrice, lowPrice)
         == ModeFilterV2(side, mode, top, bottom, lastClose, prevClose, None, None)
  {
  }

  /** The last element of a series, or `None` for an empty one
      (`Math.max(...arr.slice(-1))` is -Infinity then, which compares false). */
  function LastOf(s: seq<real>): (r: Option<real>)
    ensures r.Some? <==> |s| >= 1
    ensures r.Some? ==> r.value == s[|s| - 1]
  {
    if |s| == 0 then None else Some(s[|s| - 1])
  }

  /** What a REVERSAO announcement of bot-sinais2 satisfies: a PUT is near
      the resistance with K, D at least 98, RSI at least 70 and the last two
      closes at or below it; a CALL mirrors this at the support. */
  predicate ReversalHolds(side: Side, f: Features, lp: real, top: Option<real>, bottom: Option<real>, atrVal: real,
                          lastClose: real, prevClose: real)
  {
    var prox := Max(atrVal * SupportResistance.SR_PROX_ATR, 0.0);
    match side
    case Put =>
      top.Some? && Abs(lp - top.value) <= prox && f.sd.k >= 98.0 && f.sd.d >= 98.0 && f.rsiNow >= 70.0
      && lastClose <= top.value && prevClose <= top.value
    case Call =>
      bottom.Some? && Abs(lp - bottom.value) <= prox && f.sd.k <= 2.0 && f.sd.d <= 2.0 && f.rsiNow <= 30.0
      && lastClose >= bottom.value && prevClose >= bottom.value
  }

  /** The proximity rule followed by the mode filter. */
  function DecideV2(f: Features, lp: real, top: Option<real>, bottom: Option<real>, atrVal: real,
                    lastClose: real, prevClose: real, highPrice: Option<real>, lowPrice: Option<real>, mode: Mode): (r: Option<Side>)
    ensures top.None? && bottom.None? ==> r.None?
    ensures mode == Reversao && r.Some? ==> ReversalHolds(r.value, f, lp, top, bottom, atrVal, lastClose, prevClose)
  {
    var side := RuleV2(f, lp, top, bottom, atrVal);
    if side.None? then None
    else ModeFilterV2(side.value, mode, top, bottom, lastClose, prevClose, highPrice, lowPrice)
  }

  /** `announceSignals` of bot-sinais2 for one symbol past the state gates
      (pending, open trade, cooldown): at least 28 closes and a live price,
      support/resistance levels with at least one side, the proximity rule
      and then the mode filter. */
  function SignalV2(closes: seq<real>, highs: seq<real>, lows: seq<real>, lp: Option<real>,
                    sr: SupportResistance.SrOutcome, mode: Mode): (r: Option<Side>)
    ensures |closes| < SIGNAL_MIN_CLOSES || lp.None? || !sr.Levels? ==> r.None?
    ensures sr.Levels? && sr.top.None? && sr.bottom.None? ==> r.None?
    ensures r.Some? ==> |closes| >= SIGNAL_MIN_CLOSES && lp.Some? && sr.Levels?
    ensures r.Some? && mode == Reversao ==>
      ReversalHolds(r.value, FeaturesOf(closes + [lp.value]), lp.value, sr.top, sr.bottom, sr.atr,
                    closes[|closes| - 1], closes[|closes| - 2])
  {
    if |closes| < SIGNAL_MIN_CLOSES || lp.None? || !sr.Levels? then None
    else if sr.top.None? && sr.bottom.None? then None
    else
      DecideV2(FeaturesOf(closes + [lp.value]), lp.value, sr.top, sr.bottom, sr.atr,
               closes[|closes| - 1], closes[|closes| - 2], LastOf(highs), LastOf(lows), mode)
  }

  /** In ROMPIMENTO the mode filter never drops a signal, so every proximity
      signal becomes an announcement (possibly of the other side). */
  lemma RompimentoKeepsSignalV2(closes: seq<real>, highs: seq<real>, lows: seq<real>, lp: real, sr: SupportResistance.SrOutcome)
    requires |closes| >= SIGNAL_MIN_CLOSES && sr.Levels?
    requires RuleV2(FeaturesOf(closes + [lp]), lp, sr.top, sr.bottom, sr.atr).Some?
    ensures SignalV2(closes, highs, lows, Some(lp), sr, Rompimento).Some?
  {
    DecideV2Rompimento(FeaturesOf(closes + [lp]), lp, sr.top, sr.bottom, sr.atr,
                       closes[|closes| - 1], closes[|closes| - 2], LastOf(highs), LastOf(lows));
  }

  /** The mode filter in ROMPIMENTO passes every proximity signal on. */
  lemma DecideV2Rompimento(f: Features, lp: real, top: Option<real>, bottom: Option<real>, atrVal: real,
                           lastClose: real, prevClose: real, highPrice: Option<real>, lowPrice: Option<real>)
    requires RuleV2(f, lp, top, bottom, atrVal).Some?
    ensures DecideV2(f, lp, top, bottom, atrVal, lastClose, prevClose, highPrice, lowPrice, Rompimento).Some?
  {
  }

  // --------------------------------------------------------------- bot-sinais3

  /** The trend-line rule of bot-sinais3. ROMPIMENTO: CALL when both the
      live price and the last close are above the LTB, else PUT when both
      are below the LTA. REVERSAO: PUT near the LTB with K, D >= 95 and
      RSI >= 70, else CALL near the LTA with K, D <= 5 and RSI <= 30. */
  function RuleV3(f: Features, lp: real, lines: TrendLines.Lines, lastClose: real, mode: Mode): (r: Option<Side>)
    ensures mode == Rompimento && r == Some(Call) ==> lp > lines.ltb && lastClose > lines.ltb
    ensures mode == Rompimento && r == Some(Put) ==> lp < lines.lta && lastClose < lines.lta
    ensures mode == Rompimento && lp > lines.ltb && lastClose > lines.ltb ==> r == Some(Call)
    ensures mode == Reversao && r == Some(Put) ==>
      RelNear(lp, lines.ltb, NEAR_V3) && f.sd.k >= 95.0 && f.sd.d >= 95.0 && f.rsiNow >= 70.0
    ensures mode == Reversao && r == Some(Call) ==>
      RelNear(lp, lines.lta, NEAR_V3) && f.sd.k <= 5.0 && f.sd.d <= 5.0 && f.rsiNow <= 30.0
  {
    if mode == Rompimento then
      if lp > lines.ltb && lastClose > lines.ltb then Some(Call)
      else if lp < lines.lta && lastClose < lines.lta then Some(Put)
      else None
    else
      if RelNear(lp, lines.ltb, NEAR_V3) && f.sd.k >= 95.0 && f.sd.d >= 95.0 && f.rsiNow >= 70.0 then Some(Put)
      else if RelNear(lp, lines.lta, NEAR_V3) && f.sd.k <= 5.0 && f.sd.d <= 5.0 && f.rsiNow <= 30.0 then Some(Call)
      else None
  }

  /** `announceSignals` of bot-sinais3 for one symbol past the state gates
      (pending, open trade, cooldown): at least 28 closes, a live price and
      trend lines, the mode rule, then the macro filter. */
  function SignalV3(closes: seq<real>, lp: Option<real>, trends: Option<TrendLines.Lines>, mode: Mode): (r: Option<Side>)
    ensures |closes| < SIGNAL_MIN_CLOSES || lp.None? || trends.None? ==> r.None?
    ensures r == Some(Call) ==>
      !RG.TrendDown(Ema(closes + [lp.value], 50), Ema(closes + [lp.value], 200))
    ensures r == Some(Put) ==>
      !RG.TrendUp(Ema(closes + [lp.value], 50), Ema(closes + [lp.value], 200))
    ensures mode == Rompimento && r == Some(Call) ==>
      lp.value > trends.value.ltb && closes[|closes| - 1] > trends.value.ltb
    ensures mode == Rompimento && r == Some(Put) ==>
      lp.value < trends.value.lta && closes[|closes| - 1] < trends.value.lta
  {
    if |closes| < SIGNAL_MIN_CLOSES || lp.None? || trends.None? then None
    else
      var f := FeaturesOf(closes + [lp.value]);
      var side := RuleV3(f, lp.value, trends.value, closes[|closes| - 1], mode);
      if side.None? then None else MacroFilter(side.value, f)
  }

  /** The converse for ROMPIMENTO: a confirmed break above the LTB that the
      EMAs do not contradict always gives a CALL. */
  lemma BreakoutGivesCallV3(closes: seq<real>, lp: real, lines: TrendLines.Lines)
    requires |closes| >= SIGNAL_MIN_CLOSES
    requires lp > lines.ltb && closes[|closes| - 1] > lines.ltb
    requires !RG.TrendDown(Ema(closes + [lp], 50), Ema(closes + [lp], 200))
    ensures SignalV3(closes, Some(lp), Some(lines), Rompimento) == Some(Call)
  {
  }

  // --------------------------------------------------------------- bot-sinais4

  /** The regime rule of bot-sinais4. SIDE: PUT near the LTB with K, D >= 90
      and RSI at or above the adaptive sell threshold, else CALL near the LTA
      with K, D <= 10 and RSI at or below the buy threshold. TREND: CALL above
      the LTB, else PUT below the LTA. VOLATILE: PUT on K, D >= 95, RSI >= 70
      below the LTB, CALL on K, D <= 5, RSI <= 30 above the LTA. FLAT and
      UNKNOWN: nothing. */
  function RuleV4(f: Features, lp: real, lines: TrendLines.Lines, regime: RG.Regime, th: Learning.Thresholds): (r: Option<Side>)
    ensures regime == RG.Flat || regime == RG.Unknown ==> r.None?
    ensures regime == RG.Trend ==>
      (r == Some(Call) <==> lp > lines.ltb) && (r == Some(Put) <==> lp <= lines.ltb && lp < lines.lta)
    ensures regime == RG.Side && r == Some(Put) ==>
      RelNear(lp, lines.ltb, NEAR_V4) && f.sd.k >= 90.0 && f.sd.d >= 90.0 && f.rsiNow >= th.rsiSell as real
    ensures regime == RG.Side && r == Some(Call) ==>
      RelNear(lp, lines.lta, NEAR_V4) && f.sd.k <= 10.0 && f.sd.d <= 10.0 && f.rsiNow <= th.rsiBuy as real
    ensures regime == RG.Volatile && r == Some(Put) ==> f.sd.k >= 95.0 && f.rsiNow >= 70.0 && lp < lines.ltb
    ensures regime == RG.Volatile && r == Some(Call) ==> f.sd.k <= 5.0 && f.rsiNow <= 30.0 && lp > lines.lta
  {
    match regime
    case Side =>
      if RelNear(lp, lines.ltb, NEAR_V4) && f.sd.k >= 90.0 && f.sd.d >= 90.0 && f.rsiNow >= th.rsiSell as real then Some(Put)
      else if RelNear(lp, lines.lta, NEAR_V4) && f.sd.k <= 10.0 && f.sd.d <= 10.0 && f.rsiNow <= th.rsiBuy as real then Some(Call)
      else None
    case Trend =>
      if lp > lines.ltb then Some(Call)
      else if lp < lines.lta then Some(Put)
      else None
    case Volatile =>
      if (f.sd.k >= 95.0 && f.sd.d >= 95.0 && f.rsiNow >= 70.0 && lp < lines.ltb)
         || (f.sd.k <= 5.0 && f.sd.d <= 5.0 && f.rsiNow <= 30.0 && lp > lines.lta) then
        (if f.sd.k >= 95.0 then Some(Put) else Some(Call))
      else None
    case _ => None
  }

  /** The working series of bot-sinais4: the last 250 closes and the live price. */
  function WorkV4(closes: seq<real>, lp: real): (w: seq<real>)
    ensures |w| == MinInt(WORK_WINDOW, |closes|) + 1
    ensures w[|w| - 1] == lp
  {
    Last(closes, MinInt(WORK_WINDOW, |closes|)) + [lp]
  }

  /** The ATR floor, the regime rule and the macro filter. */
  function DecideV4(f: Features, lp: real, lines: TrendLines.Lines, regime: RG.Regime, atrVal: real,
                    th: Learning.Thresholds): (r: Option<Side>)
    ensures r.Some? ==> regime != RG.Flat && regime != RG.Unknown && atrVal >= MIN_ATR_V4
    ensures r == Some(Call) ==> !RG.TrendDown(f.ema50, f.ema200)
    ensures r == Some(Put) ==> !RG.TrendUp(f.ema50, f.ema200)
  {
    if atrVal < MIN_ATR_V4 then None
    else
      var side := RuleV4(f, lp, lines, regime, th);
      if side.None? then None else MacroFilter(side.value, f)
  }

  /** In a TREND regime with enough movement, a price above the LTB gives a
      CALL unless the EMAs point down. */
  lemma TrendBreakoutDecideV4(f: Features, lp: real, lines: TrendLines.Lines, atrVal: real, th: Learning.Thresholds)
    requires atrVal >= MIN_ATR_V4 && lp > lines.ltb
    requires !RG.TrendDown(f.ema50, f.ema200)
    ensures DecideV4(f, lp, lines, RG.Trend, atrVal, th) == Some(Call)
  {
  }

  /** The market gate of bot-sinais4: a regime other than FLAT or UNKNOWN
      and an ATR of at least 0.00015. */
  predicate TradableV4(closes: seq<real>) {
    |closes| > ATR_PERIOD
    && RG.DetectRegime(closes) != RG.Flat && RG.DetectRegime(closes) != RG.Unknown
    && Atr(closes, ATR_PERIOD).value >= MIN_ATR_V4
  }

  /** `announceSignals` of bot-sinais4 for one symbol without a pending
      signal or open trade: at least 28 closes, a live price and trend
      lines; no signal in a FLAT or UNKNOWN regime or with an ATR below
      0.00015; then the regime rule and the macro filter. */
  function SignalV4(closes: seq<real>, lp: Option<real>, trends: Option<TrendLines.Lines>, th: Learning.Thresholds): (r: Option<Side>)
    ensures |closes| < SIGNAL_MIN_CLOSES || lp.None? || trends.None? ==> r.None?
    ensures r.Some? ==> |closes| >= SIGNAL_MIN_CLOSES && lp.Some? && trends.Some?
    ensures r == Some(Call) ==>
      !RG.TrendDown(Ema(WorkV4(closes, lp.value), 50), Ema(WorkV4(closes, lp.value), 200))
    ensures r == Some(Put) ==>
      !RG.TrendUp(Ema(WorkV4(closes, lp.value), 50), Ema(WorkV4(closes, lp.value), 200))
  {
    if |closes| < SIGNAL_MIN_CLOSES || lp.None? || trends.None? then None
    else
      DecideV4(FeaturesOf(WorkV4(closes, lp.value)), lp.value, trends.value,
               RG.DetectRegime(closes), Atr(closes, ATR_PERIOD).value, th)
  }

  lemma DecideV4Tradable(f: Features, lp: real, lines: TrendLines.Lines, closes: seq<real>, th: Learning.Thresholds)
    requires |closes| > ATR_PERIOD
    ensures DecideV4(f, lp, lines, RG.DetectRegime(closes), Atr(closes, ATR_PERIOD).value, th).Some? ==>
      TradableV4(closes)
  {
  }

  /** Every bot-sinais4 signal passed the market gate. */
  lemma SignalV4NeedsTradable(closes: seq<real>, lp: Option<real>, trends: Option<TrendLines.Lines>, th: Learning.Thresholds)
    ensures SignalV4(closes, lp, trends, th).Some? ==> TradableV4(closes)
  {
    if SignalV4(closes, lp, trends, th).Some? {
      var f := FeaturesOf(WorkV4(closes, lp.value));
      DecideV4Tradable(f, lp.value, trends.value, closes, th);
    }
  }

  /** A price that has not moved over the last 15 closes never signals in
      bot-sinais4 (its ATR is 0), where bot-sinais announces a CALL. */
  lemma StillMarketNoSignalV4(closes: seq<real>, lp: Option<real>, trends: Option<TrendLines.Lines>, th: Learning.Thresholds)
    requires |closes| >= ATR_PERIOD + 1
    requires forall i :: |closes| - ATR_PERIOD - 1 <= i < |closes| ==> closes[i] == closes[|closes| - 1]
    ensures SignalV4(closes, lp, trends, th).None?
  {
    AtrOfFlat(closes, ATR_PERIOD);
  }
}

=== FILE: support_resistance.dfy ===
/** Support and resistance levels of bot-sinais2 (`computeSRLevels`): the
    recent highs and lows are binned on a price grid whose step follows the
    ATR, each price adds a weight to its nearest bin, and the heaviest bin of
    the highs (resistance, "top") and of the lows (support, "bottom") are the
    levels when both carry at least four touches. */
module SupportResistance {
  import opened Num
  import Indicators

  const SR_LOOKBACK: nat := 300
  const SR_MIN_BARS: nat := 50
  const SR_MIN_TOUCHES: real := 4.0
  const SR_BIN_SIZE_ATR: real := 0.35
  const SR_PROX_ATR: real := 0.18

  /** A price bin: accumulated weight `c` at grid price `p`. */
  datatype Bin = Bin(c: real, p: real)

  /** What `computeSRLevels` yields: null, an exception (bumping into an
      empty bin list throws), or levels that are present together or not at all. */
  datatype SrOutcome = NoLevels | Raised | Levels(top: Option<real>, bottom: Option<real>, atr: real)

  /** How many grid prices `minP, minP + step, ...` do not exceed `limit`. */
  function BinCount(minP: real, limit: real, step: real): nat
    requires step > 0.0
  {
    if limit < minP then 0 else ((limit - minP) / step).Floor + 1
  }

  /** Scaling by a positive step preserves the order against `q`, the
      step count that reaches `limit` exactly. */
  lemma ScaledCompare(minP: real, limit: real, step: real, q: real, x: real)
    requires step > 0.0 && q * step == limit - minP
    ensures minP + x * step <= limit <==> x <= q
  {
    if x <= q {
      MulMono(x, q, step);
    } else {
      MulStrictMono(q, x, step);
    }
  }

  /** The i-th grid price is within the limit exactly when `i` is below the bin count. */
  lemma BinCountSpec(minP: real, limit: real, step: real, i: nat)
    requires step > 0.0
    ensures minP + i as real * step <= limit <==> i < BinCount(minP, limit, step)
  {
    if limit >= minP {
      var q := (limit - minP) / step;
      assert q * step == limit - minP;
      ScaledCompare(minP, limit, step, q, i as real);
    } else {
      MulNonNeg(i as real, step);
    }
  }

  /** Reference definition of the bin grid: zero weights at `minP + i * step`. */
  function Bins(minP: real, maxP: real, step: real): (r: seq<Bin>)
    requires step > 0.0
    ensures |r| == BinCount(minP, maxP + step * 0.5, step)
    ensures forall i :: 0 <= i < |r| ==> r[i] == Bin(0.0, minP + i as real * step)
    ensures forall i :: 0 <= i < |r| ==> minP <= r[i].p <= maxP + step * 0.5
  {
    var r := seq(BinCount(minP, maxP + step * 0.5, step), i requires 0 <= i => Bin(0.0, minP + i as real * step));
    forall i | 0 <= i < |r|
      ensures minP <= r[i].p <= maxP + step * 0.5
    {
      BinCountSpec(minP, maxP + step * 0.5, step, i);
      assert i as real * step >= 0.0;
    }
    r
  }

  /** `buildBins`: the loop `for (p = minP; p <= maxP + step/2; p += step)`
      builds exactly the reference grid, every price within the limit. */
  method BuildBins(minP: real, maxP: real, step: real) returns (bins: seq<Bin>)
    requires step > 0.0
    ensures bins == Bins(minP, maxP, step)
    ensures forall i :: 0 <= i < |bins| ==> bins[i].p <= maxP + step * 0.5
  {
    var limit := maxP + step * 0.5;
    bins := [];
    var p := minP;
    BinCountSpec(minP, limit, step, 0);
    while p <= limit
      invariant p == minP + |bins| as real * step
      invariant |bins| <= BinCount(minP, limit, step)
      invariant forall i :: 0 <= i < |bins| ==> bins[i] == Bin(0.0, minP + i as real * step)
      invariant forall i :: 0 <= i < |bins| ==> bins[i].p <= limit
      decreases BinCount(minP, limit, step) - |bins|
    {
      BinCountSpec(minP, limit, step, |bins|);
      bins := bins + [Bin(0.0, p)];
      p := p + step;
      assert p == minP + |bins| as real * step;
    }
    BinCountSpec(minP, limit, step, |bins|);
  }

  function Dist(b: Bin, price: real): real {
    Abs(b.p - price)
  }

  /** The bin `bumpClosestBin` picks: the nearest one, the earliest among
      equally near bins (`i === 0 || d < best`). */
  function NearestIdx(bins: seq<Bin>, price: real): (r: nat)
    requires |bins| >= 1
    ensures r < |bins|
    ensures forall j :: 0 <= j < |bins| ==> Dist(bins[r], price) <= Dist(bins[j], price)
    ensures forall j :: 0 <= j < r ==> Dist(bins[j], price) > Dist(bins[r], price)
    decreases |bins|
  {
    if |bins| == 1 then 0
    else
      var init := bins[..|bins| - 1];
      var j := NearestIdx(init, price);
      assert forall k :: 0 <= k < |init| ==> init[k] == bins[k];
      if Dist(bins[|bins| - 1], price) < Dist(bins[j], price) then |bins| - 1 else j
  }

  /** The weight a touch adds: `max(0.2, 1 - best / step)`. */
  function Weight(best: real, step: real): (w: real)
    requires best >= 0.0 && step > 0.0
    ensures 0.2 <= w <= 1.0
  {
    assert best / step >= 0.0;
    Max(0.2, 1.0 - best / step)
  }

  /** `bumpClosestBin`: adds a weight in [0.2, 1] to the nearest bin and
      changes nothing else. */
  function Bump(bins: seq<Bin>, price: real, step: real): (r: seq<Bin>)
    requires |bins| >= 1 && step > 0.0
    ensures |r| == |bins|
    ensures var bi := NearestIdx(bins, price);
      r[bi].p == bins[bi].p && 0.2 <= r[bi].c - bins[bi].c <= 1.0
      && forall j :: 0 <= j < |bins| && j != bi ==> r[j] == bins[j]
  {
    var bi := NearestIdx(bins, price);
    bins[bi := Bin(bins[bi].c + Weight(Dist(bins[bi], price), step), bins[bi].p)]
  }

  function Counts(bins: seq<Bin>): (r: seq<real>)
    ensures |r| == |bins| && forall i :: 0 <= i < |r| ==> r[i] == bins[i].c
  {
    seq(|bins|, i requires 0 <= i < |bins| => bins[i].c)
  }

  lemma {:induction false} SumUpdate(s: seq<real>, i: nat, v: real)
    requires i < |s|
    ensures Sum(s[i := v]) == Sum(s) - s[i] + v
    decreases |s|
  {
    var t := s[i := v];
    if i < |s| - 1 {
      assert t[..|t| - 1] == s[..|s| - 1][i := v];
      SumUpdate(s[..|s| - 1], i, v);
    } else {
      assert t[..|t| - 1] == s[..|s| - 1];
    }
  }

  lemma {:induction false} ElementAtMostSum(s: seq<real>, i: nat)
    requires i < |s|
    requires forall k :: 0 <= k < |s| ==> s[k] >= 0.0
    ensures s[i] <= Sum(s)
    decreases |s|
  {
    var init := s[..|s| - 1];
    SumBounds(init, 0.0, MaxOf(s));
    if i < |s| - 1 {
      ElementAtMostSum(init, i);
    }
  }

  /** One bump adds between 0.2 and 1 to the total weight. */
  lemma BumpWeight(bins: seq<Bin>, price: real, step: real)
    requires |bins| >= 1 && step > 0.0
    ensures Sum(Counts(bins)) + 0.2 <= Sum(Counts(Bump(bins, price, step))) <= Sum(Counts(bins)) + 1.0
  {
    var r := Bump(bins, price, step);
    var bi := NearestIdx(bins, price);
    assert Counts(r) == Counts(bins)[bi := r[bi].c];
    SumUpdate(Counts(bins), bi, r[bi].c);
  }

  /** Bumping every price in turn, as the two loops over `h` and `l` do:
      grid prices stay put, weights stay non-negative, and the total weight
      grows by between 0.2 and 1 per price. */
  function BumpAll(bins: seq<Bin>, prices: seq<real>, step: real): (r: seq<Bin>)
    requires |bins| >= 1 && step > 0.0
    ensures |r| == |bins|
    ensures forall i :: 0 <= i < |r| ==> r[i].p == bins[i].p
    ensures (forall i :: 0 <= i < |bins| ==> bins[i].c >= 0.0) ==> forall i :: 0 <= i < |r| ==> r[i].c >= 0.0
    ensures Sum(Counts(bins)) + 0.2 * |prices| as real <= Sum(Counts(r)) <= Sum(Counts(bins)) + |prices| as real
    decreases |prices|
  {
    if |prices| == 0 then bins
    else
      var prev := BumpAll(bins, prices[..|prices| - 1], step);
      BumpWeight(prev, prices[|prices| - 1], step);
      Bump(prev, prices[|prices| - 1], step)
  }

  /** The bin `reduce((a, b) => b.c > a.c ? b : a, bins[0])` returns: the
      heaviest one, the earliest among equally heavy bins. */
  function HeaviestIdx(bins: seq<Bin>): (r: nat)
    requires |bins| >= 1
    ensures r < |bins|
    ensures forall j :: 0 <= j < |bins| ==> bins[j].c <= bins[r].c
    ensures forall j :: 0 <= j < r ==> bins[j].c < bins[r].c
    decreases |bins|
  {
    if |bins| == 1 then 0
    else
      var init := bins[..|bins| - 1];
      var j := HeaviestIdx(init);
      assert forall k :: 0 <= k < |init| ==> init[k] == bins[k];
      if bins[|bins| - 1].c > bins[j].c then |bins| - 1 else j
  }

  /** The number of bars `computeSRLevels` looks back over. */
  function Window(closes: seq<real>): nat {
    MinInt(SR_LOOKBACK, |closes|)
  }

  /** `arr.slice(-n)`: the last `n` values, or all of them when there are fewer. */
  function SliceLast(s: seq<real>, n: nat): (r: seq<real>)
    ensures |r| == MinInt(n, |s|)
    ensures r == s[|s| - |r|..]
  {
    Last(s, MinInt(n, |s|))
  }

  /** The ATR period `min(ATR_PERIOD, floor(n * 0.4))`. */
  function SrAtrPeriod(n: nat): nat {
    MinInt(Indicators.ATR_PERIOD, (n * 2) / 5)
  }

  /** With at least 50 bars, `floor(n * 0.4)` is at least 20, so the period is 14. */
  lemma SrAtrPeriodIsFourteen(n: nat)
    requires n >= SR_MIN_BARS
    ensures SrAtrPeriod(n) == Indicators.ATR_PERIOD
  {
    assert n * 2 >= 100;
    assert (n * 2) / 5 >= 20;
  }

  /** The bin width `max(atr * 0.35, (maxP - minP) / 200)`. */
  function Step(atrVal: real, minP: real, maxP: real): real {
    Max(atrVal * SR_BIN_SIZE_ATR, (maxP - minP) / 200.0)
  }

  /** `computeSRLevels`: null with fewer than 50 closes, no highs or lows,
      or a zero ATR; otherwise the levels of the last (up to) 300 bars. */
  function ComputeSRLevels(closes: seq<real>, highs: seq<real>, lows: seq<real>): (r: SrOutcome)
    ensures r.Levels? ==> r.atr > 0.0 && (r.top.Some? <==> r.bottom.Some?)
    ensures r.NoLevels? <==>
      |closes| < SR_MIN_BARS || |highs| == 0 || |lows| == 0
      || Indicators.Atr(Last(closes, Window(closes)), Indicators.ATR_PERIOD).value <= 0.0
    ensures !r.NoLevels? ==> r == LevelsOnWindow(SliceLast(highs, Window(closes)), SliceLast(lows, Window(closes)),
      Indicators.Atr(Last(closes, Window(closes)), Indicators.ATR_PERIOD).value)
  {
    if |closes| < SR_MIN_BARS || |highs| == 0 || |lows| == 0 then NoLevels
    else
      var n := Window(closes);
      SrAtrPeriodIsFourteen(n);
      var atrVal := Indicators.Atr(Last(closes, n), SrAtrPeriod(n)).GetOr(0.0);
      if atrVal <= 0.0 then NoLevels
      else LevelsOnWindow(SliceLast(highs, n), SliceLast(lows, n), atrVal)
  }

  /** With enough bars, `computeSRLevels` returns null exactly when the
      last 15 closes are all equal (the ATR is then zero). */
  lemma NoLevelsIffFlatCloses(closes: seq<real>, highs: seq<real>, lows: seq<real>)
    requires |closes| >= SR_MIN_BARS && |highs| >= 1 && |lows| >= 1
    ensures ComputeSRLevels(closes, highs, lows).NoLevels? <==>
      forall i :: |closes| - 15 <= i < |closes| ==> closes[i] == closes[|closes| - 1]
  {
    var c := Last(closes, Window(closes));
    var off := |closes| - |c|;
    Indicators.AtrZeroIffFlat(c, 14);
    assert forall j :: 0 <= j < |c| ==> c[j] == closes[off + j];
    if forall i :: |closes| - 15 <= i < |closes| ==> closes[i] == closes[|closes| - 1] {
      forall j | |c| - 15 <= j < |c|
        ensures c[j] == c[|c| - 1]
      {
        assert c[j] == closes[off + j];
      }
    }
    if forall j :: |c| - 15 <= j < |c| ==> c[j] == c[|c| - 1] {
      forall i | |closes| - 15 <= i < |closes|
        ensures closes[i] == closes[|closes| - 1]
      {
        assert closes[i] == c[i - off];
      }
    }
  }

  /** The grid part of `computeSRLevels` on the windowed highs and lows: an
      exception when the lows lie above every high (no bin fits), otherwise
      the levels `LevelsFrom` picks on the grid, which lie inside the grid's
      price range with at least four bars behind each one. */
  function LevelsOnWindow(h: seq<real>, l: seq<real>, atrVal: real): (r: SrOutcome)
    requires |h| >= 1 && |l| >= 1 && atrVal > 0.0
    ensures r.Raised? || r.Levels?
    ensures r.Levels? ==> r.atr == atrVal && (r.top.Some? <==> r.bottom.Some?)
    ensures r.Raised? ==> MaxOf(h) < MinOf(l)
    ensures var step := Step(atrVal, MinOf(l), MaxOf(h));
      r.Levels? ==>
        |Bins(MinOf(l), MaxOf(h), step)| >= 1 && r == LevelsFrom(Bins(MinOf(l), MaxOf(h), step), h, l, step, atrVal)
    ensures r.Levels? && r.top.Some? ==>
      var step := Step(atrVal, MinOf(l), MaxOf(h));
      MinOf(l) <= r.top.value <= MaxOf(h) + step * 0.5
      && MinOf(l) <= r.bottom.value <= MaxOf(h) + step * 0.5
      && |h| >= 4 && |l| >= 4
  {
    var minP := MinOf(l);
    var maxP := MaxOf(h);
    var step := Step(atrVal, minP, maxP);
    var grid := Bins(minP, maxP, step);
    if |grid| == 0 then
      assert maxP + step * 0.5 < minP;
      Raised
    else
      LevelsFrom(grid, h, l, step, atrVal)
  }

  /** A window whose some low is not above its some high, as every real candle
      has, never makes `computeSRLevels` throw. */
  lemma NeverRaisedOnWellFormedCandle(closes: seq<real>, highs: seq<real>, lows: seq<real>)
    requires |highs| >= 1 && |lows| >= 1
    requires lows[|lows| - 1] <= highs[|highs| - 1]
    ensures !ComputeSRLevels(closes, highs, lows).Raised?
  {
    if |closes| >= SR_MIN_BARS {
      var n := Window(closes);
      var h := SliceLast(highs, n);
      var l := SliceLast(lows, n);
      assert h[|h| - 1] == highs[|highs| - 1];
      assert l[|l| - 1] == lows[|lows| - 1];
    }
  }

  /** Starting from an empty grid, no bin collects more weight than there
      are prices. */
  lemma TouchesBound(grid: seq<Bin>, prices: seq<real>, step: real)
    requires |grid| >= 1 && step > 0.0
    requires forall i :: 0 <= i < |grid| ==> grid[i].c == 0.0
    ensures forall i :: 0 <= i < |grid| ==> BumpAll(grid, prices, step)[i].c <= |prices| as real
  {
    var r := BumpAll(grid, prices, step);
    var cs := Counts(r);
    SumConstant(Counts(grid), 0.0);
    assert Sum(cs) <= |prices| as real;
    assert forall k :: 0 <= k < |cs| ==> cs[k] >= 0.0;
    forall i | 0 <= i < |grid|
      ensures r[i].c <= |prices| as real
    {
      ElementAtMostSum(cs, i);
    }
  }

  /** Some bin has gathered at least weight `w`. */
  predicate Reaches(bins: seq<Bin>, w: real) {
    exists i :: 0 <= i < |bins| && bins[i].c >= w
  }

  /** The heaviest bin reaches a weight exactly when some bin does. */
  lemma HeaviestReaches(bins: seq<Bin>, w: real)
    requires |bins| >= 1
    ensures Reaches(bins, w) <==> bins[HeaviestIdx(bins)].c >= w
  {
    var hi := HeaviestIdx(bins);
    if bins[hi].c < w {
      forall i | 0 <= i < |bins|
        ensures bins[i].c < w
      {
        assert bins[i].c <= bins[hi].c;
      }
    }
  }

  /** The last part of `computeSRLevels`, once the grid is non-empty: bump
      both grids, take each one's heaviest bin, and require four touches. */
  function LevelsFrom(grid: seq<Bin>, h: seq<real>, l: seq<real>, step: real, atrVal: real): (r: SrOutcome)
    requires |grid| >= 1 && step > 0.0 && atrVal > 0.0
    requires forall i :: 0 <= i < |grid| ==> grid[i].c == 0.0
    ensures r.Levels? && r.atr == atrVal && (r.top.Some? <==> r.bottom.Some?)
    ensures r.top.Some? ==>
      (exists i :: 0 <= i < |grid| && grid[i].p == r.top.value)
      && (exists i :: 0 <= i < |grid| && grid[i].p == r.bottom.value)
      && |h| >= 4 && |l| >= 4
    ensures var top := BumpAll(grid, h, step);
      var bot := BumpAll(grid, l, step);
      r.top.Some? <==> Reaches(top, SR_MIN_TOUCHES) && Reaches(bot, SR_MIN_TOUCHES)
    ensures var top := BumpAll(grid, h, step);
      var bot := BumpAll(grid, l, step);
      r.top.Some? ==>
        r.top.value == grid[HeaviestIdx(top)].p && r.bottom.value == grid[HeaviestIdx(bot)].p
  {
    var top := BumpAll(grid, h, step);
    var bot := BumpAll(grid, l, step);
    var ti := HeaviestIdx(top);
    var bi := HeaviestIdx(bot);
    HeaviestReaches(top, SR_MIN_TOUCHES);
    HeaviestReaches(bot, SR_MIN_TOUCHES);
    if top[ti].c < SR_MIN_TOUCHES || bot[bi].c < SR_MIN_TOUCHES then Levels(None, None, atrVal)
    else
      TouchesBound(grid, h, step);
      TouchesBound(grid, l, step);
      assert grid[ti].p == top[ti].p;
      assert grid[bi].p == bot[bi].p;
      Levels(Some(top[ti].p), Some(bot[bi].p), atrVal)
  }
}

=== FILE: trade.dfy ===
/** The trade vocabulary shared by the four bots: sides, outcomes, modes,
    the pending signal and the open trade, the per-symbol counters and the
    day's result log with its daily statistics and bankroll. */
module Trade {
  import opened Num

  datatype Side = Call | Put
  datatype Outcome = Win | Loss

  /** The per-symbol trading mode: trade rejections of a level, or trade its break. */
  datatype Mode = Reversao | Rompimento

  /** An announced signal waiting for the next enter step. */
  datatype Pending = Pending(side: Side, price: real)

  /** An open trade. The entry price is the live price at promotion time,
      absent when the symbol had none. */
  datatype Entry = Entry(side: Side, entryPrice: Option<real>)

  /** Per-symbol counters (`state.stats[symbol]`). */
  datatype Stats = Stats(total: nat, wins: nat)

  /** One line of the day's result log (`addResultToStore`). */
  datatype Record = Record(symbol: string, side: Side, result: Outcome, entryPrice: real, exitPrice: real)

  /** The day's store entry: the result log, newest first, and the daily counters. */
  datatype Day = Day(results: seq<Record>, total: nat, wins: nat)

  const STAKE: real := 1.0
  const PAYOUT: real := 0.89
  /** bot-sinais4 keeps at most this many results per day. */
  const RESULTS_CAP: nat := 500

  /** The outcome rule of every bot: WIN when the move in the trade's
      direction strictly exceeds `minMove` (0 in bot-sinais and bot-sinais2,
      a fraction of the ATR in bot-sinais3 and bot-sinais4). */
  function Score(side: Side, entry: real, exit: real, minMove: real): (o: Outcome)
    ensures o == Win <==> Gain(side, entry, exit) > minMove
    ensures minMove >= 0.0 && o == Win ==> exit != entry
  {
    var diff := exit - entry;
    if side == Call && diff > minMove then Win
    else if side == Put && -diff > minMove then Win
    else Loss
  }

  /** The move in the trade's direction: up for a CALL, down for a PUT. */
  function Gain(side: Side, entry: real, exit: real): real {
    if side == Call then exit - entry else entry - exit
  }

  /** With no floor, a CALL wins exactly when the exit is above the entry and
      a PUT exactly when it is below; an unchanged price is a loss. */
  lemma StrictRule(side: Side, entry: real, exit: real)
    ensures Score(side, entry, exit, 0.0) == Win <==>
      (side == Call && exit > entry) || (side == Put && exit < entry)
    ensures Score(side, entry, entry, 0.0) == Loss
  {
  }

  /** For any price change exactly one side wins without a floor; with no
      change both lose. */
  lemma ExactlyOneSideWins(entry: real, exit: real)
    ensures exit != entry ==> (Score(Call, entry, exit, 0.0) == Win <==> Score(Put, entry, exit, 0.0) == Loss)
    ensures exit == entry ==> Score(Call, entry, exit, 0.0) == Loss && Score(Put, entry, exit, 0.0) == Loss
  {
  }

  /** Raising the floor can only turn wins into losses. */
  lemma FloorMonotone(side: Side, entry: real, exit: real, m1: real, m2: real)
    requires m1 <= m2
    ensures Score(side, entry, exit, m2) == Win ==> Score(side, entry, exit, m1) == Win
  {
  }

  /** `stats.total += 1; if (WIN) stats.wins += 1`. */
  function Tally(st: Stats, o: Outcome): (r: Stats)
    ensures r.total == st.total + 1
    ensures r.wins == st.wins + (if o == Win then 1 else 0)
    ensures st.wins <= st.total ==> r.wins <= r.total
  {
    Stats(st.total + 1, if o == Win then st.wins + 1 else st.wins)
  }

  /** Bankroll change of one closed trade: `+stake * payout` or `-stake`. */
  function Delta(o: Outcome, stake: real, payout: real): (d: real)
    ensures stake > 0.0 && payout > 0.0 ==> (d > 0.0 <==> o == Win)
    ensures stake >= 0.0 && payout >= 0.0 ==> -stake <= d <= stake * payout
  {
    if o == Win then stake * payout else -stake
  }

  function WinsIn(recs: seq<Record>): (n: nat)
    ensures n <= |recs|
    decreases |recs|
  {
    if |recs| == 0 then 0
    else WinsIn(recs[..|recs| - 1]) + (if recs[|recs| - 1].result == Win then 1 else 0)
  }

  lemma {:induction false} WinsInPrepend(rec: Record, recs: seq<Record>)
    ensures WinsIn([rec] + recs) == WinsIn(recs) + (if rec.result == Win then 1 else 0)
    decreases |recs|
  {
    if |recs| == 0 {
      assert [rec] + recs == [rec];
      assert [rec][..0] == [];
    } else {
      var init := recs[..|recs| - 1];
      assert ([rec] + recs)[..|recs|] == [rec] + init;
      WinsInPrepend(rec, init);
    }
  }

  /** `results.filter(r => r.symbol === symbol)`, order kept. */
  function OfSymbol(recs: seq<Record>, symbol: string): (r: seq<Record>)
    ensures |r| <= |recs|
    ensures forall i :: 0 <= i < |r| ==> r[i].symbol == symbol
    decreases |recs|
  {
    if |recs| == 0 then []
    else OfSymbol(recs[..|recs| - 1], symbol) + (if recs[|recs| - 1].symbol == symbol then [recs[|recs| - 1]] else [])
  }

  lemma {:induction false} OfSymbolPrepend(rec: Record, recs: seq<Record>, symbol: string)
    ensures OfSymbol([rec] + recs, symbol) == (if rec.symbol == symbol then [rec] else []) + OfSymbol(recs, symbol)
    decreases |recs|
  {
    if |recs| == 0 {
      assert [rec] + recs == [rec];
      assert [rec][..0] == [];
    } else {
      var init := recs[..|recs| - 1];
      assert ([rec] + recs)[..|recs|] == [rec] + init;
      OfSymbolPrepend(rec, init, symbol);
    }
  }

  /** `arr.slice(0, n)`: the first `n` entries, or all of them. */
  function Take(recs: seq<Record>, n: nat): (r: seq<Record>)
    ensures |r| == MinInt(n, |recs|)
    ensures r == recs[..|r|]
  {
    recs[..MinInt(n, |recs|)]
  }

  /** Share of wins, or `dflt` for an empty list. */
  function WinRate(recs: seq<Record>, dflt: real): (wr: real)
    ensures |recs| == 0 ==> wr == dflt
    ensures |recs| > 0 ==> 0.0 <= wr <= 1.0
    ensures |recs| > 0 ==> (wr == 1.0 <==> WinsIn(recs) == |recs|) && (wr == 0.0 <==> WinsIn(recs) == 0)
  {
    if |recs| == 0 then dflt else WinsIn(recs) as real / |recs| as real
  }

  /** `addResultToStore`: the record goes first, the log is cut back to
      `cap` entries when one applies (bot-sinais4), and the daily counters
      advance regardless of the cut. */
  function AddResult(day: Day, rec: Record, cap: Option<nat>): (r: Day)
    requires cap.Some? ==> cap.value >= 1
    ensures |r.results| >= 1 && r.results[0] == rec
    ensures cap.None? ==> r.results == [rec] + day.results
    ensures cap.Some? ==>
              |r.results| == MinInt(|day.results| + 1, cap.value) && r.results == ([rec] + day.results)[..|r.results|]
    ensures r.total == day.total + 1
    ensures r.wins == day.wins + (if rec.result == Win then 1 else 0)
  {
    var all := [rec] + day.results;
    var kept := if cap.Some? && |all| > cap.value then all[..cap.value] else all;
    Day(kept, day.total + 1, day.wins + (if rec.result == Win then 1 else 0))
  }

  /** `losses = max(0, total - wins)`. */
  function DayLosses(day: Day): (n: nat)
    ensures day.wins <= day.total ==> n + day.wins == day.total
  {
    if day.total >= day.wins then day.total - day.wins else 0
  }

  /** The daily counters agree with the log. */
  predicate CountersMatchLog(day: Day) {
    day.total == |day.results| && day.wins == WinsIn(day.results)
  }

  /** Without a cap, adding a result keeps the daily counters equal to the
      log's length and win count. */
  lemma AddResultKeepsCounters(day: Day, rec: Record)
    requires CountersMatchLog(day)
    ensures CountersMatchLog(AddResult(day, rec, None))
  {
    WinsInPrepend(rec, day.results);
  }

  /** Under the 500 cap the counters run ahead of the log once it is full. */
  lemma CappedCountersRunAhead(day: Day, rec: Record)
    requires day.total >= |day.results|
    ensures AddResult(day, rec, Some(RESULTS_CAP)).total >= |AddResult(day, rec, Some(RESULTS_CAP)).results|
  {
  }

  /** `recalcSaldoFromResults`: the bankroll implied by a result log, which
      is wins times `stake * payout` minus losses times `stake`. */
  function Recalc(results: seq<Record>, stake: real, payout: real): (b: real)
    ensures b == WinsIn(results) as real * stake * payout - (|results| - WinsIn(results)) as real * stake
    decreases |results|
  {
    if |results| == 0 then 0.0
    else Recalc(results[..|results| - 1], stake, payout) + Delta(results[|results| - 1].result, stake, payout)
  }

  lemma {:induction false} RecalcPrepend(rec: Record, recs: seq<Record>, stake: real, payout: real)
    ensures Recalc([rec] + recs, stake, payout) == Delta(rec.result, stake, payout) + Recalc(recs, stake, payout)
    decreases |recs|
  {
    if |recs| == 0 {
      assert [rec] + recs == [rec];
      assert [rec][..0] == [];
    } else {
      var init := recs[..|recs| - 1];
      assert ([rec] + recs)[..|recs|] == [rec] + init;
      RecalcPrepend(rec, init, stake, payout);
    }
  }

  /** The per-symbol counters `loadDayToUI` rebuilds from the log. */
  function StatsFromLog(results: seq<Record>, symbol: string): (r: Stats)
    ensures r.wins <= r.total
    ensures r.total <= |results|
  {
    var mine := OfSymbol(results, symbol);
    Stats(|mine|, WinsIn(mine))
  }

  /** Tallying a symbol's own new result keeps its counters equal to the
      rebuilt ones; other symbols' counters are unaffected by the record. */
  lemma TallyMatchesLog(results: seq<Record>, rec: Record, symbol: string)
    ensures rec.symbol == symbol ==>
      StatsFromLog([rec] + results, symbol) == Tally(StatsFromLog(results, symbol), rec.result)
    ensures rec.symbol != symbol ==>
      StatsFromLog([rec] + results, symbol) == StatsFromLog(results, symbol)
  {
    OfSymbolPrepend(rec, results, symbol);
    if rec.symbol == symbol {
      WinsInPrepend(rec, OfSymbol(results, symbol));
    } else {
      assert [] + OfSymbol(results, symbol) == OfSymbol(results, symbol);
    }
  }
}

=== FILE: trendlines.dfy ===
/** Trend lines of bot-sinais3 and bot-sinais4 (`computeTrendLines`): the
    descending line through the two most recent swing highs (LTB) and the
    ascending line through the two most recent swing lows (LTA), both
    evaluated at the last bar. */
module TrendLines {
  import opened Num

  const MIN_BARS: nat := 20

  datatype Pivot = Pivot(idx: int, val: real)

  /** The two lines, present together or not at all. */
  datatype Lines = Lines(ltb: real, lta: real)

  /** A strict local maximum; an index whose neighbour is out of range reads
      `undefined` in the source and is never a pivot. */
  predicate IsHighPivot(h: seq<real>, i: int) {
    1 <= i && i + 1 < |h| && h[i] > h[i - 1] && h[i] > h[i + 1]
  }

  /** A strict local minimum, with the same range rule. */
  predicate IsLowPivot(l: seq<real>, i: int) {
    1 <= i && i + 1 < |l| && l[i] < l[i - 1] && l[i] < l[i + 1]
  }

  /** Reference definition: every high pivot at indices `i, i-1, ..., 2`,
      most recent first. */
  function AllHighs(h: seq<real>, i: int): seq<Pivot>
    decreases i
  {
    if i <= 1 then []
    else (if IsHighPivot(h, i) then [Pivot(i, h[i])] else []) + AllHighs(h, i - 1)
  }

  /** Reference definition: every low pivot at indices `i, i-1, ..., 2`. */
  function AllLows(l: seq<real>, i: int): seq<Pivot>
    decreases i
  {
    if i <= 1 then []
    else (if IsLowPivot(l, i) then [Pivot(i, l[i])] else []) + AllLows(l, i - 1)
  }

  /** Every entry is a pivot of its series at an index in `[2, i]`, carrying that bar's value. */
  predicate HighsSound(h: seq<real>, ps: seq<Pivot>, i: int) {
    forall k :: 0 <= k < |ps| ==> 2 <= ps[k].idx <= i && IsHighPivot(h, ps[k].idx) && ps[k].val == h[ps[k].idx]
  }

  predicate LowsSound(l: seq<real>, ps: seq<Pivot>, i: int) {
    forall k :: 0 <= k < |ps| ==> 2 <= ps[k].idx <= i && IsLowPivot(l, ps[k].idx) && ps[k].val == l[ps[k].idx]
  }

  /** Most recent first: indices strictly decrease along the list. */
  predicate Descending(ps: seq<Pivot>) {
    forall k :: 0 <= k < |ps| - 1 ==> ps[k].idx > ps[k + 1].idx
  }

  /** The reference list holds high pivots of `[2, i]` only, in strictly
      descending index order. */
  lemma {:induction false} AllHighsSound(h: seq<real>, i: int)
    ensures HighsSound(h, AllHighs(h, i), i)
    ensures Descending(AllHighs(h, i))
    decreases i
  {
    if i > 1 {
      AllHighsSound(h, i - 1);
      var rest := AllHighs(h, i - 1);
      if IsHighPivot(h, i) {
        var all := [Pivot(i, h[i])] + rest;
        assert AllHighs(h, i) == all;
        assert forall k :: 1 <= k < |all| ==> all[k] == rest[k - 1];
      } else {
        assert AllHighs(h, i) == rest;
      }
    }
  }

  /** The same for the reference list of low pivots. */
  lemma {:induction false} AllLowsSound(l: seq<real>, i: int)
    ensures LowsSound(l, AllLows(l, i), i)
    ensures Descending(AllLows(l, i))
    decreases i
  {
    if i > 1 {
      AllLowsSound(l, i - 1);
      var rest := AllLows(l, i - 1);
      if IsLowPivot(l, i) {
        var all := [Pivot(i, l[i])] + rest;
        assert AllLows(l, i) == all;
        assert forall k :: 1 <= k < |all| ==> all[k] == rest[k - 1];
      } else {
        assert AllLows(l, i) == rest;
      }
    }
  }

  lemma PrefixTrans(a: seq<Pivot>, b: seq<Pivot>, c: seq<Pivot>)
    requires a <= b && b <= c
    ensures a <= c
  {
    assert forall k :: 0 <= k < |a| ==> a[k] == b[k] == c[k];
  }

  /** One step of the scan keeps the collected list plus what is left to
      scan equal to the full reference list. */
  lemma StepHighs(h: seq<real>, i: int, hs: seq<Pivot>)
    requires i > 1
    ensures var hs' := if IsHighPivot(h, i) then hs + [Pivot(i, h[i])] else hs;
      hs <= hs' && hs' + AllHighs(h, i - 1) == hs + AllHighs(h, i)
  {
    if IsHighPivot(h, i) {
      assert hs + [Pivot(i, h[i])] + AllHighs(h, i - 1) == hs + ([Pivot(i, h[i])] + AllHighs(h, i - 1));
    }
  }

  lemma StepLows(l: seq<real>, i: int, ls: seq<Pivot>)
    requires i > 1
    ensures var ls' := if IsLowPivot(l, i) then ls + [Pivot(i, l[i])] else ls;
      ls <= ls' && ls' + AllLows(l, i - 1) == ls + AllLows(l, i)
  {
    if IsLowPivot(l, i) {
      assert ls + [Pivot(i, l[i])] + AllLows(l, i - 1) == ls + ([Pivot(i, l[i])] + AllLows(l, i - 1));
    }
  }

  /** The pivot scan of `computeTrendLines`: from `i` down to 2, collecting
      high and low pivots and stopping once both lists hold three. */
  function Scan(h: seq<real>, l: seq<real>, i: int, hs: seq<Pivot>, ls: seq<Pivot>): (r: (seq<Pivot>, seq<Pivot>))
    ensures hs <= r.0 && r.0 <= hs + AllHighs(h, i)
    ensures ls <= r.1 && r.1 <= ls + AllLows(l, i)
    ensures (|r.0| >= 3 && |r.1| >= 3) || (r.0 == hs + AllHighs(h, i) && r.1 == ls + AllLows(l, i))
    decreases i
  {
    if i <= 1 then
      assert hs + AllHighs(h, i) == hs;
      assert ls + AllLows(l, i) == ls;
      (hs, ls)
    else
      var hs' := if IsHighPivot(h, i) then hs + [Pivot(i, h[i])] else hs;
      var ls' := if IsLowPivot(l, i) then ls + [Pivot(i, l[i])] else ls;
      StepHighs(h, i, hs);
      StepLows(l, i, ls);
      if |hs'| >= 3 && |ls'| >= 3 then
        assert hs' <= hs' + AllHighs(h, i - 1);
        assert ls' <= ls' + AllLows(l, i - 1);
        (hs', ls')
      else
        var r := Scan(h, l, i - 1, hs', ls');
        PrefixTrans(hs, hs', r.0);
        PrefixTrans(ls, ls', r.1);
        r
  }

  /** The value at bar `x` of the line through two pivots, written as the
      source does: from the older pivot `b` with the slope between them. */
  function LineAt(a: Pivot, b: Pivot, x: int): real
    requires a.idx != b.idx
  {
    b.val + (b.val - a.val) / ((b.idx - a.idx) as real) * ((x - b.idx) as real)
  }

  /** The line passes through both of its pivots. */
  lemma LineThroughPivots(a: Pivot, b: Pivot)
    requires a.idx != b.idx
    ensures LineAt(a, b, b.idx) == b.val
    ensures LineAt(a, b, a.idx) == a.val
  {
    var dx := (b.idx - a.idx) as real;
    var slope := (b.val - a.val) / dx;
    assert slope * dx == b.val - a.val;
    assert (a.idx - b.idx) as real == -dx;
    assert slope * (-dx) == -(b.val - a.val);
    assert LineAt(a, b, a.idx) == b.val + slope * (-dx);
  }

  /** Two pivots at the same level give a flat line at that level. */
  lemma FlatLine(a: Pivot, b: Pivot, x: int)
    requires a.idx != b.idx && a.val == b.val
    ensures LineAt(a, b, x) == a.val
  {
  }

  /** `computeTrendLines`: null with fewer than 20 highs or lows or fewer than
      two pivots of either kind; otherwise both lines, each through the two
      most recent pivots of its kind and evaluated at the last bar. */
  function ComputeTrendLines(h: seq<real>, l: seq<real>): (r: Option<Lines>)
    ensures r.Some? <==>
      |h| >= MIN_BARS && |l| >= MIN_BARS && |AllHighs(h, |h| - 2)| >= 2 && |AllLows(l, |h| - 2)| >= 2
    ensures r.Some? ==>
      var hp := AllHighs(h, |h| - 2);
      var lp := AllLows(l, |h| - 2);
      hp[0].idx > hp[1].idx && lp[0].idx > lp[1].idx &&
      r.value == Lines(LineAt(hp[0], hp[1], |h| - 1), LineAt(lp[0], lp[1], |h| - 1))
  {
    if |h| < MIN_BARS || |l| < MIN_BARS then None
    else
      var sc := Scan(h, l, |h| - 2, [], []);
      var hp := AllHighs(h, |h| - 2);
      var lp := AllLows(l, |h| - 2);
      assert [] + hp == hp && [] + lp == lp;
      if |sc.0| < 2 || |sc.1| < 2 then None
      else
        AllHighsSound(h, |h| - 2);
        AllLowsSound(l, |h| - 2);
        assert sc.0[0] == hp[0] && sc.0[1] == hp[1];
        assert sc.1[0] == lp[0] && sc.1[1] == lp[1];
        var h1 := sc.0[0];
        var h2 := sc.0[1];
        var l1 := sc.1[0];
        var l2 := sc.1[1];
        Some(Lines(LineAt(h1, h2, |h| - 1), LineAt(l1, l2, |h| - 1)))
  }

  lemma {:induction false} NoHighPivotsOnFlat(h: seq<real>, i: int)
    requires forall k :: 0 <= k < |h| ==> h[k] == h[0]
    ensures AllHighs(h, i) == []
    decreases i
  {
    if i > 1 {
      NoHighPivotsOnFlat(h, i - 1);
      assert !IsHighPivot(h, i);
    }
  }

  /** A constant high series has no pivots and so gives no trend lines. */
  lemma NoLinesOnFlatSeries(h: seq<real>, l: seq<real>)
    requires forall i :: 0 <= i < |h| ==> h[i] == h[0]
    ensures ComputeTrendLines(h, l).None?
  {
    NoHighPivotsOnFlat(h, |h| - 2);
  }
}
